=== FILE: README.md ===
# A verified model of a small esoteric-language compiler

The compiler translates a toy language to x86-64 NASM assembly in three passes:

- **Tokenizer** (`src/tokenization.h`): turns the source text into tokens. These are keywords (`is`, `else`, `doit`, `yeet`, `imagine`, `print`), identifiers, decimal integers, string literals, operators and punctuation, and one closing end-of-input token.
- **Parser** (`src/parser.h`): a recursive-descent parser. It produces statements (`yeet e;`, `is (c) {..} else {..}`, `doit (n) {..}`, `imagine x = e;`, `print(e);`, blocks and expression statements) and expressions. Expressions have assignment, then four binary precedence levels, then unary minus, then primary forms.
- **Generator** (`src/generation.h`): first collects the variables and string literals into numbered slots. It then emits a `.data` section, a `.bss` section and a `.text` section. Expressions evaluate into `rax` through the stack, `print` formats numbers with an inline decimal formatter, and `doit` counts down in `r10`.

Each pass is modelled in two layers:

- a reference definition made of functions: `Lexer`, `Grammar`, `Collection` and `Codegen`;
- a class that does what the source's class does, step by step: `Tokenization.Tokenizer`, `Parsing.Parser` and `Generation.Generator`.

Each class method is proved to compute its reference function. The properties the compiler promises are then proved about the reference functions:

- the shape of the token stream;
- precedence and associativity of parsed trees, and a round trip: every tree the parser can build is printed back to tokens (`Printer`) that parse to the same tree;
- first-occurrence slot numbering;
- unique, well-scoped labels;
- the meaning of the emitted expression code on a small machine model (`Machine`);
- the decimal formatter and the `doit` loop (`Runtime`).

Modules, one per file:

- `Wrappers`: `Option`.
- `Decimal`: decimal digits and 64-bit bounds.
- `Lexer`, `Tokenization`: the tokenizer.
- `Ast`, `Grammar`, `Parsing`: the parser.
- `Printer`: trees back to tokens, the parser's partner in the round trip.
- `Asm`: assembly lines, their rendering and the generator's quoting of pool strings.
- `Collection`, `Codegen`, `Labels`, `Machine`, `Runtime`, `Generation`: the generator.

## Model

| member | source | states |
|---|---|---|
| Lexer.WordToken | src/tokenization.h:34-43 | the six keywords become their own token with no lexeme; any other word becomes an identifier that carries its text |
| Lexer.RunEnd | src/tokenization.h:72-75 | a scanning loop stops at the first character outside its class or at the end of input, and every character it passes is in the class |
| Lexer.Scan | src/tokenization.h:32-60 | a token it recognises advances the cursor, is never end-of-input, and carries a digit run for a number and text for an identifier or string |
| Lexer.ScanNumber | src/tokenization.h:33 | a digit starts a maximal digit run, and the token carries that run |
| Lexer.ScanWord | src/tokenization.h:34-43 | a letter or `_` starts a maximal identifier run, which becomes a keyword or an identifier |
| Lexer.ScanString | src/tokenization.h:45 | a string succeeds exactly when a closing quote follows; its text is the characters strictly between the quotes; the closing quote is consumed |
| Lexer.ScanOperator | src/tokenization.h:46-59 | `<=`, `>=`, `==` and `!=` are preferred over the one-character operators; a `!` not followed by `=` fails |
| Lexer.ScanCharacters | src/tokenization.h:60 | a character that starts no token fails the lex; a non-string token spans only token characters and holds no quote |
| Lexer.LexWellFormed | src/tokenization.h:27-64 | a successful lex ends with exactly one end-of-input token, and every lexeme is well-formed |
| Lexer.UnknownCharacterFails | src/tokenization.h:45-60 | one unknown character outside string literals (an even number of quotes before it, as literals have no escapes) makes the whole lex fail |
| Lexer.TokenBeforeUnknown | src/tokenization.h:32-60 | a token that starts before such a character ends at or before it, so the lexer reaches it outside any literal |
| Tokenization.Tokenizer.Tokenize | src/tokenization.h:27-64 | the tokenizer loop returns exactly the reference token sequence from the current position (None where the source throws) |
| Tokenization.Tokenizer.NextToken | src/tokenization.h:32-45 | one loop iteration from a non-blank character produces the reference token and moves the cursor to just after it |
| Tokenization.Tokenizer.NextSymbol | src/tokenization.h:46-60 | the operator and punctuation branches produce the reference token, or fail as the reference does |
| Tokenization.Tokenizer.Advance | src/tokenization.h:70 | returns the current character and moves the cursor one place |
| Tokenization.Tokenizer.Match | src/tokenization.h:71 | consumes the character exactly when it is next, otherwise leaves the cursor alone |
| Tokenization.Tokenizer.SkipWs | src/tokenization.h:72 | moves the cursor to the end of the whitespace run |
| Tokenization.Tokenizer.ReadNumber | src/tokenization.h:74 | consumes the maximal digit run and returns it |
| Tokenization.Tokenizer.ReadIdent | src/tokenization.h:75 | consumes the maximal identifier run and returns it |
| Tokenization.Tokenizer.ReadString | src/tokenization.h:76 | succeeds exactly when a closing quote exists, returns the text between the quotes and moves past the closing quote |
| Tokenization.LexSource | src/tokenization.h:26-27 | constructing a tokenizer and tokenizing yields the reference lex, and its output is well-formed |
| Grammar.Advance | src/parser.h:56 | advancing never passes the end-of-input token; it moves exactly one token otherwise |
| Grammar.Expect | src/parser.h:59 | consuming succeeds only on the expected kind and moves one token; on failure the token is not that kind |
| Grammar.ParsePrimary | src/parser.h:227-256 | a primary consumes at least one token and is a level-0 tree the parser can build |
| Grammar.PrimaryStart | src/parser.h:228-255 | a primary parses only from an integer, string, name or `(` token, every other token fails it; an integer literal holds the decimal value of its digits and fails exactly when that value is above 2^63-1; a `(` primary is the assignment expression up to a matching `)` and fails without it |
| Grammar.ParseUnary | src/parser.h:214-226 | unary minus applies to a unary or primary operand; at least one token is consumed |
| Grammar.UnaryShape | src/parser.h:214-226 | `-` takes a unary expression as its operand and fails without one; any other token goes to the primary parser, so `+x` fails |
| Grammar.ParseLevel | src/parser.h:170-213 | each binary level yields a tree whose left operand binds no more loosely than the operator and whose right operand binds strictly tighter, so the result is left-associative with the stated precedence |
| Grammar.LevelShape | src/parser.h:170-213 | a level parses only as its first operand followed by the level's operator loop, and fails without that operand |
| Grammar.LevelTailShape | src/parser.h:170-213 | the operator loop stops at the first token that is not one of the level's operators; an operator must be followed by an operand that folds into the left side, and an operator without its right operand fails the expression |
| Grammar.ParseAssignment | src/parser.h:154-169 | assignment parses to a precedence-respecting tree and consumes at least one token |
| Grammar.AssignTarget | src/parser.h:156-166 | `=` after an equality expression that is not a bare variable fails the parse; when it succeeds, the target is that variable and the value is the assignment parsed after `=` |
| Grammar.ParseParenExpr | src/parser.h:72-75 | a parenthesised expression starts with `(` and ends with `)`, and fails without either |
| Grammar.ParenShape | src/parser.h:72-75 | the expression of `( e )` is exactly the one parsed after the `(`, ending just before the `)` |
| Grammar.ParseExprSemi | src/parser.h:129-131 | a successful parse ends with the `;` it consumed, so an expression without its `;` fails |
| Grammar.ParseStmt | src/parser.h:61-136 | every statement parse consumes at least one token and produces a precedence-respecting tree |
| Grammar.StmtDispatch | src/parser.h:61-135 | a statement's first token chooses its routine: each keyword hands over to its own, `{` to the block parser, and any other token gives an expression statement that must end with `;` |
| Grammar.YeetShape | src/parser.h:62-65 | `yeet` is followed by exactly an expression and its `;` |
| Grammar.ParseIf | src/parser.h:71-87 | an `is` statement yields an If node |
| Grammar.IfShape | src/parser.h:71-76 | `is` parses only when `( cond )` comes first; the condition is the expression between the parentheses, and the branches follow them |
| Grammar.BranchesShape | src/parser.h:76-86 | the branches of `is` are a block whose statements form the then list, then the `else` part |
| Grammar.ElseBranch | src/parser.h:78-86 | the else part keeps the parsed condition and then-branch |
| Grammar.ElseRequired | src/parser.h:78-86 | without `else` the branch fails; with it, the else list is the statements of the block that follows |
| Grammar.DoItShape | src/parser.h:88-94 | `doit` parses only as `( count ) block`: the count is the expression between the parentheses, the body the block's statements |
| Grammar.ImagineShape | src/parser.h:101-108 | `imagine` parses only as a name, `=`, an expression and `;`; the declared name is the identifier's text |
| Grammar.PrintShape | src/parser.h:115-120 | `print` parses only as `( e )` followed by `;` |
| Grammar.ParseBlock | src/parser.h:138-151 | a block starts at `{` and ends just after `}` |
| Grammar.BlockItems | src/parser.h:141-145 | the statement loop stops only at `}` or end of input |
| Grammar.BlockItemsShape | src/parser.h:141-145 | before `}` or end of input the list is one statement then the rest; a statement that fails fails the block |
| Grammar.ProgramItems | src/parser.h:42-46 | a successful program parse stops exactly at the end-of-input token, and every statement in it respects precedence |
| Grammar.ProgramItemsShape | src/parser.h:42-46 | before end of input the program is one statement then the rest; a statement that fails fails the whole program |
| Parsing.Parser.Parse | src/parser.h:40-48 | the parser loop returns exactly the reference program parse |
| Parsing.Parser.Advance | src/parser.h:56 | the cursor moves as the reference advance does, and the previous token is returned |
| Parsing.Parser.MatchAny | src/parser.h:58 | matches exactly when the next token is one of the kinds and is not end-of-input |
| Parsing.Parser.Consume | src/parser.h:59 | agrees with the reference expect, and leaves the cursor alone on failure |
| Parsing.Parser.ParseStmt | src/parser.h:61-136 | result and cursor agree with the reference statement parse |
| Parsing.Parser.ParseOtherStmt | src/parser.h:101-136 | once `yeet`, `is` and `doit` are ruled out, result and cursor agree with the reference statement parse |
| Parsing.Parser.ParseBlockOrExprStmt | src/parser.h:126-135 | a `{` starts a block, anything else an expression statement; result and cursor agree with the reference statement parse |
| Parsing.Parser.ParseYeet | src/parser.h:62-70 | result and cursor agree with the reference |
| Parsing.Parser.ParseIf | src/parser.h:71-87 | result and cursor agree with the reference |
| Parsing.Parser.ParseDoIt | src/parser.h:88-100 | result and cursor agree with the reference |
| Parsing.Parser.ParseImagine | src/parser.h:101-114 | result and cursor agree with the reference |
| Parsing.Parser.ParsePrint | src/parser.h:115-125 | result and cursor agree with the reference |
| Parsing.Parser.ParseBlock | src/parser.h:138-151 | result and cursor agree with the reference |
| Parsing.Parser.ParseAssignment | src/parser.h:154-169 | result and cursor agree with the reference |
| Parsing.Parser.ParseEquality | src/parser.h:170-180 | result and cursor agree with the reference level-4 parse |
| Parsing.Parser.ParseRelational | src/parser.h:181-191 | result and cursor agree with the reference level-3 parse |
| Parsing.Parser.ParseAdditive | src/parser.h:192-202 | result and cursor agree with the reference level-2 parse |
| Parsing.Parser.ParseMultiplicative | src/parser.h:203-213 | result and cursor agree with the reference level-1 parse |
| Parsing.Parser.ParseUnary | src/parser.h:214-226 | result and cursor agree with the reference |
| Parsing.Parser.ParsePrimary | src/parser.h:227-256 | result and cursor agree with the reference |
| Printer.UnaryPrint | src/parser.h:214-256 | a printed literal, name, group or negation is read back by `parse_unary` to the same tree, whatever follows it |
| Printer.ChainPrint | src/parser.h:170-213 | a printed tree of a binary level is read as a left-leaning chain of that level's operators, each operand binding tighter |
| Printer.LevelPrint | src/parser.h:170-213 | a printed tree of a binary level, followed by no operator of that level or tighter, is read back exactly |
| Printer.AssignPrint | src/parser.h:154-169 | every expression tree the parser can build, followed by a token that continues no expression, is read back by `parse_assignment` to the same tree |
| Printer.ParenPrint | src/parser.h:72-75 | a printed `(e)` is read back as `e`, consuming exactly its tokens |
| Printer.StmtPrint | src/parser.h:61-136 | every statement the parser can build is printed to tokens that `parse_stmt` reads back to the same statement, consuming exactly them |
| Printer.BlockPrint | src/parser.h:138-151 | a printed block is read back by `parse_block` as a block of the same statements |
| Printer.ItemsPrint | src/parser.h:141-145 | printed statements followed by `}` or the end of input are read back, in order, by the block's statement loop |
| Printer.ProgramItemsPrint | src/parser.h:42-46 | printed statements followed by the end of input are read back, in order, by the program loop |
| Printer.StmtClean | src/tokenization.h:27-64 | a printed statement holds no end-of-input token, and its lexemes are of the forms the tokenizer produces |
| Printer.ProgramRoundTrip | src/parser.h:40-48 | a program of statements the parser can build prints to a well-formed token stream, and parsing that stream gives back the same program |
| Collection.Ensure | src/generation.h:115-128 | afterwards the name has a slot, the old entries keep theirs, a slot is added exactly when the name is new, and a table without repeats stays without repeats |
| Collection.EnsureIdempotent | src/generation.h:115-128 | ensuring a name that has a slot changes nothing, so ensuring twice is ensuring once |
| Collection.AddAllContents | src/generation.h:57-114 | after collecting, the table holds exactly the old entries and the names met |
| Collection.AddAllExtends | src/generation.h:115-128 | collecting only appends, so existing slots never move |
| Collection.AddAllDistinct | src/generation.h:115-128 | the table never holds a name twice |
| Collection.AddAllIdempotent | src/generation.h:115-128 | collecting names already present changes nothing |
| Collection.AddAllFirstOccurrences | src/generation.h:57-114 | starting from empty tables, slots are numbered in first-occurrence order |
| Collection.EnsureIndexed | src/generation.h:115-128 | the index map stays in step with the table; a new name's index is the table's old size |
| Collection.CollectCovers | src/generation.h:112-114 | after collection, every variable and string that code generation looks up has a slot |
| Generation.Generator.NewLabel | src/generation.h:55 | returns the incremented counter, so successive labels strictly increase |
| Generation.Generator.EnsureVar | src/generation.h:115-121 | the variable table and index grow exactly as the reference ensure says |
| Generation.Generator.EnsureStr | src/generation.h:122-128 | the string table and index grow exactly as the reference ensure says |
| Generation.Generator.CollectExpr | src/generation.h:57-82 | the tables grow by the names of the expression, in visiting order |
| Generation.Generator.CollectStmt | src/generation.h:83-111 | the tables grow by the names of the statement, in visiting order |
| Generation.Generator.Collect | src/generation.h:112-114 | the tables grow by the names of the program, in visiting order |
| Generation.Generator.GenExpr | src/generation.h:243-344 | appends exactly the reference expression code and changes no table and no label |
| Generation.Generator.GenBinary | src/generation.h:274-338 | appends left code, `push rax`, right code, `mov rbx, rax`, `pop rcx` and the operator code |
| Generation.Generator.GenPrint | src/generation.h:191-241 | appends the reference print code; a number print takes one label, a string print none |
| Generation.Generator.GenStmt | src/generation.h:134-189 | appends the reference statement code and advances the label counter to its end |
| Generation.Generator.GenIf | src/generation.h:151-163 | takes two labels, then appends the condition, the jumps and both branches as the reference does |
| Generation.Generator.GenLoop | src/generation.h:164-177 | takes two labels, then appends the count code, the `r10` loop head, the body and the countdown |
| Generation.Generator.GenBlock | src/generation.h:130-132 | appends the statements' code in order |
| Generation.Generator.Quote | src/generation.h:24-29 | writes each `'` twice and every other character once, so reading the doubled-quote convention back gives the original string |
| Generation.Generator.EmitData | src/generation.h:20-31 | emits one quoted string and one length constant per slot, in slot order |
| Generation.Generator.EmitBss | src/generation.h:34-36 | emits one quadword per variable slot |
| Generation.Generator.Generate | src/generation.h:14-45 | collects, replaces the output, emits the program in section order, covers every lookup and numbers labels from the counter's old value; all labels are defined once and used only where defined |
| Asm.TextAppend | src/generation.h:14-45 | the rendered text of concatenated output is the concatenation of the texts |
| Asm.EscapeRoundTrip | src/generation.h:24-29 | reading the doubled-quote convention back from a quoted string gives the original |
| Asm.EscapeLength | src/generation.h:24-29 | quoting adds one character per `'` and leaves a string without `'` unchanged |
| Codegen.ExprCodeStraight | src/generation.h:243-344 | expression code defines and jumps to no label and never writes `r10` |
| Codegen.ProgramFrame | src/generation.h:14-45 | the output starts with the `.data` header and ends with the exit-0 system call |
| Labels.PrintLabels | src/generation.h:204-228 | a number print uses its one fresh label for its three local labels, each defined once |
| Labels.StmtLabels | src/generation.h:134-189 | a statement uses exactly its own count of fresh labels; each label is defined once and every jump targets a defined label |
| Labels.BlockLabels | src/generation.h:130-132 | a block's labels are those of its statements, consecutive and disjoint |
| Labels.ProgramLabels | src/generation.h:14-45 | the whole program's labels are defined once each, from the counter's old value onwards, and every jump has a target |
| Machine.TruncDivision | src/generation.h:293-303 | `idiv` division truncates toward zero, and the remainder takes the dividend's sign and is smaller than the divisor |
| Machine.ExprCodeCorrect | src/generation.h:243-344 | running the expression code leaves the expression's value in `rax`, the stack as it was, and memory in step with the variables |
| Machine.BinaryCorrect | src/generation.h:274-338 | the left operand is evaluated first, then the right; push and pop balance, and the operator's result is in `rax` |
| Machine.OpCorrect | src/generation.h:280-336 | each operator's code computes its value from `rcx` (left) and `rbx` (right) into `rax` |
| Machine.CompareCorrect | src/generation.h:304-333 | a comparison leaves 1 in `rax` when it holds and 0 otherwise |
| Machine.AssignCorrect | src/generation.h:259-266 | an assignment stores its value in the variable's slot and leaves it in `rax` |
| Machine.UnaryCorrect | src/generation.h:267-273 | unary minus negates the operand's value |
| Runtime.WriteDigits | src/generation.h:215-223 | the digit loop writes the digits back to front ending at the buffer's end, at most 19 of them, and touches nothing before them |
| Runtime.FormatNumber | src/generation.h:207-233 | the formatter writes exactly the decimal text of the value at the end of the 64-byte buffer, at most 20 characters |
| Decimal.DecimalTextRoundTrip | src/generation.h:246-248 | the decimal text of a value reads back as that value |
| Decimal.DecimalTextBound | src/generation.h:206-233 | a 64-bit value's decimal text is at most 20 characters |
| Decimal.DigitsRoundTrip | src/parser.h:229-232 | the digit text of a number reads back as the number |
| Runtime.DoitSkips | src/generation.h:168-170 | a count of zero or less runs the body zero times |
| Runtime.DoitCounts | src/generation.h:168-174 | a positive count with a body that leaves `r10` alone runs the body exactly that many times |
| Runtime.DoitClobbered | src/generation.h:168-174 | a body that leaves `r10` at zero or below (an inner `doit`) makes a positive-count loop never finish |
| Runtime.StmtTouchesR10 | src/generation.h:164-177 | a statement's code writes `r10` exactly when it contains a `doit` |
| Runtime.BlockTouchesR10 | src/generation.h:130-132 | a block's code writes `r10` exactly when one of its statements contains a `doit` |

## Left out

- Input and output, the `write` and `exit` system calls, the assembler and the linker are not modelled. The generated text is a `seq<Line>` of instruction values, and `Asm.Render` gives each line's text. `src/main.cpp`, the driver, is not part of this model.
- Character classes are the ASCII readings of `isspace`, `isdigit`, `isalpha` and `isalnum`; locales are not modelled.
- The tokenizer's `runtime_error` is modelled as a `None` result.
- Grammar.ParsePrimary: an integer literal above 2^63-1 makes `stoll` throw `out_of_range` (src/parser.h:231). The driver catches exceptions only around tokenizing, so the compiler terminates there without its "parse error" message. The model returns a parse failure instead; it does not model the exception.
- Machine.ExprCodeCorrect: integers are unbounded, so the 64-bit wrap-around of `imul`, `add`, `sub` and `neg` is not modelled. `idiv` divides the sign-extended `rax` only, and the overflow fault of the most negative value divided by -1 is not modelled. Division by zero is modelled as a fault that stops the machine; what the operating system then does is not modelled.
- Machine: instructions that expression code does not use (the system call, jumps, labels) stop the machine model. Addresses of strings come from the linker and are parameters.
- Runtime.FormatNumber: models the formatter's loop and buffer on a `char` array with the integer value; it is not executed on the machine model. The `div` of the magnitude of the most negative value is read as the unsigned 2^63, as the hardware does.
- Runtime.DoitCounts: the loop body is abstracted as a function from `r10` to `r10`. Which bodies leave `r10` alone is stated separately by Runtime.StmtTouchesR10.
- Generation.Generator.GenExpr, GenStmt, GenPrint and the other emitting methods require every name they look up to have a slot. The source's `operator[]` would insert slot 0 for a missing name, but `generate` always collects first, so this cannot happen there (Collection.CollectCovers).
- Parsing.Parser and Grammar require a well-formed token stream: non-empty, exactly one end-of-input token, and that token last. The tokenizer always produces one (Lexer.LexWellFormed); on an empty vector the source would read out of bounds.
- Printer: an integer literal is printed by its magnitude, so a negative `IntLit`, which the parser never builds, does not round-trip; the round trip covers exactly the trees the parser can build.
- The `Program` is held by value. The source's reference member `p` aliases the caller's program, which the model does not capture.

## Behaviour kept as written

- A nested `doit` reuses `r10`, so the inner loop overwrites the outer counter (src/generation.h:168-174). The model keeps the code as written. Runtime.StmtTouchesR10 shows that a body writes `r10` exactly when it contains a `doit`. Runtime.DoitClobbered shows that an outer loop with a positive count then never stops.
- A string literal containing `'` is written with each `'` doubled inside single quotes (src/generation.h:24-29). NASM keeps single-quoted text verbatim and has no doubled-quote escape, so it does not read such a line back as the original text. The model keeps the doubling; `Asm.Unescape` is the reading the code assumes, not NASM's.
- `label_id` is not reset between calls of `generate` (src/generation.h:53-55). Generation.Generator.Generate numbers labels from the counter's old value, whatever it is.
- The variable `first` in the data-section loop (src/generation.h:23) is never read; the model has no counterpart.
- A binary node whose operator is not one of the eleven arithmetic or comparison tokens emits no operator code (src/generation.h:334-335). Its value is then the right operand, and `Machine.Apply` says so. The parser never builds such a node.

=== FILE: asm.dfy ===
/**
 * The NASM text the generator writes, one `Line` per line of output.
 * `Render` gives each line's exact text and `Text` the whole listing, so the
 * generator can be modelled as appending lines to a sequence.
 */
module Asm {
  import Decimal
  import opened Wrappers

  datatype Reg = Rax | Rbx | Rcx | Rdx | Rsi | Rdi | R10

  /** Condition-code suffixes, as used by `setCC` and `jCC`. */
  datatype Cond = Eq | Ne | Lt | Le | Gt | Ge | Nz

  /** The four label families: `.L<n>`, and `.Lpos<n>`, `.Lloop<n>`, `.Lnosign<n>` of a number print. */
  datatype Label = Plain(n: int) | Pos(n: int) | Loop(n: int) | NoSign(n: int)

  datatype Line =
    // data and bss sections
    | Section(name: string)
    | NewlineByte
    | StrData(si: int, quoted: string)
    | StrLen(si: int)
    | NumBuf
    | VarSlot(vi: int)
    | GlobalStart
    | Start
    | Def(defined: Label)
    // instructions
    | MovImm(dst: Reg, imm: int)
    | MovReg(dst: Reg, src: Reg)
    | LoadVar(vi: int)
    | StoreVar(vi: int)
    | LeaStr(si: int)
    | MovStr(si: int)
    | MovStrLen(si: int)
    | MovNewline
    | MovBufEnd(dst: Reg)
    | Push(reg: Reg)
    | Pop(reg: Reg)
    | Neg(reg: Reg)
    | Dec(reg: Reg)
    | Div(reg: Reg)
    | Idiv(reg: Reg)
    | Add(dst: Reg, src: Reg)
    | Sub(dst: Reg, src: Reg)
    | Imul(dst: Reg, src: Reg)
    | Xor(dst: Reg, src: Reg)
    | Test(dst: Reg, src: Reg)
    | Cmp(dst: Reg, src: Reg)
    | CmpImm(dst: Reg, imm: int)
    | Cqo
    | Set(cond: Cond)
    | Jmp(target: Label)
    | Jump(cond: Cond, target: Label)
    | AddAsciiZero
    | StoreDigit
    | StoreMinus
    | Syscall

  function RegName(r: Reg): string {
    match r
    case Rax => "rax"
    case Rbx => "rbx"
    case Rcx => "rcx"
    case Rdx => "rdx"
    case Rsi => "rsi"
    case Rdi => "rdi"
    case R10 => "r10"
  }

  function CondName(c: Cond): string {
    match c
    case Eq => "e"
    case Ne => "ne"
    case Lt => "l"
    case Le => "le"
    case Gt => "g"
    case Ge => "ge"
    case Nz => "nz"
  }

  function LabelName(l: Label): string {
    match l
    case Plain(n) => ".L" + Decimal.DecimalText(n)
    case Pos(n) => ".Lpos" + Decimal.DecimalText(n)
    case Loop(n) => ".Lloop" + Decimal.DecimalText(n)
    case NoSign(n) => ".Lnosign" + Decimal.DecimalText(n)
  }

  function Num(n: int): string {
    Decimal.DecimalText(n)
  }

  /** The text of one line, without its newline; instructions are indented by four spaces. */
  function Render(line: Line): string {
    match line
    case Section(name) => "section ." + name
    case NewlineByte => "newline db 10"
    case StrData(si, quoted) => "str" + Num(si) + " db '" + quoted + "'"
    case StrLen(si) => "str" + Num(si) + "_len equ $-str" + Num(si)
    case NumBuf => "numbuf resb 64"
    case VarSlot(vi) => "var" + Num(vi) + " resq 1"
    case GlobalStart => "global _start"
    case Start => "_start:"
    case Def(l) => LabelName(l) + ":"
    case MovImm(d, v) => "    mov " + RegName(d) + ", " + Num(v)
    case MovReg(d, s) => "    mov " + RegName(d) + ", " + RegName(s)
    case LoadVar(vi) => "    mov rax, [var" + Num(vi) + "]"
    case StoreVar(vi) => "    mov [var" + Num(vi) + "], rax"
    case LeaStr(si) => "    lea rax, [rel str" + Num(si) + "]"
    case MovStr(si) => "    mov rsi, str" + Num(si)
    case MovStrLen(si) => "    mov rdx, str" + Num(si) + "_len"
    case MovNewline => "    mov rsi, newline"
    case MovBufEnd(d) => "    mov " + RegName(d) + ", numbuf+64"
    case Push(r) => "    push " + RegName(r)
    case Pop(r) => "    pop " + RegName(r)
    case Neg(r) => "    neg " + RegName(r)
    case Dec(r) => "    dec " + RegName(r)
    case Div(r) => "    div " + RegName(r)
    case Idiv(r) => "    idiv " + RegName(r)
    case Add(d, s) => "    add " + RegName(d) + ", " + RegName(s)
    case Sub(d, s) => "    sub " + RegName(d) + ", " + RegName(s)
    case Imul(d, s) => "    imul " + RegName(d) + ", " + RegName(s)
    case Xor(d, s) => "    xor " + RegName(d) + ", " + RegName(s)
    case Test(d, s) => "    test " + RegName(d) + ", " + RegName(s)
    case Cmp(d, s) => "    cmp " + RegName(d) + ", " + RegName(s)
    case CmpImm(d, v) => "    cmp " + RegName(d) + ", " + Num(v)
    case Cqo => "    cqo"
    case Set(c) => "    set" + CondName(c) + " al"
    case Jmp(l) => "    jmp " + LabelName(l)
    case Jump(c, l) => "    j" + CondName(c) + " " + LabelName(l)
    case AddAsciiZero => "    add rdx, '0'"
    case StoreDigit => "    mov [rsi], dl"
    case StoreMinus => "    mov byte [rsi], '-'"
    case Syscall => "    syscall"
  }

  /** The listing: every line followed by a newline. */
  function Text(lines: seq<Line>): string {
    if |lines| == 0 then "" else Render(lines[0]) + "\n" + Text(lines[1..])
  }

  lemma {:induction false} TextAppend(a: seq<Line>, b: seq<Line>)
    ensures Text(a + b) == Text(a) + Text(b)
  {
    if |a| == 0 {
      assert a + b == b;
    } else {
      assert (a + b)[1..] == a[1..] + b;
      TextAppend(a[1..], b);
    }
  }

  // ----- quoting of string-pool entries -----

  /**
   * The body the generator writes between single quotes: every `'` doubled,
   * every other character kept. NASM itself keeps single-quoted text verbatim
   * and has no doubled-quote escape; the doubling is the generator's own
   * convention.
   */
  function Escape(s: string): (r: string)
    ensures |r| >= |s|
  {
    if |s| == 0 then ""
    else (if s[0] == '\'' then "''" else [s[0]]) + Escape(s[1..])
  }

  /** The reading the doubling convention assumes: `''` stands for one `'`; a lone `'` fails. */
  function Unescape(t: string): Option<string>
  {
    if |t| == 0 then Some("")
    else if t[0] != '\'' then
      match Unescape(t[1..])
      case None => None
      case Some(rest) => Some([t[0]] + rest)
    else if |t| >= 2 && t[1] == '\'' then
      match Unescape(t[2..])
      case None => None
      case Some(rest) => Some("'" + rest)
    else None
  }

  lemma {:induction false} EscapeRoundTrip(s: string)
    ensures Unescape(Escape(s)) == Some(s)
  {
    if |s| > 0 {
      EscapeRoundTrip(s[1..]);
      var t := Escape(s);
      if s[0] == '\'' {
        assert t[0] == '\'' && t[1] == '\'' && t[2..] == Escape(s[1..]);
        assert Unescape(t) == Some("'" + s[1..]);
        assert "'" + s[1..] == s;
      } else {
        assert t[0] == s[0] && t[1..] == Escape(s[1..]);
        assert Unescape(t) == Some([s[0]] + s[1..]);
        assert [s[0]] + s[1..] == s;
      }
    }
  }

  lemma {:induction false} EscapeAppend(a: string, b: string)
    ensures Escape(a + b) == Escape(a) + Escape(b)
  {
    if |a| == 0 {
      assert a + b == b;
    } else {
      assert (a + b)[1..] == a[1..] + b;
      EscapeAppend(a[1..], b);
    }
  }

  /** Escaping changes nothing in a string without quotes, and adds exactly one character per quote. */
  function Quotes(s: string): nat {
    if |s| == 0 then 0 else (if s[0] == '\'' then 1 else 0) + Quotes(s[1..])
  }

  lemma {:induction false} EscapeLength(s: string)
    ensures |Escape(s)| == |s| + Quotes(s)
    ensures Quotes(s) == 0 ==> Escape(s) == s
  {
    if |s| > 0 {
      EscapeLength(s[1..]);
      if Quotes(s) == 0 {
        assert s == [s[0]] + s[1..];
      }
    }
  }
}

=== FILE: ast.dfy ===
/**
 * The syntax tree the parser builds and the generator reads: a single-owner
 * tree of expressions and statements under one program root.
 */
module Ast {
  import Lexer

  datatype Expr =
    | IntLit(intLit: int)
    | StrLit(strLit: string)
    | Var(name: string)
    | Unary(op: Lexer.TokenType, operand: Expr)
    | Binary(op: Lexer.TokenType, left: Expr, right: Expr)
    | Grouping(inner: Expr)
    | Assignment(name: string, value: Expr)

  datatype Stmt =
    | YeetStmt(expr: Expr)
    | ExprStmt(expr: Expr)
    | Block(stmts: seq<Stmt>)
    | If(cond: Expr, thenStmts: seq<Stmt>, elseStmts: seq<Stmt>)
    | LoopDoIt(count: Expr, body: seq<Stmt>)
    | VarDecl(name: string, value: Expr)
    | PrintStmt(expr: Expr)

  datatype Program = Program(body: seq<Stmt>)
}

=== FILE: codegen.dfy ===
/**
 * The lines each `gen_*` routine of the generator appends, as functions of
 * the tree, the two index maps and the label counter. The class
 * `Generation.Generator` is proved to append exactly these lines.
 */
module Codegen {
  import opened Ast
  import opened Asm
  import Lexer
  import Collection

  /** What a statement-level routine appends, and the label counter afterwards. */
  datatype Emitted = Emitted(code: seq<Line>, next: int)

  type Index = map<string, int>

  predicate HasLabel(line: Line) {
    line.Def? || line.Jmp? || line.Jump?
  }

  function LabelOf(line: Line): Label
    requires HasLabel(line)
  {
    match line
    case Def(l) => l
    case Jmp(l) => l
    case Jump(_, l) => l
  }

  /** No label is defined or targeted: straight-line code. */
  predicate Straight(code: seq<Line>) {
    forall k | 0 <= k < |code| :: !HasLabel(code[k])
  }

  /** Instructions that write `r10`. */
  predicate WritesR10(line: Line) {
    (line.MovReg? && line.dst == R10) || (line.MovImm? && line.dst == R10) || (line.Dec? && line.reg == R10)
  }

  predicate TouchesR10(code: seq<Line>) {
    exists k | 0 <= k < |code| :: WritesR10(code[k])
  }

  // ----- expressions -----

  /** The instructions that finish a binary expression, with the left value in rcx and the right in rbx. */
  function OpCode(op: Lexer.TokenType): seq<Line> {
    match op
    case Plus => [Add(Rcx, Rbx), MovReg(Rax, Rcx)]
    case Minus => [Sub(Rcx, Rbx), MovReg(Rax, Rcx)]
    case Star => [MovReg(Rax, Rcx), Imul(Rax, Rbx)]
    case Slash => [MovReg(Rax, Rcx), Cqo, Idiv(Rbx)]
    case Percent => [MovReg(Rax, Rcx), Cqo, Idiv(Rbx), MovReg(Rax, Rdx)]
    case EqualEqual => [Cmp(Rcx, Rbx), MovImm(Rax, 0), Set(Eq)]
    case BangEqual => [Cmp(Rcx, Rbx), MovImm(Rax, 0), Set(Ne)]
    case Less => [Cmp(Rcx, Rbx), MovImm(Rax, 0), Set(Lt)]
    case LessEqual => [Cmp(Rcx, Rbx), MovImm(Rax, 0), Set(Le)]
    case Greater => [Cmp(Rcx, Rbx), MovImm(Rax, 0), Set(Gt)]
    case GreaterEqual => [Cmp(Rcx, Rbx), MovImm(Rax, 0), Set(Ge)]
    case _ => []
  }

  /** `gen_expr`: code that leaves the value of `e` in rax (see `Machine.ExprCodeCorrect`). */
  function ExprCode(e: Expr, vi: Index, si: Index): seq<Line>
    requires Collection.Covered(e, vi.Keys, si.Keys)
  {
    match e
    case IntLit(v) => [MovImm(Rax, v)]
    case StrLit(s) => [LeaStr(si[s])]
    case Var(n) => [LoadVar(vi[n])]
    case Assignment(n, v) => ExprCode(v, vi, si) + [StoreVar(vi[n])]
    case Unary(op, x) => ExprCode(x, vi, si) + (if op == Lexer.Minus then [Neg(Rax)] else [])
    case Binary(op, l, r) =>
      ExprCode(l, vi, si) + [Push(Rax)] + ExprCode(r, vi, si) + [MovReg(Rbx, Rax), Pop(Rcx)] + OpCode(op)
    case Grouping(g) => ExprCode(g, vi, si)
  }

  lemma StraightConcat(a: seq<Line>, b: seq<Line>)
    ensures Straight(a + b) <==> Straight(a) && Straight(b)
  {
    if Straight(a + b) {
      forall k | 0 <= k < |a|
        ensures !HasLabel(a[k])
      {
        assert a[k] == (a + b)[k];
      }
      forall k | 0 <= k < |b|
        ensures !HasLabel(b[k])
      {
        assert b[k] == (a + b)[|a| + k];
      }
    }
    if Straight(a) && Straight(b) {
      forall k | 0 <= k < |a + b|
        ensures !HasLabel((a + b)[k])
      {
        if k >= |a| {
          assert (a + b)[k] == b[k - |a|];
        }
      }
    }
  }

  lemma R10Concat(a: seq<Line>, b: seq<Line>)
    ensures TouchesR10(a + b) <==> TouchesR10(a) || TouchesR10(b)
  {
    if TouchesR10(a + b) {
      var k :| 0 <= k < |a + b| && WritesR10((a + b)[k]);
      if k >= |a| {
        assert b[k - |a|] == (a + b)[k];
      } else {
        assert a[k] == (a + b)[k];
      }
    }
    if TouchesR10(a) {
      var k :| 0 <= k < |a| && WritesR10(a[k]);
      assert (a + b)[k] == a[k];
    }
    if TouchesR10(b) {
      var k :| 0 <= k < |b| && WritesR10(b[k]);
      assert (a + b)[|a| + k] == b[k];
    }
  }

  lemma Concat(a: seq<Line>, b: seq<Line>)
    ensures Straight(a + b) <==> Straight(a) && Straight(b)
    ensures TouchesR10(a + b) <==> TouchesR10(a) || TouchesR10(b)
  {
    StraightConcat(a, b);
    R10Concat(a, b);
  }

  /** Expression code never defines or jumps to a label and never writes r10. */
  lemma {:induction false} ExprCodeStraight(e: Expr, vi: Index, si: Index)
    requires Collection.Covered(e, vi.Keys, si.Keys)
    ensures Straight(ExprCode(e, vi, si)) && !TouchesR10(ExprCode(e, vi, si))
  {
    match e
    case IntLit(_) =>
    case StrLit(_) =>
    case Var(_) =>
    case Assignment(n, v) =>
      ExprCodeStraight(v, vi, si);
      Concat(ExprCode(v, vi, si), [StoreVar(vi[n])]);
    case Unary(op, x) =>
      ExprCodeStraight(x, vi, si);
      Concat(ExprCode(x, vi, si), if op == Lexer.Minus then [Neg(Rax)] else []);
    case Binary(op, l, r) =>
      ExprCodeStraight(l, vi, si);
      ExprCodeStraight(r, vi, si);
      BinaryStraight(op, ExprCode(l, vi, si), ExprCode(r, vi, si));
    case Grouping(g) => ExprCodeStraight(g, vi, si);
  }

  lemma BinaryStraight(op: Lexer.TokenType, left: seq<Line>, right: seq<Line>)
    requires Straight(left) && !TouchesR10(left) && Straight(right) && !TouchesR10(right)
    ensures var code := left + [Push(Rax)] + right + [MovReg(Rbx, Rax), Pop(Rcx)] + OpCode(op);
      Straight(code) && !TouchesR10(code)
  {
    var a := left + [Push(Rax)];
    Concat(left, [Push(Rax)]);
    Concat(a, right);
    Concat(a + right, [MovReg(Rbx, Rax), Pop(Rcx)]);
    Concat(a + right + [MovReg(Rbx, Rax), Pop(Rcx)], OpCode(op));
  }

  // ----- print -----

  /** Writes the newline byte: `write(1, newline, 1)`. */
  function NewlineCode(): seq<Line> {
    [MovImm(Rax, 1), MovImm(Rdi, 1), MovNewline, MovImm(Rdx, 1), Syscall]
  }

  /** The decimal formatter for the value in rax, using the labels numbered `n`. */
  function NumberCode(n: int): seq<Line> {
    [ MovImm(Rbx, 10), MovBufEnd(Rsi), Xor(Rcx, Rcx), CmpImm(Rax, 0), Jump(Ge, Pos(n)),
      Neg(Rax), MovImm(Rcx, 1),
      Def(Pos(n)), Xor(Rdx, Rdx),
      Def(Loop(n)), Xor(Rdx, Rdx), Div(Rbx), Dec(Rsi), AddAsciiZero, StoreDigit,
      Test(Rax, Rax), Jump(Nz, Loop(n)),
      CmpImm(Rcx, 0), Jump(Eq, NoSign(n)), Dec(Rsi), StoreMinus,
      Def(NoSign(n)),
      MovImm(Rax, 1), MovImm(Rdi, 1), MovBufEnd(Rdx), Sub(Rdx, Rsi), MovReg(Rsi, Rsi), Syscall ]
  }

  /** `gen_print`: a string literal is written from the pool; anything else is evaluated and formatted. */
  function PrintCode(e: Expr, vi: Index, si: Index, l: int): Emitted
    requires Collection.Covered(e, vi.Keys, si.Keys)
  {
    if e.StrLit? then
      Emitted([MovImm(Rax, 1), MovImm(Rdi, 1), MovStr(si[e.strLit]), MovStrLen(si[e.strLit]), Syscall]
              + NewlineCode(), l)
    else
      Emitted(ExprCode(e, vi, si) + NumberCode(l + 1) + NewlineCode(), l + 1)
  }

  // ----- statements -----

  function StmtCode(s: Stmt, vi: Index, si: Index, l: int): Emitted
    requires Collection.StmtCovered(s, vi.Keys, si.Keys)
    decreases s, 1
  {
    match s
    case YeetStmt(e) => Emitted(ExprCode(e, vi, si) + [MovReg(Rdi, Rax), MovImm(Rax, 60), Syscall], l)
    case ExprStmt(e) => Emitted(ExprCode(e, vi, si), l)
    case Block(ss) => BlockCode(ss, vi, si, l)
    case If(c, t, f) =>
      var thenCode := BlockCode(t, vi, si, l + 2);
      var elseCode := BlockCode(f, vi, si, thenCode.next);
      Emitted(ExprCode(c, vi, si) + [CmpImm(Rax, 0), Jump(Eq, Plain(l + 1))]
              + thenCode.code + [Jmp(Plain(l + 2)), Def(Plain(l + 1))]
              + elseCode.code + [Def(Plain(l + 2))],
              elseCode.next)
    case LoopDoIt(c, b) =>
      var body := BlockCode(b, vi, si, l + 2);
      Emitted(ExprCode(c, vi, si) + [MovReg(R10, Rax), CmpImm(R10, 0), Jump(Le, Plain(l + 2)), Def(Plain(l + 1))]
              + body.code + [Dec(R10), Jump(Nz, Plain(l + 1)), Def(Plain(l + 2))],
              body.next)
    case VarDecl(n, v) => Emitted(ExprCode(v, vi, si) + [StoreVar(vi[n])], l)
    case PrintStmt(e) => PrintCode(e, vi, si, l)
  }

  /** `gen_block`: the statements' code in order, threading the label counter. */
  function BlockCode(ss: seq<Stmt>, vi: Index, si: Index, l: int): Emitted
    requires Collection.StmtsCovered(ss, vi.Keys, si.Keys)
    decreases ss, 0
  {
    if |ss| == 0 then Emitted([], l)
    else
      var init := BlockCode(ss[..|ss| - 1], vi, si, l);
      var last := StmtCode(ss[|ss| - 1], vi, si, init.next);
      Emitted(init.code + last.code, last.next)
  }

  // ----- sections -----

  /** One `strI db '...'` / `strI_len equ $-strI` pair per pool entry, in slot order. */
  function DataLines(strings: seq<string>): seq<Line> {
    if |strings| == 0 then []
    else
      var n := |strings| - 1;
      DataLines(strings[..n]) + [StrData(n, Escape(strings[n])), StrLen(n)]
  }

  /** One `varI resq 1` per variable slot, in slot order. */
  function BssLines(count: nat): seq<Line> {
    if count == 0 then [] else BssLines(count - 1) + [VarSlot(count - 1)]
  }

  function DataHeader(): seq<Line> {
    [Section("data"), NewlineByte]
  }

  function BssHeader(): seq<Line> {
    [Section("bss"), NumBuf]
  }

  function TextHeader(): seq<Line> {
    [Section("text"), GlobalStart, Start]
  }

  /** `exit(0)` after the top-level statements. */
  function ExitCode(): seq<Line> {
    [MovImm(Rax, 60), MovImm(Rdi, 0), Syscall]
  }

  /** The whole listing for tables `vars`/`strings`, their index maps, and a label counter starting at `l`. */
  function ProgramCode(body: seq<Stmt>, strings: seq<string>, vars: seq<string>, vi: Index, si: Index, l: int): seq<Line>
    requires Collection.StmtsCovered(body, vi.Keys, si.Keys)
  {
    DataHeader() + DataLines(strings) + BssHeader() + BssLines(|vars|) + TextHeader()
    + BlockCode(body, vi, si, l).code + ExitCode()
  }

  /** The listing opens the data section with the newline byte and ends with `exit(0)`. */
  lemma ProgramFrame(body: seq<Stmt>, strings: seq<string>, vars: seq<string>, vi: Index, si: Index, l: int)
    requires Collection.StmtsCovered(body, vi.Keys, si.Keys)
    ensures var code := ProgramCode(body, strings, vars, vi, si, l);
            |code| >= 5 && code[..2] == DataHeader() && code[|code| - 3..] == ExitCode()
  {
    var code := ProgramCode(body, strings, vars, vi, si, l);
    var middle := DataLines(strings) + BssHeader() + BssLines(|vars|) + TextHeader() + BlockCode(body, vi, si, l).code;
    assert code == DataHeader() + middle + ExitCode();
  }
}

=== FILE: collection.dfy ===
/**
 * The collector pass: which names the generator enters in its variable table
 * and its string pool, and in which order. A table is the sequence of its
 * entries; an entry's slot is its position.
 */
module Collection {
  import opened Ast

  /** The two tables the collector fills. */
  datatype Pool = Vars | Strs

  predicate Distinct(names: seq<string>) {
    forall a, b | 0 <= a < b < |names| :: names[a] != names[b]
  }

  /** The index map agrees with the table: same keys, and each key maps to its slot. */
  ghost predicate Indexed(index: map<string, int>, names: seq<string>) {
    && Distinct(names)
    && (forall n :: n in index <==> n in names)
    && (forall n | n in index :: 0 <= index[n] < |names| && names[index[n]] == n)
  }

  /**
   * `ensure_var` / `ensure_str`: afterwards `n` has a slot; the old entries keep
   * theirs, at most one slot is added, and only for a name not seen before, so
   * a table without repeats stays without repeats and ensuring twice is
   * ensuring once.
   */
  function Ensure(names: seq<string>, n: string): (r: seq<string>)
    ensures n in r
    ensures |names| <= |r| <= |names| + 1 && r[..|names|] == names
    ensures |r| == |names| + 1 <==> n !in names
    ensures Distinct(names) ==> Distinct(r)
  {
    if n in names then names else names + [n]
  }

  /** The table after ensuring each of `ns` in turn. */
  function AddAll(names: seq<string>, ns: seq<string>): seq<string>
    decreases |ns|
  {
    if |ns| == 0 then names else AddAll(Ensure(names, ns[0]), ns[1..])
  }

  /** The names of one table that `collect_expr` meets, in visiting order. */
  function ExprNames(pool: Pool, e: Expr): seq<string> {
    match e
    case Var(n) => if pool == Vars then [n] else []
    case Assignment(n, v) => (if pool == Vars then [n] else []) + ExprNames(pool, v)
    case Unary(_, x) => ExprNames(pool, x)
    case Binary(_, l, r) => ExprNames(pool, l) + ExprNames(pool, r)
    case Grouping(g) => ExprNames(pool, g)
    case StrLit(s) => if pool == Strs then [s] else []
    case IntLit(_) => []
  }

  /** The names `collect_stmt` meets, in visiting order. */
  function StmtNames(pool: Pool, s: Stmt): seq<string>
    decreases s, 1
  {
    match s
    case VarDecl(n, v) => (if pool == Vars then [n] else []) + ExprNames(pool, v)
    case YeetStmt(e) => ExprNames(pool, e)
    case ExprStmt(e) => ExprNames(pool, e)
    case If(c, t, f) => ExprNames(pool, c) + StmtsNames(pool, t) + StmtsNames(pool, f)
    case LoopDoIt(c, b) => ExprNames(pool, c) + StmtsNames(pool, b)
    case PrintStmt(e) => ExprNames(pool, e)
    case Block(ss) => StmtsNames(pool, ss)
  }

  function StmtsNames(pool: Pool, ss: seq<Stmt>): seq<string>
    decreases ss, 0
  {
    if |ss| == 0 then [] else StmtsNames(pool, ss[..|ss| - 1]) + StmtNames(pool, ss[|ss| - 1])
  }

  /** The names of a whole program. */
  function ProgramNames(pool: Pool, p: Program): seq<string> {
    StmtsNames(pool, p.body)
  }

  // ----- independent statement of what code generation looks up -----

  /** Every variable `gen_expr` reads or assigns, and every string literal it loads, has a slot. */
  predicate Covered(e: Expr, vars: set<string>, strs: set<string>) {
    match e
    case Var(n) => n in vars
    case Assignment(n, v) => n in vars && Covered(v, vars, strs)
    case Unary(_, x) => Covered(x, vars, strs)
    case Binary(_, l, r) => Covered(l, vars, strs) && Covered(r, vars, strs)
    case Grouping(g) => Covered(g, vars, strs)
    case StrLit(s) => s in strs
    case IntLit(_) => true
  }

  predicate StmtCovered(s: Stmt, vars: set<string>, strs: set<string>) {
    match s
    case VarDecl(n, v) => n in vars && Covered(v, vars, strs)
    case YeetStmt(e) => Covered(e, vars, strs)
    case ExprStmt(e) => Covered(e, vars, strs)
    case If(c, t, f) =>
      && Covered(c, vars, strs)
      && (forall k | 0 <= k < |t| :: StmtCovered(t[k], vars, strs))
      && (forall k | 0 <= k < |f| :: StmtCovered(f[k], vars, strs))
    case LoopDoIt(c, b) => Covered(c, vars, strs) && forall k | 0 <= k < |b| :: StmtCovered(b[k], vars, strs)
    case PrintStmt(e) => Covered(e, vars, strs)
    case Block(ss) => forall k | 0 <= k < |ss| :: StmtCovered(ss[k], vars, strs)
  }

  predicate StmtsCovered(ss: seq<Stmt>, vars: set<string>, strs: set<string>) {
    forall k | 0 <= k < |ss| :: StmtCovered(ss[k], vars, strs)
  }

  // ----- properties of the tables -----

  lemma {:induction false} AddAllAppend(names: seq<string>, a: seq<string>, b: seq<string>)
    ensures AddAll(names, a + b) == AddAll(AddAll(names, a), b)
    decreases |a|
  {
    if |a| > 0 {
      assert (a + b)[0] == a[0] && (a + b)[1..] == a[1..] + b;
      AddAllAppend(Ensure(names, a[0]), a[1..], b);
    } else {
      assert a + b == b;
    }
  }

  lemma AddAllOne(names: seq<string>, n: string)
    ensures AddAll(names, [n]) == Ensure(names, n)
  {
    assert [n][1..] == [];
  }

  /** The table after collecting holds exactly the old entries and the names met. */
  lemma {:induction false} AddAllContents(names: seq<string>, ns: seq<string>)
    ensures forall n :: n in AddAll(names, ns) <==> n in names || n in ns
    decreases |ns|
  {
    if |ns| > 0 {
      AddAllContents(Ensure(names, ns[0]), ns[1..]);
      assert ns == [ns[0]] + ns[1..];
    }
  }

  /** Entries already in the table keep their slots: collecting only appends. */
  lemma {:induction false} AddAllExtends(names: seq<string>, ns: seq<string>)
    ensures |names| <= |AddAll(names, ns)| && AddAll(names, ns)[..|names|] == names
    decreases |ns|
  {
    if |ns| > 0 {
      AddAllExtends(Ensure(names, ns[0]), ns[1..]);
    }
  }

  /** Ensuring a name that already has a slot changes nothing; in particular, ensuring twice is ensuring once. */
  lemma EnsureIdempotent(names: seq<string>, n: string)
    ensures n in names ==> Ensure(names, n) == names
    ensures Ensure(Ensure(names, n), n) == Ensure(names, n)
  {
  }

  lemma {:induction false} AddAllDistinct(names: seq<string>, ns: seq<string>)
    requires Distinct(names)
    ensures Distinct(AddAll(names, ns))
    decreases |ns|
  {
    if |ns| > 0 {
      AddAllDistinct(Ensure(names, ns[0]), ns[1..]);
    }
  }

  /** Collecting the same names again changes nothing. */
  lemma {:induction false} AddAllIdempotent(names: seq<string>, ns: seq<string>)
    requires forall n | n in ns :: n in names
    ensures AddAll(names, ns) == names
    decreases |ns|
  {
    if |ns| > 0 {
      AddAllIdempotent(names, ns[1..]);
    }
  }

  /** The reference order: each name at its first occurrence, later repeats dropped. */
  function FirstOccurrences(ns: seq<string>): seq<string> {
    if |ns| == 0 then []
    else
      var init := ns[..|ns| - 1];
      var last := ns[|ns| - 1];
      FirstOccurrences(init) + (if last in init then [] else [last])
  }

  /** Starting from empty tables, the slots are assigned in first-occurrence order. */
  lemma {:induction false} AddAllFirstOccurrences(ns: seq<string>)
    ensures AddAll([], ns) == FirstOccurrences(ns)
    decreases |ns|
  {
    if |ns| > 0 {
      var init := ns[..|ns| - 1];
      var last := ns[|ns| - 1];
      assert ns == init + [last];
      AddAllFirstOccurrences(init);
      AddAllAppend([], init, [last]);
      AddAllContents([], init);
      assert AddAll(AddAll([], init), [last]) == Ensure(AddAll([], init), last);
    }
  }

  /** Ensuring a name keeps the index map consistent when the new slot is the table's old size. */
  lemma EnsureIndexed(index: map<string, int>, names: seq<string>, n: string)
    requires Indexed(index, names)
    ensures n in index ==> Indexed(index, Ensure(names, n))
    ensures n !in index ==> Indexed(index[n := |names|], Ensure(names, n))
  {
    if n !in index {
      var names' := names + [n];
      var index' := index[n := |names|];
      forall m | m in index'
        ensures 0 <= index'[m] < |names'| && names'[index'[m]] == m
      {
      }
    }
  }

  /** Names met by a collection pass are covered by the resulting table. */
  lemma {:induction false} ExprNamesCovered(e: Expr, vars: set<string>, strs: set<string>)
    requires forall n | n in ExprNames(Vars, e) :: n in vars
    requires forall n | n in ExprNames(Strs, e) :: n in strs
    ensures Covered(e, vars, strs)
  {
    match e
    case Var(n) =>
    case Assignment(n, v) => ExprNamesCovered(v, vars, strs);
    case Unary(_, x) => ExprNamesCovered(x, vars, strs);
    case Binary(_, l, r) =>
      ExprNamesCovered(l, vars, strs);
      ExprNamesCovered(r, vars, strs);
    case Grouping(g) => ExprNamesCovered(g, vars, strs);
    case StrLit(s) =>
    case IntLit(_) =>
  }

  lemma {:induction false} StmtNamesCovered(s: Stmt, vars: set<string>, strs: set<string>)
    requires forall n | n in StmtNames(Vars, s) :: n in vars
    requires forall n | n in StmtNames(Strs, s) :: n in strs
    ensures StmtCovered(s, vars, strs)
    decreases s, 1
  {
    match s
    case VarDecl(n, v) => ExprNamesCovered(v, vars, strs);
    case YeetStmt(e) => ExprNamesCovered(e, vars, strs);
    case ExprStmt(e) => ExprNamesCovered(e, vars, strs);
    case PrintStmt(e) => ExprNamesCovered(e, vars, strs);
    case If(c, t, f) =>
      ExprNamesCovered(c, vars, strs);
      StmtsNamesCovered(t, vars, strs);
      StmtsNamesCovered(f, vars, strs);
    case LoopDoIt(c, b) =>
      ExprNamesCovered(c, vars, strs);
      StmtsNamesCovered(b, vars, strs);
    case Block(ss) => StmtsNamesCovered(ss, vars, strs);
  }

  lemma {:induction false} StmtsNamesCovered(ss: seq<Stmt>, vars: set<string>, strs: set<string>)
    requires forall n | n in StmtsNames(Vars, ss) :: n in vars
    requires forall n | n in StmtsNames(Strs, ss) :: n in strs
    ensures StmtsCovered(ss, vars, strs)
    decreases ss, 0
  {
    if |ss| > 0 {
      StmtsNamesCovered(ss[..|ss| - 1], vars, strs);
      StmtNamesCovered(ss[|ss| - 1], vars, strs);
      forall k | 0 <= k < |ss|
        ensures StmtCovered(ss[k], vars, strs)
      {
        if k < |ss| - 1 {
          assert ss[k] == ss[..|ss| - 1][k];
        }
      }
    }
  }

  /** After collecting a program into any tables, every name code generation looks up is present. */
  lemma CollectCovers(p: Program, vars0: seq<string>, strs0: seq<string>)
    ensures StmtsCovered(p.body,
                         set n | n in AddAll(vars0, ProgramNames(Vars, p)),
                         set n | n in AddAll(strs0, ProgramNames(Strs, p)))
  {
    AddAllContents(vars0, ProgramNames(Vars, p));
    AddAllContents(strs0, ProgramNames(Strs, p));
    StmtsNamesCovered(p.body,
                      set n | n in AddAll(vars0, ProgramNames(Vars, p)),
                      set n | n in AddAll(strs0, ProgramNames(Strs, p)));
  }
}

=== FILE: decimal.dfy ===
/**
 * Decimal text of integers: how a digit run is read as a literal, how
 * `ostream << long long` writes a number into the assembly text, and what the
 * number-printing routine emitted for `print` writes at run time.
 */
module Decimal {
  import opened Wrappers

  const MaxInt64: int := 0x7FFF_FFFF_FFFF_FFFF
  const MinInt64: int := -0x8000_0000_0000_0000

  predicate IsDigitChar(c: char) { '0' <= c <= '9' }

  predicate AllDigits(s: string) {
    forall k | 0 <= k < |s| :: IsDigitChar(s[k])
  }

  function DigitChar(d: nat): (c: char)
    requires d < 10
    ensures IsDigitChar(c)
  {
    (('0' as int) + d) as char
  }

  function DigitValue(c: char): (d: nat)
    requires IsDigitChar(c)
    ensures d < 10 && DigitChar(d) == c
  {
    (c as int) - ('0' as int)
  }

  /** The decimal digits of `n`, most significant first, with no leading zero. */
  function Digits(n: nat): (r: string)
    ensures |r| >= 1 && AllDigits(r)
    ensures |r| > 1 ==> r[0] != '0'
    decreases n
  {
    if n < 10 then [DigitChar(n)] else Digits(n / 10) + [DigitChar(n % 10)]
  }

  /** The value of a digit string read left to right (`stoll` on a digit run, before its range check). */
  function DigitsValue(s: string): nat
    requires AllDigits(s)
  {
    if s == [] then 0 else DigitsValue(s[..|s| - 1]) * 10 + DigitValue(s[|s| - 1])
  }

  function Pow10(k: nat): (r: nat)
    ensures r >= 1
  {
    if k == 0 then 1 else 10 * Pow10(k - 1)
  }

  /** How a signed integer is written: a `-` for negative values, then the digits of its magnitude. */
  function DecimalText(v: int): string {
    if v < 0 then "-" + Digits(-v) else Digits(v)
  }

  /** Reads back an optionally signed digit string. */
  function ReadDecimal(t: string): Option<int> {
    if |t| > 0 && t[0] == '-' then
      if |t| > 1 && AllDigits(t[1..]) then var m: int := DigitsValue(t[1..]); Some(-m) else None
    else if |t| > 0 && AllDigits(t) then Some(DigitsValue(t))
    else None
  }

  /** Reading the digits of `n` gives `n` back. */
  lemma {:induction false} DigitsRoundTrip(n: nat)
    ensures DigitsValue(Digits(n)) == n
  {
    if n >= 10 {
      DigitsRoundTrip(n / 10);
      var r := Digits(n);
      assert r[..|r| - 1] == Digits(n / 10);
    }
  }

  /** Every integer's decimal text reads back as that integer. */
  lemma DecimalTextRoundTrip(v: int)
    ensures ReadDecimal(DecimalText(v)) == Some(v)
  {
    var t := DecimalText(v);
    if v < 0 {
      DigitsRoundTrip(-v);
      assert t[0] == '-' && t[1..] == Digits(-v);
    } else {
      DigitsRoundTrip(v);
      assert IsDigitChar(t[0]);
    }
  }

  /** A number below 10^k has at most k digits. */
  lemma {:induction false} DigitsLength(n: nat, k: nat)
    requires k >= 1 && n < Pow10(k)
    ensures |Digits(n)| <= k
  {
    if n >= 10 {
      DigitsLength(n / 10, k - 1);
    }
  }

  lemma Pow10Of19()
    ensures Pow10(19) == 10_000_000_000_000_000_000
  {
    assert Pow10(4) == 10_000;
    assert Pow10(8) == 100_000_000;
    assert Pow10(12) == 1_000_000_000_000;
    assert Pow10(16) == 10_000_000_000_000_000;
  }

  /** A 64-bit value's text takes at most 20 characters: a sign and at most 19 digits. */
  lemma DecimalTextBound(v: int)
    requires MinInt64 <= v <= MaxInt64
    ensures |DecimalText(v)| <= 20
  {
    Pow10Of19();
    if v < 0 { DigitsLength(-v, 19); } else { DigitsLength(v, 19); }
  }
}

=== FILE: generator.dfy ===
/**
 * The generator object: its tables, its label counter and its output,
 * updated in place by the collector and the `gen_*` routines. Each method
 * is proved to append exactly the lines `Codegen` describes and to fill the
 * tables as `Collection` describes.
 */
module Generation {
  import opened Ast
  import opened Asm
  import opened Wrappers
  import Codegen
  import Collection
  import Labels
  import Lexer

  class Generator {
    /** The program being compiled. */
    const p: Program
    /** The listing written so far, one line per element. */
    var o: seq<Line>
    var varIndex: map<string, int>
    var vars: seq<string>
    var strings: seq<string>
    var strIndex: map<string, int>
    /** The last id `new_label` handed out. */
    var labelId: int

    /** Each index map agrees with its table. */
    ghost predicate Valid()
      reads this
    {
      Collection.Indexed(varIndex, vars) && Collection.Indexed(strIndex, strings)
    }

    constructor(prog: Program)
      ensures p == prog && o == [] && labelId == 0
      ensures vars == [] && varIndex == map[] && strings == [] && strIndex == map[]
      ensures Valid()
    {
      p := prog;
      o := [];
      varIndex := map[];
      vars := [];
      strings := [];
      strIndex := map[];
      labelId := 0;
    }

    /** `new_label`: a fresh id, one more than the last. */
    method NewLabel() returns (id: int)
      modifies this
      ensures labelId == old(labelId) + 1 && id == labelId
      ensures o == old(o) && vars == old(vars) && varIndex == old(varIndex)
      ensures strings == old(strings) && strIndex == old(strIndex)
    {
      labelId := labelId + 1;
      id := labelId;
    }

    /** `ensure_var`: a name seen for the first time gets the next slot. */
    method EnsureVar(name: string)
      requires Valid()
      modifies this
      ensures Valid()
      ensures vars == Collection.Ensure(old(vars), name)
      ensures name in old(varIndex) ==> varIndex == old(varIndex)
      ensures name !in old(varIndex) ==> varIndex == old(varIndex)[name := |old(vars)|]
      ensures o == old(o) && labelId == old(labelId) && strings == old(strings) && strIndex == old(strIndex)
    {
      Collection.EnsureIndexed(varIndex, vars, name);
      if name !in varIndex {
        var idx := |vars|;
        varIndex := varIndex[name := idx];
        vars := vars + [name];
      }
    }

    /** `ensure_str`: a literal seen for the first time gets the next pool slot. */
    method EnsureStr(s: string)
      requires Valid()
      modifies this
      ensures Valid()
      ensures strings == Collection.Ensure(old(strings), s)
      ensures s in old(strIndex) ==> strIndex == old(strIndex)
      ensures s !in old(strIndex) ==> strIndex == old(strIndex)[s := |old(strings)|]
      ensures o == old(o) && labelId == old(labelId) && vars == old(vars) && varIndex == old(varIndex)
    {
      Collection.EnsureIndexed(strIndex, strings, s);
      if s !in strIndex {
        var idx := |strings|;
        strIndex := strIndex[s := idx];
        strings := strings + [s];
      }
    }
  
    // ----- the collector -----

    /** `collect_expr`: enters the names of `e` in visiting order. */
    method CollectExpr(e: Expr)
      requires Valid()
      modifies this
      ensures Valid()
      ensures vars == Collection.AddAll(old(vars), Collection.ExprNames(Collection.Vars, e))
      ensures strings == Collection.AddAll(old(strings), Collection.ExprNames(Collection.Strs, e))
      ensures o == old(o) && labelId == old(labelId)
      decreases e
    {
      match e
      case Var(n) =>
        EnsureVar(n);
        Collection.AddAllOne(old(vars), n);
      case Assignment(n, v) =>
        EnsureVar(n);
        Collection.AddAllOne(old(vars), n);
        CollectExpr(v);
        Collection.AddAllAppend(old(vars), [n], Collection.ExprNames(Collection.Vars, v));
        assert [] + Collection.ExprNames(Collection.Strs, v) == Collection.ExprNames(Collection.Strs, v);
      case Unary(_, x) => CollectExpr(x);
      case Binary(_, l, r) =>
        CollectExpr(l);
        CollectExpr(r);
        Collection.AddAllAppend(old(vars), Collection.ExprNames(Collection.Vars, l), Collection.ExprNames(Collection.Vars, r));
        Collection.AddAllAppend(old(strings), Collection.ExprNames(Collection.Strs, l), Collection.ExprNames(Collection.Strs, r));
      case Grouping(g) => CollectExpr(g);
      case StrLit(s) =>
        EnsureStr(s);
        Collection.AddAllOne(old(strings), s);
      case IntLit(_) =>
    }

    /** `collect_stmt`: enters the names of `s`, nested statements in order. */
    method CollectStmt(s: Stmt)
      requires Valid()
      modifies this
      ensures Valid()
      ensures vars == Collection.AddAll(old(vars), Collection.StmtNames(Collection.Vars, s))
      ensures strings == Collection.AddAll(old(strings), Collection.StmtNames(Collection.Strs, s))
      ensures o == old(o) && labelId == old(labelId)
      decreases s, 1
    {
      match s
      case VarDecl(n, v) =>
        EnsureVar(n);
        Collection.AddAllOne(old(vars), n);
        CollectExpr(v);
        Collection.AddAllAppend(old(vars), [n], Collection.ExprNames(Collection.Vars, v));
        assert [] + Collection.ExprNames(Collection.Strs, v) == Collection.ExprNames(Collection.Strs, v);
      case YeetStmt(e) => CollectExpr(e);
      case ExprStmt(e) => CollectExpr(e);
      case PrintStmt(e) => CollectExpr(e);
      case Block(ss) => CollectAll(ss);
      case If(c, t, f) =>
        CollectExpr(c);
        CollectAll(t);
        CollectAll(f);
        TwoParts(Collection.Vars, old(vars), c, t, f);
        TwoParts(Collection.Strs, old(strings), c, t, f);
      case LoopDoIt(c, b) =>
        CollectExpr(c);
        CollectAll(b);
        Collection.AddAllAppend(old(vars), Collection.ExprNames(Collection.Vars, c), Collection.StmtsNames(Collection.Vars, b));
        Collection.AddAllAppend(old(strings), Collection.ExprNames(Collection.Strs, c), Collection.StmtsNames(Collection.Strs, b));
    }

    /** The `for` loops of `collect_stmt` and `collect`: each statement of `ss` in order. */
    method CollectAll(ss: seq<Stmt>)
      requires Valid()
      modifies this
      ensures Valid()
      ensures vars == Collection.AddAll(old(vars), Collection.StmtsNames(Collection.Vars, ss))
      ensures strings == Collection.AddAll(old(strings), Collection.StmtsNames(Collection.Strs, ss))
      ensures o == old(o) && labelId == old(labelId)
      decreases ss, 0
    {
      for k := 0 to |ss|
        invariant Valid()
        invariant vars == Collection.AddAll(old(vars), Collection.StmtsNames(Collection.Vars, ss[..k]))
        invariant strings == Collection.AddAll(old(strings), Collection.StmtsNames(Collection.Strs, ss[..k]))
        invariant o == old(o) && labelId == old(labelId)
      {
        CollectStmt(ss[k]);
        assert ss[..k + 1][..k] == ss[..k];
        Collection.AddAllAppend(old(vars), Collection.StmtsNames(Collection.Vars, ss[..k]), Collection.StmtNames(Collection.Vars, ss[k]));
        Collection.AddAllAppend(old(strings), Collection.StmtsNames(Collection.Strs, ss[..k]), Collection.StmtNames(Collection.Strs, ss[k]));
      }
      assert ss[..|ss|] == ss;
    }

    /** `collect`: the top-level statements in order. */
    method Collect()
      requires Valid()
      modifies this
      ensures Valid()
      ensures vars == Collection.AddAll(old(vars), Collection.ProgramNames(Collection.Vars, p))
      ensures strings == Collection.AddAll(old(strings), Collection.ProgramNames(Collection.Strs, p))
      ensures o == old(o) && labelId == old(labelId)
    {
      CollectAll(p.body);
    }

    // ----- code generation -----

    /** `gen_expr`: appends code that leaves the value of `e` in rax (see `Machine.ExprCodeCorrect`). */
    method GenExpr(e: Expr)
      requires Collection.Covered(e, varIndex.Keys, strIndex.Keys)
      modifies this
      ensures vars == old(vars) && varIndex == old(varIndex) && strings == old(strings) && strIndex == old(strIndex)
      ensures labelId == old(labelId)
      ensures o == old(o) + Codegen.ExprCode(e, varIndex, strIndex)
      decreases e, 1
    {
      match e
      case IntLit(v) => o := o + [MovImm(Rax, v)];
      case StrLit(s) => o := o + [LeaStr(strIndex[s])];
      case Var(n) => o := o + [LoadVar(varIndex[n])];
      case Assignment(n, v) =>
        GenExpr(v);
        o := o + [StoreVar(varIndex[n])];
      case Unary(op, x) =>
        GenExpr(x);
        if op == Lexer.Minus {
          o := o + [Neg(Rax)];
        }
      case Binary(op, l, r) => GenBinary(op, l, r);
      case Grouping(g) => GenExpr(g);
    }

    /** The binary case of `gen_expr`: left operand, saved on the stack, right operand, then the operator. */
    method GenBinary(op: Lexer.TokenType, l: Expr, r: Expr)
      requires Collection.Covered(Binary(op, l, r), varIndex.Keys, strIndex.Keys)
      modifies this
      ensures vars == old(vars) && varIndex == old(varIndex) && strings == old(strings) && strIndex == old(strIndex)
      ensures labelId == old(labelId)
      ensures o == old(o) + Codegen.ExprCode(Binary(op, l, r), varIndex, strIndex)
      decreases Binary(op, l, r), 0
    {
      ghost var o0 := o;
      ghost var left := Codegen.ExprCode(l, varIndex, strIndex);
      ghost var right := Codegen.ExprCode(r, varIndex, strIndex);
      GenExpr(l);
      o := o + [Push(Rax)];
      GenExpr(r);
      o := o + [MovReg(Rbx, Rax), Pop(Rcx)];
      o := o + Codegen.OpCode(op);
      AppendFive(o0, left, [Push(Rax)], right, [MovReg(Rbx, Rax), Pop(Rcx)], Codegen.OpCode(op));
    }

    /** `gen_print`: a literal is written from the pool; any other value is formatted with a fresh label id. */
    method GenPrint(e: Expr)
      requires Collection.Covered(e, varIndex.Keys, strIndex.Keys)
      modifies this
      ensures vars == old(vars) && varIndex == old(varIndex) && strings == old(strings) && strIndex == old(strIndex)
      ensures o == old(o) + Codegen.PrintCode(e, varIndex, strIndex, old(labelId)).code
      ensures labelId == Codegen.PrintCode(e, varIndex, strIndex, old(labelId)).next
    {
      ghost var o0 := o;
      ghost var want := Codegen.PrintCode(e, varIndex, strIndex, labelId);
      if e.StrLit? {
        var si := strIndex[e.strLit];
        o := o + [MovImm(Rax, 1), MovImm(Rdi, 1), MovStr(si), MovStrLen(si), Syscall];
        o := o + Codegen.NewlineCode();
        assert o == o0 + want.code;
      } else {
        ghost var value := Codegen.ExprCode(e, varIndex, strIndex);
        ghost var formatter := Codegen.NumberCode(labelId + 1);
        ghost var newline := Codegen.NewlineCode();
        assert want.code == value + formatter + newline;
        GenExpr(e);
        var l := NewLabel();
        o := o + Codegen.NumberCode(l);
        o := o + Codegen.NewlineCode();
        AppendThree(o0, value, formatter, newline);
      }
    }

    /** `gen_stmt`: appends a statement's code, taking label ids as it goes. */
    method GenStmt(s: Stmt)
      requires Collection.StmtCovered(s, varIndex.Keys, strIndex.Keys)
      modifies this
      ensures vars == old(vars) && varIndex == old(varIndex) && strings == old(strings) && strIndex == old(strIndex)
      ensures o == old(o) + Codegen.StmtCode(s, varIndex, strIndex, old(labelId)).code
      ensures labelId == Codegen.StmtCode(s, varIndex, strIndex, old(labelId)).next
      decreases s, 2
    {
      match s
      case YeetStmt(e) =>
        GenExpr(e);
        o := o + [MovReg(Rdi, Rax), MovImm(Rax, 60), Syscall];
      case ExprStmt(e) => GenExpr(e);
      case Block(ss) => GenBlock(ss);
      case If(c, t, f) => GenIf(c, t, f);
      case LoopDoIt(c, b) => GenLoop(c, b);
      case VarDecl(n, v) =>
        GenExpr(v);
        var idx := varIndex[n];
        o := o + [StoreVar(idx)];
      case PrintStmt(e) => GenPrint(e);
    }

    /** The `if` case: both labels are taken before the condition is generated. */
    method GenIf(c: Expr, t: seq<Stmt>, f: seq<Stmt>)
      requires Collection.StmtCovered(If(c, t, f), varIndex.Keys, strIndex.Keys)
      modifies this
      ensures vars == old(vars) && varIndex == old(varIndex) && strings == old(strings) && strIndex == old(strIndex)
      ensures o == old(o) + Codegen.StmtCode(If(c, t, f), varIndex, strIndex, old(labelId)).code
      ensures labelId == Codegen.StmtCode(If(c, t, f), varIndex, strIndex, old(labelId)).next
      decreases If(c, t, f), 1
    {
      ghost var o0 := o;
      ghost var l := labelId;
      ghost var cond := Codegen.ExprCode(c, varIndex, strIndex);
      ghost var thenCode := Codegen.BlockCode(t, varIndex, strIndex, l + 2);
      ghost var elseCode := Codegen.BlockCode(f, varIndex, strIndex, thenCode.next);
      ghost var want := Codegen.StmtCode(If(c, t, f), varIndex, strIndex, l);
      assert want.code == cond + [CmpImm(Rax, 0), Jump(Eq, Plain(l + 1))] + thenCode.code
                          + [Jmp(Plain(l + 2)), Def(Plain(l + 1))] + elseCode.code + [Def(Plain(l + 2))];
      assert want.next == elseCode.next;
      var lElse := NewLabel();
      var lEnd := NewLabel();
      GenExpr(c);
      o := o + [CmpImm(Rax, 0), Jump(Eq, Plain(lElse))];
      GenBlock(t);
      o := o + [Jmp(Plain(lEnd)), Def(Plain(lElse))];
      GenBlock(f);
      o := o + [Def(Plain(lEnd))];
      AppendSix(o0, cond, [CmpImm(Rax, 0), Jump(Eq, Plain(lElse))],
                thenCode.code, [Jmp(Plain(lEnd)), Def(Plain(lElse))], elseCode.code, [Def(Plain(lEnd))]);
    }

    /** The `doit` case: the count goes to r10, the body repeats while `dec r10` leaves it nonzero. */
    method GenLoop(c: Expr, b: seq<Stmt>)
      requires Collection.StmtCovered(LoopDoIt(c, b), varIndex.Keys, strIndex.Keys)
      modifies this
      ensures vars == old(vars) && varIndex == old(varIndex) && strings == old(strings) && strIndex == old(strIndex)
      ensures o == old(o) + Codegen.StmtCode(LoopDoIt(c, b), varIndex, strIndex, old(labelId)).code
      ensures labelId == Codegen.StmtCode(LoopDoIt(c, b), varIndex, strIndex, old(labelId)).next
      decreases LoopDoIt(c, b), 1
    {
      ghost var o0 := o;
      ghost var l := labelId;
      ghost var count := Codegen.ExprCode(c, varIndex, strIndex);
      ghost var body := Codegen.BlockCode(b, varIndex, strIndex, l + 2);
      ghost var want := Codegen.StmtCode(LoopDoIt(c, b), varIndex, strIndex, l);
      assert want.code == count + [MovReg(R10, Rax), CmpImm(R10, 0), Jump(Le, Plain(l + 2)), Def(Plain(l + 1))]
                          + body.code + [Dec(R10), Jump(Nz, Plain(l + 1)), Def(Plain(l + 2))];
      assert want.next == body.next;
      var lTop := NewLabel();
      var lEnd := NewLabel();
      GenExpr(c);
      o := o + [MovReg(R10, Rax), CmpImm(R10, 0), Jump(Le, Plain(lEnd)), Def(Plain(lTop))];
      GenBlock(b);
      o := o + [Dec(R10), Jump(Nz, Plain(lTop)), Def(Plain(lEnd))];
      AppendFour(o0, count, [MovReg(R10, Rax), CmpImm(R10, 0), Jump(Le, Plain(lEnd)), Def(Plain(lTop))],
                 body.code, [Dec(R10), Jump(Nz, Plain(lTop)), Def(Plain(lEnd))]);
    }

    /** `gen_block`: each statement in order. */
    method GenBlock(ss: seq<Stmt>)
      requires Collection.StmtsCovered(ss, varIndex.Keys, strIndex.Keys)
      modifies this
      ensures vars == old(vars) && varIndex == old(varIndex) && strings == old(strings) && strIndex == old(strIndex)
      ensures o == old(o) + Codegen.BlockCode(ss, varIndex, strIndex, old(labelId)).code
      ensures labelId == Codegen.BlockCode(ss, varIndex, strIndex, old(labelId)).next
      decreases ss, 0
    {
      for k := 0 to |ss|
        invariant vars == old(vars) && varIndex == old(varIndex) && strings == old(strings) && strIndex == old(strIndex)
        invariant Collection.StmtsCovered(ss[..k], varIndex.Keys, strIndex.Keys)
        invariant o == old(o) + Codegen.BlockCode(ss[..k], varIndex, strIndex, old(labelId)).code
        invariant labelId == Codegen.BlockCode(ss[..k], varIndex, strIndex, old(labelId)).next
      {
        GenStmt(ss[k]);
        assert ss[..k + 1][..k] == ss[..k];
      }
      assert ss[..|ss|] == ss;
    }

    /** The quoting loop of `generate`: each `'` of a pool entry is written twice, and nothing else changes. */
    static method Quote(str: string) returns (quoted: string)
      ensures quoted == Escape(str)
      ensures Unescape(quoted) == Some(str)
    {
      quoted := "";
      for j := 0 to |str|
        invariant quoted == Escape(str[..j])
      {
        var c := str[j];
        if c == '\'' {
          quoted := quoted + "''";
        } else {
          quoted := quoted + [c];
        }
        EscapeAppend(str[..j], [c]);
        assert str[..j + 1] == str[..j] + [c];
      }
      assert str[..|str|] == str;
      EscapeRoundTrip(str);
    }

    /** The pool loop of `generate`: one quoted entry and its length per slot, in slot order. */
    method EmitData()
      modifies this
      ensures o == old(o) + Codegen.DataLines(strings)
      ensures vars == old(vars) && varIndex == old(varIndex) && strings == old(strings) && strIndex == old(strIndex)
      ensures labelId == old(labelId)
    {
      for i := 0 to |strings|
        invariant vars == old(vars) && varIndex == old(varIndex) && strings == old(strings) && strIndex == old(strIndex)
        invariant labelId == old(labelId)
        invariant o == old(o) + Codegen.DataLines(strings[..i])
      {
        var quoted := Quote(strings[i]);
        o := o + [StrData(i, quoted), StrLen(i)];
        assert strings[..i + 1][..i] == strings[..i];
      }
      assert strings[..|strings|] == strings;
    }

    /** The variable loop of `generate`: one quadword per slot. */
    method EmitBss()
      modifies this
      ensures o == old(o) + Codegen.BssLines(|vars|)
      ensures vars == old(vars) && varIndex == old(varIndex) && strings == old(strings) && strIndex == old(strIndex)
      ensures labelId == old(labelId)
    {
      for i := 0 to |vars|
        invariant vars == old(vars) && varIndex == old(varIndex) && strings == old(strings) && strIndex == old(strIndex)
        invariant labelId == old(labelId)
        invariant o == old(o) + Codegen.BssLines(i)
      {
        o := o + [VarSlot(i)];
      }
    }

    /**
     * `generate`: collect the names, clear the output, write the data
     * section (one quoted entry per pool slot), the bss section (one
     * quadword per variable slot), the top-level block and `exit(0)`. The
     * label counter is not reset, so a second call numbers its labels on
     * from where the first stopped.
     */
    method Generate() returns (text: string)
      requires Valid()
      modifies this
      ensures Valid()
      ensures vars == Collection.AddAll(old(vars), Collection.ProgramNames(Collection.Vars, p))
      ensures strings == Collection.AddAll(old(strings), Collection.ProgramNames(Collection.Strs, p))
      ensures Collection.StmtsCovered(p.body, varIndex.Keys, strIndex.Keys)
      ensures o == Codegen.ProgramCode(p.body, strings, vars, varIndex, strIndex, old(labelId))
      ensures labelId == old(labelId) + Labels.LabelsCount(p.body)
      ensures Labels.WellLabelled(o, old(labelId), labelId)
      ensures text == Text(o)
    {
      ghost var l0 := labelId;
      Collect();
      Collection.CollectCovers(p, old(vars), old(strings));
      assert varIndex.Keys == set n | n in vars;
      assert strIndex.Keys == set n | n in strings;
      o := [];
      o := o + Codegen.DataHeader();
      assert o == Codegen.DataHeader();
      EmitData();
      o := o + Codegen.BssHeader();
      EmitBss();
      o := o + Codegen.TextHeader();
      ghost var head := o;
      assert head == Codegen.DataHeader() + Codegen.DataLines(strings) + Codegen.BssHeader()
                     + Codegen.BssLines(|vars|) + Codegen.TextHeader();
      GenBlock(p.body);
      o := o + Codegen.ExitCode();
      Labels.BlockLabels(p.body, varIndex, strIndex, l0);
      Labels.ProgramLabels(p.body, strings, vars, varIndex, strIndex, l0);
      text := Text(o);
    }
  }

  lemma TwoParts(pool: Collection.Pool, names: seq<string>, c: Expr, t: seq<Stmt>, f: seq<Stmt>)
    ensures Collection.AddAll(Collection.AddAll(Collection.AddAll(names, Collection.ExprNames(pool, c)),
                                                Collection.StmtsNames(pool, t)),
                              Collection.StmtsNames(pool, f))
            == Collection.AddAll(names, Collection.StmtNames(pool, If(c, t, f)))
  {
    Collection.AddAllAppend(names, Collection.ExprNames(pool, c), Collection.StmtsNames(pool, t));
    Collection.AddAllAppend(names, Collection.ExprNames(pool, c) + Collection.StmtsNames(pool, t), Collection.StmtsNames(pool, f));
  }

  // Regrouping of appended pieces, used by the emitting methods above.

  lemma AppendFive<T>(o: seq<T>, a: seq<T>, b: seq<T>, c: seq<T>, d: seq<T>, e: seq<T>)
    ensures o + a + b + c + d + e == o + (a + b + c + d + e)
  {
  }

  lemma AppendSix<T>(o: seq<T>, a: seq<T>, b: seq<T>, c: seq<T>, d: seq<T>, e: seq<T>, f: seq<T>)
    ensures o + a + b + c + d + e + f == o + (a + b + c + d + e + f)
  {
  }

  lemma AppendFour<T>(o: seq<T>, a: seq<T>, b: seq<T>, c: seq<T>, d: seq<T>)
    ensures o + a + b + c + d == o + (a + b + c + d)
  {
  }

  lemma AppendThree<T>(o: seq<T>, a: seq<T>, b: seq<T>, c: seq<T>)
    ensures o + a + b + c == o + (a + b + c)
  {
  }
}

=== FILE: grammar.dfy ===
/**
 * The parser's reference definition: one function per parsing routine, over a
 * token sequence and a position, returning the tree and the position after it.
 * The class `Parsing.Parser` is proved to compute these functions.
 */
module Grammar {
  import opened Wrappers
  import opened Lexer
  import opened Ast
  import Decimal

  /** A parse either fails or yields a value and the index of the first unconsumed token. */
  datatype Parsed<T> = Fail | Ok(value: T, next: nat)

  predicate AtEnd(toks: seq<Token>, i: nat)
    requires i < |toks|
  {
    toks[i].kind == Eof
  }

  /** True when the current token has kind `t`; never true at end of input. */
  predicate Check(toks: seq<Token>, i: nat, t: TokenType)
    requires i < |toks|
  {
    !AtEnd(toks, i) && toks[i].kind == t
  }

  /** The cursor after `advance`: it moves one token forward, but never past the end-of-input token. */
  function Advance(toks: seq<Token>, i: nat): (j: nat)
    requires WellFormed(toks) && i < |toks|
    ensures j < |toks|
    ensures AtEnd(toks, i) ==> j == i
    ensures !AtEnd(toks, i) ==> j == i + 1
  {
    if AtEnd(toks, i) then i else i + 1
  }

  /** The operators of the four binary levels, from the tightest (1) to the loosest (4). */
  function LevelOps(level: nat): seq<TokenType> {
    if level == 1 then [Star, Slash, Percent]
    else if level == 2 then [Plus, Minus]
    else if level == 3 then [Less, LessEqual, Greater, GreaterEqual]
    else [EqualEqual, BangEqual]
  }

  lemma LevelOpsLevel(level: nat, t: TokenType)
    requires 1 <= level <= 4
    ensures t in LevelOps(level) <==> OpLevel(t) == level
  {
  }

  /** The binding level of a binary operator, 0 for any other token kind. */
  function OpLevel(op: TokenType): nat {
    match op
    case Star | Slash | Percent => 1
    case Plus | Minus => 2
    case Less | LessEqual | Greater | GreaterEqual => 3
    case EqualEqual | BangEqual => 4
    case _ => 0
  }

  /** How loosely an expression binds: 0 for unary and primary forms, 1 to 4 for binary levels, 5 for assignment. */
  function Level(e: Expr): nat {
    match e
    case Binary(op, _, _) => OpLevel(op)
    case Assignment(_, _) => 5
    case _ => 0
  }

  /**
   * The trees the parser can build: binary operands respect precedence and
   * left associativity (the left operand binds at most as loosely as the
   * operator, the right one strictly tighter), unary minus applies to a unary
   * or primary operand, and literals fit a signed 64-bit integer.
   */
  predicate Canon(e: Expr) {
    match e
    case IntLit(v) => 0 <= v <= Decimal.MaxInt64
    case StrLit(_) => true
    case Var(_) => true
    case Unary(op, x) => op == Minus && Level(x) == 0 && Canon(x)
    case Binary(op, l, r) =>
      && 1 <= OpLevel(op)
      && Level(l) <= OpLevel(op) && Level(r) < OpLevel(op)
      && Canon(l) && Canon(r)
    case Grouping(g) => Canon(g)
    case Assignment(_, v) => Canon(v)
  }

  /** The statements the parser can build: every expression in them is `Canon`. */
  predicate CanonStmt(s: Stmt)
    decreases s, 1
  {
    || ((s.YeetStmt? || s.ExprStmt? || s.PrintStmt?) && Canon(s.expr))
    || (s.Block? && AllCanon(s.stmts))
    || (s.If? && Canon(s.cond) && AllCanon(s.thenStmts) && AllCanon(s.elseStmts))
    || (s.LoopDoIt? && Canon(s.count) && AllCanon(s.body))
    || (s.VarDecl? && Canon(s.value))
  }

  predicate AllCanon(ss: seq<Stmt>)
    decreases ss, 0
  {
    |ss| == 0 || (CanonStmt(ss[0]) && AllCanon(ss[1..]))
  }

  // ----- expressions -----

  /** `primary := INT | STRING | IDENT | "(" expr ")"`; a literal above 2^63-1, on which the source throws, fails. */
  function ParsePrimary(toks: seq<Token>, i: nat): (r: Parsed<Expr>)
    requires WellFormed(toks) && i < |toks|
    ensures r.Ok? ==> i < r.next < |toks| && Canon(r.value) && Level(r.value) == 0
    decreases |toks| - i, 0, 0
  {
    if Check(toks, i, Int) then
      var v := Decimal.DigitsValue(toks[i].lexeme.value);
      if v > Decimal.MaxInt64 then Fail else Ok(IntLit(v), i + 1)
    else if Check(toks, i, String) then
      Ok(StrLit(toks[i].lexeme.value), i + 1)
    else if Check(toks, i, Identifier) then
      Ok(Var(toks[i].lexeme.value), i + 1)
    else if Check(toks, i, LParen) then
      match ParseAssignment(toks, i + 1)
      case Fail => Fail
      case Ok(inner, k) => if Check(toks, k, RParen) then Ok(Grouping(inner), k + 1) else Fail
    else
      Fail
  }

  /** `unary := "-" unary | primary` */
  function ParseUnary(toks: seq<Token>, i: nat): (r: Parsed<Expr>)
    requires WellFormed(toks) && i < |toks|
    ensures r.Ok? ==> i < r.next < |toks| && Canon(r.value) && Level(r.value) == 0
    decreases |toks| - i, 0, 1
  {
    if Check(toks, i, Minus) then
      match ParseUnary(toks, i + 1)
      case Fail => Fail
      case Ok(x, k) => Ok(Unary(Minus, x), k)
    else
      ParsePrimary(toks, i)
  }

  /** The operand of a binary level: the next tighter level, or a unary expression below level 1. */
  function ParseOperand(level: nat, toks: seq<Token>, i: nat): (r: Parsed<Expr>)
    requires 1 <= level <= 4 && WellFormed(toks) && i < |toks|
    ensures r.Ok? ==> i < r.next < |toks| && Canon(r.value) && Level(r.value) < level
    decreases |toks| - i, level, 0
  {
    if level == 1 then ParseUnary(toks, i) else ParseLevel(level - 1, toks, i)
  }

  /** `level := operand (op operand)*`, folded to the left. */
  function ParseLevel(level: nat, toks: seq<Token>, i: nat): (r: Parsed<Expr>)
    requires 1 <= level <= 4 && WellFormed(toks) && i < |toks|
    ensures r.Ok? ==> i < r.next < |toks| && Canon(r.value) && Level(r.value) <= level
    decreases |toks| - i, level, 1
  {
    match ParseOperand(level, toks, i)
    case Fail => Fail
    case Ok(left, k) => LevelTail(level, toks, left, k)
  }

  /** The `(op operand)*` loop of a level, with `left` the tree built so far. */
  function LevelTail(level: nat, toks: seq<Token>, left: Expr, i: nat): (r: Parsed<Expr>)
    requires 1 <= level <= 4 && WellFormed(toks) && i < |toks|
    requires Canon(left) && Level(left) <= level
    ensures r.Ok? ==> i <= r.next < |toks| && Canon(r.value) && Level(r.value) <= level
    decreases |toks| - i, level, 2
  {
    if !AtEnd(toks, i) && OpLevel(toks[i].kind) == level then
      match ParseOperand(level, toks, i + 1)
      case Fail => Fail
      case Ok(right, k) => LevelTail(level, toks, Binary(toks[i].kind, left, right), k)
    else
      Ok(left, i)
  }

  /** `assignment := equality ("=" assignment)?`, where the left side must be a bare variable. */
  function ParseAssignment(toks: seq<Token>, i: nat): (r: Parsed<Expr>)
    requires WellFormed(toks) && i < |toks|
    ensures r.Ok? ==> i < r.next < |toks| && Canon(r.value)
    decreases |toks| - i, 5, 0
  {
    match ParseLevel(4, toks, i)
    case Fail => Fail
    case Ok(left, k) =>
      if Check(toks, k, Assign) then
        if left.Var? then
          match ParseAssignment(toks, k + 1)
          case Fail => Fail
          case Ok(value, k2) => Ok(Assignment(left.name, value), k2)
        else Fail
      else Ok(left, k)
  }

  function ParseExpr(toks: seq<Token>, i: nat): (r: Parsed<Expr>)
    requires WellFormed(toks) && i < |toks|
    ensures r.Ok? ==> i < r.next < |toks| && Canon(r.value)
    decreases |toks| - i, 5, 1
  {
    ParseAssignment(toks, i)
  }

  // ----- statements -----

  /** Consumes a token of kind `t` or fails. */
  function Expect(toks: seq<Token>, i: nat, t: TokenType): (r: Option<nat>)
    requires WellFormed(toks) && i < |toks|
    ensures r.Some? ==> r.value == i + 1 && r.value < |toks| && toks[i].kind == t
    ensures r.None? ==> !Check(toks, i, t)
  {
    if Check(toks, i, t) then Some(i + 1) else None
  }

  /** `"(" expr ")"`, as in `is`, `doit` and `print`. */
  function ParseParenExpr(toks: seq<Token>, i: nat): (r: Parsed<Expr>)
    requires WellFormed(toks) && i < |toks|
    ensures r.Ok? ==> i < r.next < |toks| && Canon(r.value)
    ensures r.Ok? ==> toks[i].kind == LParen && toks[r.next - 1].kind == RParen
    decreases |toks| - i, 5, 2
  {
    match Expect(toks, i, LParen)
    case None => Fail
    case Some(k) =>
      match ParseExpr(toks, k)
      case Fail => Fail
      case Ok(e, k2) =>
        match Expect(toks, k2, RParen)
        case None => Fail
        case Some(k3) => Ok(e, k3)
  }

  /** `expr ";"` */
  function ParseExprSemi(toks: seq<Token>, i: nat): (r: Parsed<Expr>)
    requires WellFormed(toks) && i < |toks|
    ensures r.Ok? ==> i < r.next < |toks| && Canon(r.value)
    ensures r.Ok? ==> toks[r.next - 1].kind == Semicolon
    decreases |toks| - i, 5, 2
  {
    match ParseExpr(toks, i)
    case Fail => Fail
    case Ok(e, k) =>
      match Expect(toks, k, Semicolon)
      case None => Fail
      case Some(k2) => Ok(e, k2)
  }

  /** The rest of `yeet e;` after the keyword. */
  function ParseYeet(toks: seq<Token>, i: nat): (r: Parsed<Stmt>)
    requires WellFormed(toks) && i < |toks|
    ensures r.Ok? ==> i < r.next < |toks| && r.value.YeetStmt?
    ensures r.Ok? ==> CanonStmt(r.value)
    decreases |toks| - i, 7, 0
  {
    match ParseExprSemi(toks, i)
    case Fail => Fail
    case Ok(e, k) => Ok(YeetStmt(e), k)
  }

  /** The rest of `is (cond) block else block` after the keyword; the `else` branch is mandatory. */
  function ParseIf(toks: seq<Token>, i: nat): (r: Parsed<Stmt>)
    requires WellFormed(toks) && i < |toks|
    ensures r.Ok? ==> i < r.next < |toks| && r.value.If?
    ensures r.Ok? ==> CanonStmt(r.value)
    decreases |toks| - i, 7, 1
  {
    match ParseParenExpr(toks, i)
    case Fail => Fail
    case Ok(cond, k) => IfBranches(toks, k, cond)
  }

  /** The two blocks of `is`, after its condition. */
  function IfBranches(toks: seq<Token>, i: nat, cond: Expr): (r: Parsed<Stmt>)
    requires WellFormed(toks) && i < |toks| && Canon(cond)
    ensures r.Ok? ==> i < r.next < |toks| && r.value.If? && r.value.cond == cond
    ensures r.Ok? ==> CanonStmt(r.value)
    decreases |toks| - i, 7, 1
  {
    match ParseBlock(toks, i)
    case Fail => Fail
    case Ok(thenb, k) => ElseBranch(toks, k, cond, thenb.stmts)
  }

  /** `else block`, the mandatory second half of `is`. */
  function ElseBranch(toks: seq<Token>, i: nat, cond: Expr, thenStmts: seq<Stmt>): (r: Parsed<Stmt>)
    requires WellFormed(toks) && i < |toks| && Canon(cond) && AllCanon(thenStmts)
    ensures r.Ok? ==> i < r.next < |toks| && r.value.If? && r.value.cond == cond && r.value.thenStmts == thenStmts
    ensures r.Ok? ==> CanonStmt(r.value)
    decreases |toks| - i, 7, 0
  {
    if Check(toks, i, Else) then
      match ParseBlock(toks, i + 1)
      case Fail => Fail
      case Ok(elseb, k) => Ok(If(cond, thenStmts, elseb.stmts), k)
    else Fail
  }

  /** The rest of `doit (count) block` after the keyword. */
  function ParseDoIt(toks: seq<Token>, i: nat): (r: Parsed<Stmt>)
    requires WellFormed(toks) && i < |toks|
    ensures r.Ok? ==> i < r.next < |toks| && r.value.LoopDoIt?
    ensures r.Ok? ==> CanonStmt(r.value)
    decreases |toks| - i, 7, 0
  {
    match ParseParenExpr(toks, i)
    case Fail => Fail
    case Ok(count, k) =>
      match ParseBlock(toks, k)
      case Fail => Fail
      case Ok(body, k2) => Ok(LoopDoIt(count, body.stmts), k2)
  }

  /** The rest of `imagine name = e;` after the keyword. */
  function ParseImagine(toks: seq<Token>, i: nat): (r: Parsed<Stmt>)
    requires WellFormed(toks) && i < |toks|
    ensures r.Ok? ==> i < r.next < |toks| && r.value.VarDecl?
    ensures r.Ok? ==> CanonStmt(r.value)
    decreases |toks| - i, 7, 0
  {
    if Check(toks, i, Identifier) then
      match Expect(toks, i + 1, Assign)
      case None => Fail
      case Some(k) =>
        match ParseExprSemi(toks, k)
        case Fail => Fail
        case Ok(value, k2) => Ok(VarDecl(toks[i].lexeme.value, value), k2)
    else Fail
  }

  /** The rest of `print (e);` after the keyword. */
  function ParsePrint(toks: seq<Token>, i: nat): (r: Parsed<Stmt>)
    requires WellFormed(toks) && i < |toks|
    ensures r.Ok? ==> i < r.next < |toks| && r.value.PrintStmt?
    ensures r.Ok? ==> CanonStmt(r.value)
    decreases |toks| - i, 7, 0
  {
    match ParseParenExpr(toks, i)
    case Fail => Fail
    case Ok(e, k) =>
      match Expect(toks, k, Semicolon)
      case None => Fail
      case Some(k2) => Ok(PrintStmt(e), k2)
  }

  /**
   * One statement, chosen by its first token: `yeet`, `is`, `doit`,
   * `imagine`, `print`, a block, or else an expression statement `e;`.
   */
  function ParseStmt(toks: seq<Token>, i: nat): (r: Parsed<Stmt>)
    requires WellFormed(toks) && i < |toks|
    ensures r.Ok? ==> i < r.next < |toks| && CanonStmt(r.value)
    decreases |toks| - i, 7, 1
  {
    match toks[i].kind
    case Yeet => ParseYeet(toks, i + 1)
    case Is => ParseIf(toks, i + 1)
    case DoIt => ParseDoIt(toks, i + 1)
    case Imagine => ParseImagine(toks, i + 1)
    case Print => ParsePrint(toks, i + 1)
    case LBrace => ParseBlock(toks, i)
    case _ =>
      match ParseExprSemi(toks, i)
      case Fail => Fail
      case Ok(e, k) => Ok(ExprStmt(e), k)
  }

  /** `block := "{" stmt* "}"`; reaching end of input before the `}` fails. */
  function ParseBlock(toks: seq<Token>, i: nat): (r: Parsed<Stmt>)
    requires WellFormed(toks) && i < |toks|
    ensures r.Ok? ==> i < r.next < |toks| && r.value.Block? && AllCanon(r.value.stmts)
    ensures r.Ok? ==> toks[i].kind == LBrace && toks[r.next - 1].kind == RBrace
    decreases |toks| - i, 6, 0
  {
    if !Check(toks, i, LBrace) then Fail
    else
      match BlockItems(toks, i + 1)
      case Fail => Fail
      case Ok(stmts, k) => if Check(toks, k, RBrace) then Ok(Block(stmts), k + 1) else Fail
  }

  /** The statements of a block, up to the first `}` or the end of input. */
  function BlockItems(toks: seq<Token>, i: nat): (r: Parsed<seq<Stmt>>)
    requires WellFormed(toks) && i < |toks|
    ensures r.Ok? ==> i <= r.next < |toks| && AllCanon(r.value)
    ensures r.Ok? ==> Check(toks, r.next, RBrace) || AtEnd(toks, r.next)
    decreases |toks| - i, 8, 0
  {
    if Check(toks, i, RBrace) || AtEnd(toks, i) then Ok([], i)
    else
      match ParseStmt(toks, i)
      case Fail => Fail
      case Ok(s, k) =>
        match BlockItems(toks, k)
        case Fail => Fail
        case Ok(rest, k2) => Ok([s] + rest, k2)
  }

  /** The top-level statements, up to the end of input. */
  function ProgramItems(toks: seq<Token>, i: nat): (r: Parsed<seq<Stmt>>)
    requires WellFormed(toks) && i < |toks|
    ensures r.Ok? ==> r.next == |toks| - 1 && AllCanon(r.value)
    decreases |toks| - i
  {
    if AtEnd(toks, i) then Ok([], i)
    else
      match ParseStmt(toks, i)
      case Fail => Fail
      case Ok(s, k) =>
        match ProgramItems(toks, k)
        case Fail => Fail
        case Ok(rest, k2) => Ok([s] + rest, k2)
  }

  /** A program is the statements that consume every token up to the end of input; any failure fails it. */
  function ParseProgram(toks: seq<Token>): Option<Program>
    requires WellFormed(toks)
  {
    match ProgramItems(toks, 0)
    case Fail => None
    case Ok(body, _) => Some(Program(body))
  }

  // ----- what the parser rejects -----

  /**
   * A primary starts with an integer, a string, a name or `(`; any other token
   * fails it. An integer literal holds the decimal value of its digits, and a
   * literal above 2^63-1 fails. A parenthesised primary is the expression up to
   * its matching `)`, and fails without it.
   */
  lemma PrimaryStart(toks: seq<Token>, i: nat)
    requires WellFormed(toks) && i < |toks|
    ensures ParsePrimary(toks, i).Ok? ==> toks[i].kind in {Int, String, Identifier, LParen}
    ensures Check(toks, i, Int) ==>
              (ParsePrimary(toks, i).Ok? <==> Decimal.DigitsValue(toks[i].lexeme.value) <= Decimal.MaxInt64)
    ensures Check(toks, i, Int) && ParsePrimary(toks, i).Ok? ==>
              ParsePrimary(toks, i) == Ok(IntLit(Decimal.DigitsValue(toks[i].lexeme.value)), i + 1)
    ensures var r := ParsePrimary(toks, i);
            r.Ok? && toks[i].kind == LParen ==>
              && r.value.Grouping? && toks[r.next - 1].kind == RParen
              && ParseAssignment(toks, i + 1) == Ok(r.value.inner, r.next - 1)
  {
  }

  /**
   * `=` after an equality expression makes an assignment exactly when that
   * expression is a bare variable, which becomes the target; any other left
   * side fails the whole expression.
   */
  lemma AssignTarget(toks: seq<Token>, i: nat, left: Expr, k: nat)
    requires WellFormed(toks) && i < |toks|
    requires ParseLevel(4, toks, i) == Ok(left, k) && Check(toks, k, Assign)
    ensures !left.Var? ==> ParseAssignment(toks, i) == Fail
    ensures ParseAssignment(toks, i).Ok? ==>
              left.Var? && ParseAssignment(toks, i).value == Assignment(left.name, ParseAssignment(toks, k + 1).value)
  {
  }

  /** Without `else` the branch fails; with it, the else list is the statements of the block that follows. */
  lemma ElseRequired(toks: seq<Token>, i: nat, cond: Expr, thenStmts: seq<Stmt>)
    requires WellFormed(toks) && i < |toks| && Canon(cond) && AllCanon(thenStmts)
    ensures !Check(toks, i, Else) ==> ElseBranch(toks, i, cond, thenStmts) == Fail
    ensures ElseBranch(toks, i, cond, thenStmts).Ok? ==>
              && Check(toks, i, Else) && i + 1 < |toks|
              && ParseBlock(toks, i + 1)
                 == Ok(Block(ElseBranch(toks, i, cond, thenStmts).value.elseStmts), ElseBranch(toks, i, cond, thenStmts).next)
  {
  }

  /**
   * `is` parses only as `( cond )` followed by its two branches: the condition
   * is the expression between the parentheses (ParseParenExpr states that
   * both are there), and a statement without them fails.
   */
  lemma IfShape(toks: seq<Token>, i: nat)
    requires WellFormed(toks) && i < |toks|
    ensures var r := ParseIf(toks, i); var c := ParseParenExpr(toks, i);
            r.Ok? ==> c.Ok? && c.value == r.value.cond && IfBranches(toks, c.next, c.value) == r
  {
  }

  /**
   * The branches of `is` are a block, then `else` and a block (ElseRequired):
   * the then list is the first block's statements.
   */
  lemma BranchesShape(toks: seq<Token>, i: nat, cond: Expr)
    requires WellFormed(toks) && i < |toks| && Canon(cond)
    ensures var r := IfBranches(toks, i, cond); var b := ParseBlock(toks, i);
            r.Ok? ==> b.Ok? && ElseBranch(toks, b.next, cond, b.value.stmts) == r
  {
  }

  /** `doit` parses only as `( count ) block`: the count is the expression between the parentheses, the body the block's statements. */
  lemma DoItShape(toks: seq<Token>, i: nat)
    requires WellFormed(toks) && i < |toks|
    ensures var r := ParseDoIt(toks, i); var c := ParseParenExpr(toks, i);
            r.Ok? ==> c.Ok? && c.value == r.value.count && ParseBlock(toks, c.next) == Ok(Block(r.value.body), r.next)
  {
  }

  /** `yeet` takes exactly an expression statement's `e;` (ParseExprSemi states the `;`). */
  lemma YeetShape(toks: seq<Token>, i: nat)
    requires WellFormed(toks) && i < |toks|
    ensures var r := ParseYeet(toks, i);
            r.Ok? ==> ParseExprSemi(toks, i) == Ok(r.value.expr, r.next)
  {
  }

  /** `imagine` takes a name, then `=`, then `e;`; a declaration missing any of them fails. */
  lemma ImagineShape(toks: seq<Token>, i: nat)
    requires WellFormed(toks) && i < |toks|
    ensures var r := ParseImagine(toks, i);
            r.Ok? ==>
              && Check(toks, i, Identifier) && r.value.name == toks[i].lexeme.value
              && i + 2 < |toks| && Check(toks, i + 1, Assign)
              && ParseExprSemi(toks, i + 2) == Ok(r.value.value, r.next)
  {
  }

  /** `print` takes `( e )` and then `;`; a statement missing any of them fails. */
  lemma PrintShape(toks: seq<Token>, i: nat)
    requires WellFormed(toks) && i < |toks|
    ensures var r := ParsePrint(toks, i); var c := ParseParenExpr(toks, i);
            r.Ok? ==> c.Ok? && c.value == r.value.expr && Check(toks, c.next, Semicolon) && r.next == c.next + 1
  {
  }

  /** `"(" expr ")"` holds exactly the expression between the parentheses. */
  lemma ParenShape(toks: seq<Token>, i: nat)
    requires WellFormed(toks) && i < |toks|
    ensures var c := ParseParenExpr(toks, i);
            c.Ok? ==> i + 1 < |toks| && ParseExpr(toks, i + 1) == Ok(c.value, c.next - 1)
  {
  }

  /**
   * A statement is chosen by its first token: each keyword hands the rest to
   * its routine, `{` to the block parser, and any other token makes an
   * expression statement, which must end with `;` (ParseExprSemi).
   */
  lemma StmtDispatch(toks: seq<Token>, i: nat)
    requires WellFormed(toks) && i < |toks|
    ensures toks[i].kind == Yeet ==> ParseStmt(toks, i) == ParseYeet(toks, i + 1)
    ensures toks[i].kind == Is ==> ParseStmt(toks, i) == ParseIf(toks, i + 1)
    ensures toks[i].kind == DoIt ==> ParseStmt(toks, i) == ParseDoIt(toks, i + 1)
    ensures toks[i].kind == Imagine ==> ParseStmt(toks, i) == ParseImagine(toks, i + 1)
    ensures toks[i].kind == Print ==> ParseStmt(toks, i) == ParsePrint(toks, i + 1)
    ensures toks[i].kind == LBrace ==> ParseStmt(toks, i) == ParseBlock(toks, i)
    ensures toks[i].kind !in {Yeet, Is, DoIt, Imagine, Print, LBrace} && ParseStmt(toks, i).Ok? ==>
              && ParseExprSemi(toks, i).Ok?
              && ParseStmt(toks, i) == Ok(ExprStmt(ParseExprSemi(toks, i).value), ParseExprSemi(toks, i).next)
  {
  }

  /**
   * `-` is followed by a unary expression, which becomes the operand; any
   * other token is handed to the primary parser, so `+x` fails there.
   */
  lemma UnaryShape(toks: seq<Token>, i: nat)
    requires WellFormed(toks) && i < |toks|
    ensures !Check(toks, i, Minus) ==> ParseUnary(toks, i) == ParsePrimary(toks, i)
    ensures var r := ParseUnary(toks, i);
            Check(toks, i, Minus) && r.Ok? ==>
              && i + 1 < |toks| && r.value == Unary(Minus, r.value.operand)
              && ParseUnary(toks, i + 1) == Ok(r.value.operand, r.next)
  {
  }

  /** A level is an operand followed by the level's `(op operand)*` loop; without a first operand it fails. */
  lemma LevelShape(level: nat, toks: seq<Token>, i: nat)
    requires 1 <= level <= 4 && WellFormed(toks) && i < |toks|
    ensures var r := ParseLevel(level, toks, i); var o := ParseOperand(level, toks, i);
            r.Ok? ==> o.Ok? && LevelTail(level, toks, o.value, o.next) == r
  {
  }

  /**
   * The loop of a level stops at the first token that is not one of its
   * operators; an operator must be followed by an operand, which is folded
   * into the left side, and an operator without one fails the expression.
   */
  lemma LevelTailShape(level: nat, toks: seq<Token>, left: Expr, i: nat)
    requires 1 <= level <= 4 && WellFormed(toks) && i < |toks|
    requires Canon(left) && Level(left) <= level
    ensures !(!AtEnd(toks, i) && OpLevel(toks[i].kind) == level) ==> LevelTail(level, toks, left, i) == Ok(left, i)
    ensures var r := LevelTail(level, toks, left, i);
            !AtEnd(toks, i) && OpLevel(toks[i].kind) == level && r.Ok? ==>
              && i + 1 < |toks| && ParseOperand(level, toks, i + 1).Ok?
              && r == LevelTail(level, toks, Binary(toks[i].kind, left, ParseOperand(level, toks, i + 1).value),
                                ParseOperand(level, toks, i + 1).next)
  {
  }

  /**
   * Before `}` or the end of input, a block's statement list is one
   * statement followed by the rest; a statement that fails fails the block.
   */
  lemma BlockItemsShape(toks: seq<Token>, i: nat)
    requires WellFormed(toks) && i < |toks|
    ensures var r := BlockItems(toks, i); var s := ParseStmt(toks, i);
            !Check(toks, i, RBrace) && !AtEnd(toks, i) && r.Ok? ==>
              && s.Ok? && BlockItems(toks, s.next).Ok?
              && r == Ok([s.value] + BlockItems(toks, s.next).value, BlockItems(toks, s.next).next)
  {
  }

  /**
   * Before the end of input, the program is one statement followed by the
   * rest; a statement that fails fails the whole program.
   */
  lemma ProgramItemsShape(toks: seq<Token>, i: nat)
    requires WellFormed(toks) && i < |toks|
    ensures var r := ProgramItems(toks, i); var s := ParseStmt(toks, i);
            !AtEnd(toks, i) && r.Ok? ==>
              && s.Ok? && ProgramItems(toks, s.next).Ok?
              && r == Ok([s.value] + ProgramItems(toks, s.next).value, ProgramItems(toks, s.next).next)
  {
  }
}

=== FILE: labels.dfy ===
/**
 * Labels in the emitted code: every `new_label` id is used by one construct
 * only, so each label is defined once, and every jump lands on a label the
 * same statement defines.
 */
module Labels {
  import opened Ast
  import opened Asm
  import opened Codegen
  import Collection

  /** How many ids `new_label` hands out while a statement is generated. */
  function LabelCount(s: Stmt): nat
    decreases s, 1
  {
    match s
    case If(_, t, f) => 2 + LabelsCount(t) + LabelsCount(f)
    case LoopDoIt(_, b) => 2 + LabelsCount(b)
    case PrintStmt(e) => if e.StrLit? then 0 else 1
    case Block(ss) => LabelsCount(ss)
    case _ => 0
  }

  function LabelsCount(ss: seq<Stmt>): nat
    decreases ss, 0
  {
    if |ss| == 0 then 0 else LabelsCount(ss[..|ss| - 1]) + LabelCount(ss[|ss| - 1])
  }

  /** The labels a fragment defines. */
  function DefSet(code: seq<Line>): set<Label> {
    set k | 0 <= k < |code| && code[k].Def? :: code[k].defined
  }

  /** The labels a fragment jumps to. */
  function UseSet(code: seq<Line>): set<Label> {
    set k | 0 <= k < |code| && (code[k].Jmp? || code[k].Jump?) :: code[k].target
  }

  /** No label is defined twice. */
  predicate UniqueDefs(code: seq<Line>) {
    forall i, j | 0 <= i < j < |code| && code[i].Def? && code[j].Def? :: code[i].defined != code[j].defined
  }

  /** Every label the fragment defines has an id in `(lo, hi]`. */
  predicate DefsIn(code: seq<Line>, lo: int, hi: int) {
    forall x | x in DefSet(code) :: lo < x.n <= hi
  }

  /** Labels defined once each, numbered from the ids the fragment was given, and every jump target defined. */
  predicate WellLabelled(code: seq<Line>, lo: int, hi: int) {
    UniqueDefs(code) && DefsIn(code, lo, hi) && UseSet(code) <= DefSet(code)
  }

  lemma Glue(a: seq<Line>, b: seq<Line>)
    ensures DefSet(a + b) == DefSet(a) + DefSet(b)
    ensures UseSet(a + b) == UseSet(a) + UseSet(b)
    ensures UniqueDefs(a) && UniqueDefs(b) && DefSet(a) !! DefSet(b) ==> UniqueDefs(a + b)
  {
    var c := a + b;
    forall x | x in DefSet(c) ensures x in DefSet(a) + DefSet(b) {
      var k :| 0 <= k < |c| && c[k].Def? && c[k].defined == x;
      if k < |a| { assert c[k] == a[k]; } else { assert c[k] == b[k - |a|]; }
    }
    forall x | x in DefSet(a) + DefSet(b) ensures x in DefSet(c) {
      if x in DefSet(a) {
        var k :| 0 <= k < |a| && a[k].Def? && a[k].defined == x;
        assert c[k] == a[k];
      } else {
        var k :| 0 <= k < |b| && b[k].Def? && b[k].defined == x;
        assert c[|a| + k] == b[k];
      }
    }
    forall x | x in UseSet(c) ensures x in UseSet(a) + UseSet(b) {
      var k :| 0 <= k < |c| && (c[k].Jmp? || c[k].Jump?) && c[k].target == x;
      if k < |a| { assert c[k] == a[k]; } else { assert c[k] == b[k - |a|]; }
    }
    forall x | x in UseSet(a) + UseSet(b) ensures x in UseSet(c) {
      if x in UseSet(a) {
        var k :| 0 <= k < |a| && (a[k].Jmp? || a[k].Jump?) && a[k].target == x;
        assert c[k] == a[k];
      } else {
        var k :| 0 <= k < |b| && (b[k].Jmp? || b[k].Jump?) && b[k].target == x;
        assert c[|a| + k] == b[k];
      }
    }
    if UniqueDefs(a) && UniqueDefs(b) && DefSet(a) !! DefSet(b) {
      forall i, j | 0 <= i < j < |c| && c[i].Def? && c[j].Def?
        ensures c[i].defined != c[j].defined
      {
        if j < |a| {
          assert c[i] == a[i] && c[j] == a[j];
        } else if i >= |a| {
          assert c[i] == b[i - |a|] && c[j] == b[j - |a|];
        } else {
          assert c[i] == a[i] && c[j] == b[j - |a|];
          assert c[i].defined in DefSet(a);
          assert c[j].defined in DefSet(b);
        }
      }
    }
  }

  lemma StraightSets(code: seq<Line>)
    requires Straight(code)
    ensures DefSet(code) == {} && UseSet(code) == {} && UniqueDefs(code)
  {
  }

  lemma NumberDefs(n: int)
    ensures DefSet(NumberCode(n)) == {Pos(n), Loop(n), NoSign(n)}
  {
    var code := NumberCode(n);
    assert code[7] == Def(Pos(n));
    assert code[9] == Def(Loop(n));
    assert code[21] == Def(NoSign(n));
  }

  lemma NumberUses(n: int)
    ensures UseSet(NumberCode(n)) == {Pos(n), Loop(n), NoSign(n)}
  {
    var code := NumberCode(n);
    assert code[4] == Jump(Ge, Pos(n));
    assert code[16] == Jump(Nz, Loop(n));
    assert code[18] == Jump(Eq, NoSign(n));
  }

  lemma NumberUnique(n: int)
    ensures UniqueDefs(NumberCode(n))
  {
  }

  /** Straight code, then the formatter for id `n`, then straight code. */
  lemma FormatterGlue(a: seq<Line>, b: seq<Line>, c: seq<Line>, n: int)
    requires Straight(a) && Straight(c)
    requires DefSet(b) == {Pos(n), Loop(n), NoSign(n)} && UseSet(b) == DefSet(b) && UniqueDefs(b)
    ensures WellLabelled(a + b + c, n - 1, n)
  {
    StraightSets(a);
    StraightSets(c);
    Glue(a, b);
    Glue(a + b, c);
  }

  /** Print: the formatter's three labels all carry the one id the print takes. */
  lemma PrintLabels(e: Expr, vi: Index, si: Index, l: int)
    requires Collection.Covered(e, vi.Keys, si.Keys)
    ensures PrintCode(e, vi, si, l).next == l + (if e.StrLit? then 0 else 1)
    ensures WellLabelled(PrintCode(e, vi, si, l).code, l, PrintCode(e, vi, si, l).next)
  {
    if e.StrLit? {
      var code := PrintCode(e, vi, si, l).code;
      assert Straight(code);
      StraightSets(code);
    } else {
      ExprCodeStraight(e, vi, si);
      NumberDefs(l + 1);
      NumberUses(l + 1);
      NumberUnique(l + 1);
      FormatterGlue(ExprCode(e, vi, si), NumberCode(l + 1), NewlineCode(), l + 1);
    }
  }

  lemma IfPieces(l: int)
    ensures DefSet([CmpImm(Rax, 0), Jump(Eq, Plain(l + 1))]) == {}
    ensures UseSet([CmpImm(Rax, 0), Jump(Eq, Plain(l + 1))]) == {Plain(l + 1)}
    ensures DefSet([Jmp(Plain(l + 2)), Def(Plain(l + 1))]) == {Plain(l + 1)}
    ensures UseSet([Jmp(Plain(l + 2)), Def(Plain(l + 1))]) == {Plain(l + 2)}
    ensures DefSet([Def(Plain(l + 2))]) == {Plain(l + 2)}
    ensures UseSet([Def(Plain(l + 2))]) == {}
  {
    var p1 := [CmpImm(Rax, 0), Jump(Eq, Plain(l + 1))];
    var p2 := [Jmp(Plain(l + 2)), Def(Plain(l + 1))];
    var p3 := [Def(Plain(l + 2))];
    assert p1[1] == Jump(Eq, Plain(l + 1));
    assert p2[0] == Jmp(Plain(l + 2));
    assert p2[1] == Def(Plain(l + 1));
    assert p3[0] == Def(Plain(l + 2));
  }

  lemma LoopPieces(l: int)
    ensures DefSet([MovReg(R10, Rax), CmpImm(R10, 0), Jump(Le, Plain(l + 2)), Def(Plain(l + 1))]) == {Plain(l + 1)}
    ensures UseSet([MovReg(R10, Rax), CmpImm(R10, 0), Jump(Le, Plain(l + 2)), Def(Plain(l + 1))]) == {Plain(l + 2)}
    ensures DefSet([Dec(R10), Jump(Nz, Plain(l + 1)), Def(Plain(l + 2))]) == {Plain(l + 2)}
    ensures UseSet([Dec(R10), Jump(Nz, Plain(l + 1)), Def(Plain(l + 2))]) == {Plain(l + 1)}
  {
    var p1 := [MovReg(R10, Rax), CmpImm(R10, 0), Jump(Le, Plain(l + 2)), Def(Plain(l + 1))];
    var p2 := [Dec(R10), Jump(Nz, Plain(l + 1)), Def(Plain(l + 2))];
    assert p1[2] == Jump(Le, Plain(l + 2));
    assert p1[3] == Def(Plain(l + 1));
    assert p2[1] == Jump(Nz, Plain(l + 1));
    assert p2[2] == Def(Plain(l + 2));
  }

  /** If: the two ids `l + 1` (else) and `l + 2` (end) around two well-labelled blocks. */
  lemma IfGlue(cond: seq<Line>, thenCode: seq<Line>, elseCode: seq<Line>, l: int, mid: int, hi: int)
    requires Straight(cond)
    requires l + 2 <= mid <= hi
    requires WellLabelled(thenCode, l + 2, mid) && WellLabelled(elseCode, mid, hi)
    ensures WellLabelled(cond + [CmpImm(Rax, 0), Jump(Eq, Plain(l + 1))] + thenCode
                         + [Jmp(Plain(l + 2)), Def(Plain(l + 1))] + elseCode + [Def(Plain(l + 2))], l, hi)
  {
    var p1 := [CmpImm(Rax, 0), Jump(Eq, Plain(l + 1))];
    var p2 := [Jmp(Plain(l + 2)), Def(Plain(l + 1))];
    var p3 := [Def(Plain(l + 2))];
    IfPieces(l);
    IfAssemble(cond, p1, thenCode, p2, elseCode, p3, l, mid, hi);
  }

  lemma IfAssemble(cond: seq<Line>, p1: seq<Line>, thenCode: seq<Line>, p2: seq<Line>, elseCode: seq<Line>,
                   p3: seq<Line>, l: int, mid: int, hi: int)
    requires Straight(cond)
    requires l + 2 <= mid <= hi
    requires WellLabelled(thenCode, l + 2, mid) && WellLabelled(elseCode, mid, hi)
    requires DefSet(p1) == {} && UseSet(p1) == {Plain(l + 1)}
    requires DefSet(p2) == {Plain(l + 1)} && UseSet(p2) == {Plain(l + 2)}
    requires DefSet(p3) == {Plain(l + 2)} && UseSet(p3) == {}
    requires UniqueDefs(p1) && UniqueDefs(p2) && UniqueDefs(p3)
    ensures WellLabelled(cond + p1 + thenCode + p2 + elseCode + p3, l, hi)
  {
    StraightSets(cond);
    Glue(cond, p1);
    Glue(cond + p1, thenCode);
    Glue(cond + p1 + thenCode, p2);
    Glue(cond + p1 + thenCode + p2, elseCode);
    Glue(cond + p1 + thenCode + p2 + elseCode, p3);
  }

  /** Doit: `l + 1` heads the body, `l + 2` follows it. */
  lemma LoopGlue(count: seq<Line>, body: seq<Line>, l: int, hi: int)
    requires Straight(count)
    requires l + 2 <= hi
    requires WellLabelled(body, l + 2, hi)
    ensures WellLabelled(count + [MovReg(R10, Rax), CmpImm(R10, 0), Jump(Le, Plain(l + 2)), Def(Plain(l + 1))]
                         + body + [Dec(R10), Jump(Nz, Plain(l + 1)), Def(Plain(l + 2))], l, hi)
  {
    var p1 := [MovReg(R10, Rax), CmpImm(R10, 0), Jump(Le, Plain(l + 2)), Def(Plain(l + 1))];
    var p2 := [Dec(R10), Jump(Nz, Plain(l + 1)), Def(Plain(l + 2))];
    LoopPieces(l);
    StraightSets(count);
    Glue(count, p1);
    Glue(count + p1, body);
    Glue(count + p1 + body, p2);
  }

  /** Two well-labelled fragments over consecutive id ranges. */
  lemma SeqGlue(a: seq<Line>, b: seq<Line>, lo: int, mid: int, hi: int)
    requires lo <= mid <= hi
    requires WellLabelled(a, lo, mid) && WellLabelled(b, mid, hi)
    ensures WellLabelled(a + b, lo, hi)
  {
    Glue(a, b);
  }

  /**
   * Generating a statement from counter `l` takes exactly `LabelCount(s)`
   * ids, defines each label it uses once, all numbered in `(l, next]`.
   */
  lemma {:induction false} StmtLabels(s: Stmt, vi: Index, si: Index, l: int)
    requires Collection.StmtCovered(s, vi.Keys, si.Keys)
    ensures StmtCode(s, vi, si, l).next == l + LabelCount(s)
    ensures WellLabelled(StmtCode(s, vi, si, l).code, l, StmtCode(s, vi, si, l).next)
    decreases s, 1
  {
    match s
    case YeetStmt(_) => SimpleLabels(s, vi, si, l);
    case ExprStmt(_) => SimpleLabels(s, vi, si, l);
    case VarDecl(_, _) => SimpleLabels(s, vi, si, l);
    case PrintStmt(e) => PrintLabels(e, vi, si, l);
    case Block(ss) => BlockLabels(ss, vi, si, l);
    case If(c, t, f) => IfLabels(c, t, f, vi, si, l);
    case LoopDoIt(c, b) => LoopLabels(c, b, vi, si, l);
  }

  /** Statements without labels of their own emit straight-line code. */
  lemma SimpleLabels(s: Stmt, vi: Index, si: Index, l: int)
    requires s.YeetStmt? || s.ExprStmt? || s.VarDecl?
    requires Collection.StmtCovered(s, vi.Keys, si.Keys)
    ensures StmtCode(s, vi, si, l).next == l + LabelCount(s)
    ensures WellLabelled(StmtCode(s, vi, si, l).code, l, StmtCode(s, vi, si, l).next)
  {
    match s
    case YeetStmt(e) =>
      ExprCodeStraight(e, vi, si);
      Concat(ExprCode(e, vi, si), [MovReg(Rdi, Rax), MovImm(Rax, 60), Syscall]);
      StraightSets(StmtCode(s, vi, si, l).code);
    case ExprStmt(e) =>
      ExprCodeStraight(e, vi, si);
      StraightSets(ExprCode(e, vi, si));
    case VarDecl(n, v) =>
      ExprCodeStraight(v, vi, si);
      Concat(ExprCode(v, vi, si), [StoreVar(vi[n])]);
      StraightSets(StmtCode(s, vi, si, l).code);
  }

  lemma {:induction false} IfLabels(c: Expr, t: seq<Stmt>, f: seq<Stmt>, vi: Index, si: Index, l: int)
    requires Collection.StmtCovered(If(c, t, f), vi.Keys, si.Keys)
    ensures StmtCode(If(c, t, f), vi, si, l).next == l + LabelCount(If(c, t, f))
    ensures WellLabelled(StmtCode(If(c, t, f), vi, si, l).code, l, StmtCode(If(c, t, f), vi, si, l).next)
    decreases If(c, t, f), 0
  {
    var thenCode := BlockCode(t, vi, si, l + 2);
    BlockLabels(t, vi, si, l + 2);
    BlockLabels(f, vi, si, thenCode.next);
    ExprCodeStraight(c, vi, si);
    IfGlue(ExprCode(c, vi, si), thenCode.code, BlockCode(f, vi, si, thenCode.next).code,
           l, thenCode.next, BlockCode(f, vi, si, thenCode.next).next);
  }

  lemma {:induction false} LoopLabels(c: Expr, b: seq<Stmt>, vi: Index, si: Index, l: int)
    requires Collection.StmtCovered(LoopDoIt(c, b), vi.Keys, si.Keys)
    ensures StmtCode(LoopDoIt(c, b), vi, si, l).next == l + LabelCount(LoopDoIt(c, b))
    ensures WellLabelled(StmtCode(LoopDoIt(c, b), vi, si, l).code, l, StmtCode(LoopDoIt(c, b), vi, si, l).next)
    decreases LoopDoIt(c, b), 0
  {
    BlockLabels(b, vi, si, l + 2);
    ExprCodeStraight(c, vi, si);
    LoopGlue(ExprCode(c, vi, si), BlockCode(b, vi, si, l + 2).code, l, BlockCode(b, vi, si, l + 2).next);
  }

  lemma {:induction false} BlockLabels(ss: seq<Stmt>, vi: Index, si: Index, l: int)
    requires Collection.StmtsCovered(ss, vi.Keys, si.Keys)
    ensures BlockCode(ss, vi, si, l).next == l + LabelsCount(ss)
    ensures WellLabelled(BlockCode(ss, vi, si, l).code, l, BlockCode(ss, vi, si, l).next)
    decreases ss, 0
  {
    if |ss| == 0 {
      StraightSets([]);
    } else {
      var init := BlockCode(ss[..|ss| - 1], vi, si, l);
      BlockLabels(ss[..|ss| - 1], vi, si, l);
      StmtLabels(ss[|ss| - 1], vi, si, init.next);
      SeqGlue(init.code, StmtCode(ss[|ss| - 1], vi, si, init.next).code, l, init.next,
              StmtCode(ss[|ss| - 1], vi, si, init.next).next);
    }
  }

  lemma {:induction false} DataStraight(strings: seq<string>)
    ensures Straight(DataLines(strings))
  {
    if |strings| > 0 {
      var n := |strings| - 1;
      DataStraight(strings[..n]);
      StraightConcat(DataLines(strings[..n]), [StrData(n, Escape(strings[n])), StrLen(n)]);
    }
  }

  lemma {:induction false} BssStraight(count: nat)
    ensures Straight(BssLines(count))
  {
    if count > 0 {
      BssStraight(count - 1);
      StraightConcat(BssLines(count - 1), [VarSlot(count - 1)]);
    }
  }

  /** The whole listing: the labels are exactly those of the top-level statements. */
  lemma ProgramLabels(body: seq<Stmt>, strings: seq<string>, vars: seq<string>, vi: Index, si: Index, l: int)
    requires Collection.StmtsCovered(body, vi.Keys, si.Keys)
    ensures WellLabelled(ProgramCode(body, strings, vars, vi, si, l), l, l + LabelsCount(body))
  {
    var head := DataHeader() + DataLines(strings) + BssHeader() + BssLines(|vars|) + TextHeader();
    DataStraight(strings);
    BssStraight(|vars|);
    StraightConcat(DataHeader(), DataLines(strings));
    StraightConcat(DataHeader() + DataLines(strings), BssHeader());
    StraightConcat(DataHeader() + DataLines(strings) + BssHeader(), BssLines(|vars|));
    StraightConcat(DataHeader() + DataLines(strings) + BssHeader() + BssLines(|vars|), TextHeader());
    StraightSets(head);
    StraightSets(ExitCode());
    BlockLabels(body, vi, si, l);
    Glue(head, BlockCode(body, vi, si, l).code);
    Glue(head + BlockCode(body, vi, si, l).code, ExitCode());
  }
}

=== FILE: lexer.dfy ===
/**
 * The lexer's reference definition: character classes, the token at a position
 * (`Scan`), and the whole token sequence (`LexFrom`), with the properties the
 * token stream has. The class `Tokenization.Tokenizer` is proved to compute it.
 */
module Lexer {
  import opened Wrappers
  import Decimal

  datatype TokenType =
    | Is | Else | DoIt | Yeet | Imagine | Print
    | Identifier | String | Int
    | Plus | Minus | Star | Slash | Percent
    | EqualEqual | BangEqual | Less | LessEqual | Greater | GreaterEqual
    | Assign
    | LParen | RParen | LBrace | RBrace | Semicolon
    | Eof

  /** Keywords and operators carry no lexeme; identifiers, numbers and strings carry their text. */
  datatype Token = Token(kind: TokenType, lexeme: Option<string>)

  // Character classes, in their ASCII reading.
  predicate IsDigit(c: char) { '0' <= c <= '9' }
  predicate IsAlpha(c: char) { 'A' <= c <= 'Z' || 'a' <= c <= 'z' }
  predicate IsAlnum(c: char) { IsDigit(c) || IsAlpha(c) }
  predicate IsSpace(c: char) {
    c == ' ' || c == '\t' || c == '\n' || c == '\U{000B}' || c == '\U{000C}' || c == '\r'
  }
  predicate IsIdentStart(c: char) { IsAlpha(c) || c == '_' }
  predicate IsIdentPart(c: char) { IsAlnum(c) || c == '_' }
  predicate IsNotQuote(c: char) { c != '"' }

  /** The characters that can start a token (every character inside a token other than a string's is one too). */
  predicate IsTokenStart(c: char) {
    IsDigit(c) || IsIdentStart(c) || c == '"' || c in "+-*/%(){};!<>="
  }

  /** The end of the longest run of characters satisfying `p` that starts at `i`. */
  function RunEnd(s: string, i: nat, p: char -> bool): (j: nat)
    requires i <= |s|
    ensures i <= j <= |s|
    ensures forall k | i <= k < j :: p(s[k])
    ensures j == |s| || !p(s[j])
    decreases |s| - i
  {
    if i < |s| && p(s[i]) then RunEnd(s, i + 1, p) else i
  }

  const Keywords: map<string, TokenType> :=
    map["is" := Is, "else" := Else, "doit" := DoIt, "yeet" := Yeet, "imagine" := Imagine, "print" := Print]

  /** The token for an identifier-shaped word: a keyword without lexeme, or an identifier with its text. */
  function WordToken(w: string): (t: Token)
    ensures w in Keywords ==> t == Token(Keywords[w], None)
    ensures w !in Keywords ==> t == Token(Identifier, Some(w))
  {
    if w == "is" then Token(Is, None)
    else if w == "else" then Token(Else, None)
    else if w == "doit" then Token(DoIt, None)
    else if w == "yeet" then Token(Yeet, None)
    else if w == "imagine" then Token(Imagine, None)
    else if w == "print" then Token(Print, None)
    else Token(Identifier, Some(w))
  }

  /** The one-character operators and punctuation. */
  function SingleKind(c: char): Option<TokenType> {
    match c
    case '+' => Some(Plus)
    case '-' => Some(Minus)
    case '*' => Some(Star)
    case '/' => Some(Slash)
    case '%' => Some(Percent)
    case '(' => Some(LParen)
    case ')' => Some(RParen)
    case '{' => Some(LBrace)
    case '}' => Some(RBrace)
    case ';' => Some(Semicolon)
    case '<' => Some(Less)
    case '>' => Some(Greater)
    case '=' => Some(Assign)
    case _ => None
  }

  /** The two-character operators `c=`. */
  function PairKind(c: char): Option<TokenType> {
    match c
    case '<' => Some(LessEqual)
    case '>' => Some(GreaterEqual)
    case '=' => Some(EqualEqual)
    case '!' => Some(BangEqual)
    case _ => None
  }

  predicate NextIs(s: string, i: nat, c: char) {
    i + 1 < |s| && s[i + 1] == c
  }

  /** The lexeme a token must carry: a digit run for a number, some text for identifiers and strings. */
  predicate LexemeOk(t: Token) {
    && (t.kind == Int ==> t.lexeme.Some? && |t.lexeme.value| > 0 && Decimal.AllDigits(t.lexeme.value))
    && (t.kind == Identifier || t.kind == String ==> t.lexeme.Some?)
  }

  /**
   * The token that starts at the non-blank character `s[i]` and the index just
   * after it, or None where the lexer fails. What it recognises is stated by the
   * lemmas below.
   */
  function Scan(s: string, i: nat): (r: Option<(Token, nat)>)
    requires i < |s|
    ensures r.Some? ==> i < r.value.1 <= |s| && r.value.0.kind != Eof && LexemeOk(r.value.0)
  {
    var c := s[i];
    if IsDigit(c) then
      var j := RunEnd(s, i, IsDigit);
      Some((Token(Int, Some(s[i..j])), j))
    else if IsIdentStart(c) then
      var j := RunEnd(s, i, IsIdentPart);
      Some((WordToken(s[i..j]), j))
    else if c == '"' then
      var j := RunEnd(s, i + 1, IsNotQuote);
      if j == |s| then None else Some((Token(String, Some(s[i + 1..j])), j + 1))
    else if PairKind(c).Some? && NextIs(s, i, '=') then
      Some((Token(PairKind(c).value, None), i + 2))
    else if SingleKind(c).Some? then
      Some((Token(SingleKind(c).value, None), i + 1))
    else
      None
  }

  /** A number is a maximal non-empty digit run, carried as its text. */
  lemma ScanNumber(s: string, i: nat)
    requires i < |s| && IsDigit(s[i])
    ensures var r := Scan(s, i);
      && r.Some? && r.value.0 == Token(Int, Some(s[i..r.value.1]))
      && (forall k | i <= k < r.value.1 :: IsDigit(s[k]))
      && (r.value.1 == |s| || !IsDigit(s[r.value.1]))
  {
  }

  /** A word is a maximal run of letters, digits and `_` that starts with a letter or `_`. */
  lemma ScanWord(s: string, i: nat)
    requires i < |s| && IsIdentStart(s[i])
    ensures var r := Scan(s, i);
      && r.Some? && r.value.0 == WordToken(s[i..r.value.1])
      && (forall k | i <= k < r.value.1 :: IsIdentPart(s[k]))
      && (r.value.1 == |s| || !IsIdentPart(s[r.value.1]))
  {
  }

  /** A string is the raw text up to the next quote, with no escapes; with no closing quote the scan fails. */
  lemma ScanString(s: string, i: nat)
    requires i < |s| && s[i] == '"'
    ensures var r := Scan(s, i);
      && (r.Some? <==> exists q | i < q < |s| :: s[q] == '"')
      && (r.Some? ==>
        && i + 2 <= r.value.1
        && r.value.0 == Token(String, Some(s[i + 1..r.value.1 - 1]))
        && s[r.value.1 - 1] == '"'
        && (forall k | i < k < r.value.1 - 1 :: s[k] != '"'))
  {
    var j := RunEnd(s, i + 1, IsNotQuote);
    if j < |s| {
      assert s[j] == '"';
    } else {
      assert forall q | i < q < |s| :: !(s[q] == '"') by {
        forall q | i < q < |s| ensures s[q] != '"' { assert IsNotQuote(s[q]); }
      }
    }
  }

  /** `<=`, `>=`, `==` and `!=` are taken whole whenever the `=` follows; a lone `!` fails. */
  lemma ScanOperator(s: string, i: nat)
    requires i < |s|
    ensures PairKind(s[i]).Some? && NextIs(s, i, '=') ==> Scan(s, i) == Some((Token(PairKind(s[i]).value, None), i + 2))
    ensures SingleKind(s[i]).Some? && !NextIs(s, i, '=') ==> Scan(s, i) == Some((Token(SingleKind(s[i]).value, None), i + 1))
    ensures SingleKind(s[i]).Some? && PairKind(s[i]).None? ==> Scan(s, i) == Some((Token(SingleKind(s[i]).value, None), i + 1))
    ensures s[i] == '!' && !NextIs(s, i, '=') ==> Scan(s, i) == None
  {
  }

  /** Any other character fails; outside strings a token is made of token characters other than the quote. */
  lemma ScanCharacters(s: string, i: nat)
    requires i < |s|
    ensures !IsTokenStart(s[i]) ==> Scan(s, i) == None
    ensures Scan(s, i).Some? && s[i] != '"' ==>
              forall k | i <= k < Scan(s, i).value.1 :: IsTokenStart(s[k]) && s[k] != '"'
  {
  }

  /** Prepends `out` to a successful token sequence. */
  function Then(out: seq<Token>, r: Option<seq<Token>>): Option<seq<Token>> {
    match r
    case None => None
    case Some(ts) => Some(out + ts)
  }

  /** The token sequence of `s[i..]`: whitespace is skipped, one end-of-input token closes it, any failure fails all. */
  function LexFrom(s: string, i: nat): Option<seq<Token>>
    requires i <= |s|
    decreases |s| - i
  {
    var j := RunEnd(s, i, IsSpace);
    if j == |s| then Some([Token(Eof, None)])
    else
      match Scan(s, j)
      case None => None
      case Some((t, k)) => Then([t], LexFrom(s, k))
  }

  function Lex(s: string): Option<seq<Token>> {
    LexFrom(s, 0)
  }

  /** A token stream as the parser expects it: exactly one end-of-input token, last, and well-formed lexemes. */
  predicate WellFormed(ts: seq<Token>) {
    && |ts| > 0
    && ts[|ts| - 1].kind == Eof
    && (forall k | 0 <= k < |ts| - 1 :: ts[k].kind != Eof)
    && (forall k | 0 <= k < |ts| :: LexemeOk(ts[k]))
  }

  /** A successful lex ends with exactly one end-of-input token and carries well-formed lexemes. */
  lemma {:induction false} LexWellFormed(s: string, i: nat)
    requires i <= |s|
    ensures LexFrom(s, i).Some? ==> WellFormed(LexFrom(s, i).value)
    decreases |s| - i
  {
    var j := RunEnd(s, i, IsSpace);
    if j < |s| {
      match Scan(s, j)
      case None =>
      case Some((t, k)) =>
        LexWellFormed(s, k);
        if LexFrom(s, k).Some? {
          var ts := LexFrom(s, k).value;
          var all := [t] + ts;
          assert LexFrom(s, i).value == all;
          assert forall n | 1 <= n < |all| :: all[n] == ts[n - 1];
        }
    }
  }

  /**
   * Outside string literals, a character that is neither blank nor able to
   * start a token makes the whole lex fail: no tokens are returned. A literal
   * has no escapes, so `u` lies outside every literal that starts at or after
   * `i` exactly when an even number of quotes lies between them.
   */
  lemma {:induction false} UnknownCharacterFails(s: string, i: nat, u: nat)
    requires i <= u < |s|
    requires multiset(s[i..u])['"'] % 2 == 0
    requires !IsSpace(s[u]) && !IsTokenStart(s[u])
    ensures LexFrom(s, i) == None
    decreases |s| - i
  {
    var j := RunEnd(s, i, IsSpace);
    QuotesSplit(s, i, j, u);
    NoQuotes(s, i, j);
    ScanCharacters(s, j);
    if j < u {
      match Scan(s, j)
      case None =>
      case Some((t, k)) =>
        TokenBeforeUnknown(s, j, t, k, u);
        UnknownCharacterFails(s, k, u);
    }
  }

  /** A token that starts before `u`, with an even number of quotes up to `u`, ends at or before `u` and keeps that count even. */
  lemma TokenBeforeUnknown(s: string, j: nat, t: Token, k: nat, u: nat)
    requires j < u < |s| && Scan(s, j) == Some((t, k))
    requires multiset(s[j..u])['"'] % 2 == 0
    requires !IsTokenStart(s[u])
    ensures k <= u && multiset(s[k..u])['"'] % 2 == 0
  {
    ScanCharacters(s, j);
    if s[j] != '"' {
      WordBeforeUnknown(s, j, k, u);
    } else {
      ScanString(s, j);
      StringBeforeUnknown(s, j, k, u);
    }
  }

  lemma WordBeforeUnknown(s: string, j: nat, k: nat, u: nat)
    requires j < u < |s| && j < k <= |s|
    requires forall m | j <= m < k :: IsTokenStart(s[m]) && s[m] != '"'
    requires multiset(s[j..u])['"'] % 2 == 0
    requires !IsTokenStart(s[u])
    ensures k <= u && multiset(s[k..u])['"'] % 2 == 0
  {
    assert k <= u;
    QuotesSplit(s, j, k, u);
    NoQuotes(s, j, k);
  }

  lemma StringBeforeUnknown(s: string, j: nat, k: nat, u: nat)
    requires j < u < |s| && j + 2 <= k <= |s|
    requires s[j] == '"' && s[k - 1] == '"' && s[u] != '"'
    requires forall m | j < m < k - 1 :: s[m] != '"'
    requires multiset(s[j..u])['"'] % 2 == 0
    ensures k <= u && multiset(s[k..u])['"'] % 2 == 0
  {
    StringCloses(s, j, k, u);
    QuotesSplit(s, j, j + 1, k - 1);
    QuotesSplit(s, j, k - 1, u);
    QuotesSplit(s, k - 1, k, u);
    NoQuotes(s, j + 1, k - 1);
    assert s[j..j + 1] == [s[j]] && s[k - 1..k] == [s[k - 1]];
  }

  /** With no quote strictly between `j` and `u`, the quote at `j` is the only one in `s[j..u]`, an odd count. */
  lemma StringCloses(s: string, j: nat, k: nat, u: nat)
    requires j < u < |s| && j + 2 <= k <= |s|
    requires s[j] == '"' && s[k - 1] == '"' && s[u] != '"'
    requires forall m | j < m < k - 1 :: s[m] != '"'
    requires multiset(s[j..u])['"'] % 2 == 0
    ensures k <= u
  {
    if u < k - 1 {
      QuotesSplit(s, j, j + 1, u);
      NoQuotes(s, j + 1, u);
    }
  }

  lemma QuotesSplit(s: string, a: nat, b: nat, c: nat)
    requires a <= b <= c <= |s|
    ensures multiset(s[a..c])['"'] == multiset(s[a..b])['"'] + multiset(s[b..c])['"']
  {
    assert s[a..c] == s[a..b] + s[b..c];
  }

  lemma NoQuotes(s: string, a: nat, b: nat)
    requires a <= b <= |s|
    requires forall m | a <= m < b :: s[m] != '"'
    ensures multiset(s[a..b])['"'] == 0
  {
    assert '"' !in s[a..b];
  }
}

=== FILE: machine.dfy ===
/**
 * What expression code does when it runs: a register machine for the
 * instructions `gen_expr` emits, next to the value each expression has,
 * defined on the tree. `ExprCodeCorrect` ties the two together.
 */
module Machine {
  import opened Wrappers
  import opened Ast
  import opened Asm
  import Lexer
  import Codegen
  import Collection

  datatype Regs = Regs(rax: int, rbx: int, rcx: int, rdx: int, rsi: int, rdi: int, r10: int)

  function Get(rs: Regs, r: Reg): int {
    match r
    case Rax => rs.rax
    case Rbx => rs.rbx
    case Rcx => rs.rcx
    case Rdx => rs.rdx
    case Rsi => rs.rsi
    case Rdi => rs.rdi
    case R10 => rs.r10
  }

  function Put(rs: Regs, r: Reg, v: int): Regs {
    match r
    case Rax => rs.(rax := v)
    case Rbx => rs.(rbx := v)
    case Rcx => rs.(rcx := v)
    case Rdx => rs.(rdx := v)
    case Rsi => rs.(rsi := v)
    case Rdi => rs.(rdi := v)
    case R10 => rs.(r10 := v)
  }

  /**
   * Registers, the operands of the last `cmp`, the stack (top last) and the
   * variable slots (`var<k>`, zero until written, as `.bss` is).
   */
  datatype State = State(regs: Regs, left: int, right: int, stack: seq<int>, mem: map<int, int>)

  /** A step either continues, faults in `idiv` on a zero divisor, or leaves what this model covers. */
  datatype Outcome = Next(st: State) | DivideFault | Stuck

  function Load(mem: map<int, int>, k: int): int {
    if k in mem then mem[k] else 0
  }

  function Abs(a: int): nat {
    if a < 0 then -a else a
  }

  /** `idiv`'s quotient: rounded toward zero. */
  function TruncDiv(a: int, b: int): int
    requires b != 0
  {
    var q := Abs(a) / Abs(b);
    if (a < 0) == (b < 0) then q else -q
  }

  /** `idiv`'s remainder: what is left after the truncated quotient. */
  function TruncRem(a: int, b: int): int
    requires b != 0
  {
    a - b * TruncDiv(a, b)
  }

  /** The remainder is the magnitudes' remainder, carrying the dividend's sign. */
  lemma TruncRemMagnitude(a: int, b: int)
    requires b != 0
    ensures TruncRem(a, b) == if a >= 0 then Abs(a) % Abs(b) else -(Abs(a) % Abs(b))
  {
    var q := Abs(a) / Abs(b);
    var r := Abs(a) % Abs(b);
    assert Abs(a) == Abs(b) * q + r;
    if b > 0 {
      assert Abs(b) == b;
    } else {
      assert Abs(b) == -b;
    }
    if (a < 0) == (b < 0) {
      assert b * TruncDiv(a, b) == b * q;
    } else {
      assert b * TruncDiv(a, b) == -(b * q);
    }
  }

  /**
   * `/` and `%` as `idiv` computes them: the quotient is rounded toward zero
   * (negating the dividend negates it, and its magnitude is the largest that
   * fits), and the remainder is smaller than the divisor and takes the
   * dividend's sign.
   */
  lemma TruncDivision(a: int, b: int)
    requires b != 0
    ensures TruncDiv(-a, b) == -TruncDiv(a, b)
    ensures Abs(TruncDiv(a, b)) * Abs(b) <= Abs(a) < (Abs(TruncDiv(a, b)) + 1) * Abs(b)
    ensures Abs(TruncRem(a, b)) < Abs(b)
    ensures a >= 0 ==> TruncRem(a, b) >= 0
    ensures a <= 0 ==> TruncRem(a, b) <= 0
  {
    var q := Abs(a) / Abs(b);
    var r := Abs(a) % Abs(b);
    assert Abs(a) == q * Abs(b) + r;
    assert Abs(TruncDiv(a, b)) == q;
    assert (q + 1) * Abs(b) == q * Abs(b) + Abs(b);
    if a == 0 {
      assert q == 0;
    }
    assert Abs(-a) == Abs(a);
    TruncRemMagnitude(a, b);
  }

  /**
   * The condition a `set` reads from the flags of the last `cmp left, right`.
   * `cmp` clears the zero flag exactly when its operands differ, so `nz` reads
   * like `ne` here. The generated code uses `nz` only in `jnz` after `test` or
   * `dec`, which stop this machine.
   */
  function Holds(c: Cond, left: int, right: int): bool {
    match c
    case Eq => left == right
    case Ne => left != right
    case Lt => left < right
    case Le => left <= right
    case Gt => left > right
    case Ge => left >= right
    case Nz => left != right
  }

  function Bit(b: bool): int {
    if b then 1 else 0
  }

  function SetRax(st: State, v: int): State {
    st.(regs := Put(st.regs, Rax, v))
  }

  /** One instruction; `addr(k)` is the address the linker gives `str<k>`. */
  function Step(line: Line, st: State, addr: int -> int): Outcome {
    var rs := st.regs;
    match line
    case Def(_) => Next(st)
    case MovImm(d, v) => Next(st.(regs := Put(rs, d, v)))
    case MovReg(d, s) => Next(st.(regs := Put(rs, d, Get(rs, s))))
    case LoadVar(k) => Next(SetRax(st, Load(st.mem, k)))
    case StoreVar(k) => Next(st.(mem := st.mem[k := rs.rax]))
    case LeaStr(k) => Next(SetRax(st, addr(k)))
    case Push(r) => Next(st.(stack := st.stack + [Get(rs, r)]))
    case Pop(r) =>
      if |st.stack| == 0 then Stuck
      else Next(st.(regs := Put(rs, r, st.stack[|st.stack| - 1]), stack := st.stack[..|st.stack| - 1]))
    case Neg(r) => Next(st.(regs := Put(rs, r, -Get(rs, r))))
    case Add(d, s) => Next(st.(regs := Put(rs, d, Get(rs, d) + Get(rs, s))))
    case Sub(d, s) => Next(st.(regs := Put(rs, d, Get(rs, d) - Get(rs, s))))
    case Imul(d, s) => Next(st.(regs := Put(rs, d, Get(rs, d) * Get(rs, s))))
    case Cqo => Next(st.(regs := rs.(rdx := if rs.rax < 0 then -1 else 0)))
    case Idiv(r) =>
      var b := Get(rs, r);
      if b == 0 then DivideFault
      else Next(st.(regs := rs.(rax := TruncDiv(rs.rax, b), rdx := TruncRem(rs.rax, b))))
    case Cmp(a, b) => Next(st.(left := Get(rs, a), right := Get(rs, b)))
    case Set(c) => Next(SetRax(st, rs.rax - rs.rax % 256 + Bit(Holds(c, st.left, st.right))))
    case _ => Stuck
  }

  /** Straight-line execution, stopping at the first fault. */
  function Run(code: seq<Line>, st: State, addr: int -> int): Outcome
    decreases |code|
  {
    if |code| == 0 then Next(st)
    else
      match Step(code[0], st, addr)
      case Next(st') => Run(code[1..], st', addr)
      case other => other
  }

  function Then(o: Outcome, code: seq<Line>, addr: int -> int): Outcome {
    match o
    case Next(st) => Run(code, st, addr)
    case other => other
  }

  lemma {:induction false} RunConcat(a: seq<Line>, b: seq<Line>, st: State, addr: int -> int)
    ensures Run(a + b, st, addr) == Then(Run(a, st, addr), b, addr)
    decreases |a|
  {
    if |a| > 0 {
      assert (a + b)[0] == a[0];
      assert (a + b)[1..] == a[1..] + b;
      match Step(a[0], st, addr)
      case Next(st') => RunConcat(a[1..], b, st', addr);
      case _ =>
    } else {
      assert a + b == b;
    }
  }

  lemma RunOne(x: Line, st: State, addr: int -> int)
    ensures Run([x], st, addr) == Step(x, st, addr)
  {
    assert [x][1..] == [];
  }

  lemma RunTwo(x: Line, y: Line, st: State, addr: int -> int)
    ensures Run([x, y], st, addr) == Then(Step(x, st, addr), [y], addr)
  {
    assert [x, y][1..] == [y];
  }

  lemma RunThree(x: Line, y: Line, z: Line, st: State, addr: int -> int)
    ensures Run([x, y, z], st, addr) == Then(Step(x, st, addr), [y, z], addr)
  {
    assert [x, y, z][1..] == [y, z];
  }

  lemma RunFour(w: Line, x: Line, y: Line, z: Line, st: State, addr: int -> int)
    ensures Run([w, x, y, z], st, addr) == Then(Step(w, st, addr), [x, y, z], addr)
  {
    assert [w, x, y, z][1..] == [x, y, z];
  }

  // ----- the value of an expression -----

  /** A value and the variables after evaluating an expression. */
  datatype Evaluated = Evaluated(value: int, env: map<string, int>)

  /** A variable never assigned reads as zero. */
  function Lookup(env: map<string, int>, n: string): int {
    if n in env then env[n] else 0
  }

  /** A binary operator on its two operand values; `None` for division or remainder by zero. */
  function Apply(op: Lexer.TokenType, a: int, b: int): Option<int> {
    match op
    case Plus => Some(a + b)
    case Minus => Some(a - b)
    case Star => Some(a * b)
    case Slash => if b == 0 then None else Some(TruncDiv(a, b))
    case Percent => if b == 0 then None else Some(TruncRem(a, b))
    case EqualEqual => Some(Bit(a == b))
    case BangEqual => Some(Bit(a != b))
    case Less => Some(Bit(a < b))
    case LessEqual => Some(Bit(a <= b))
    case Greater => Some(Bit(a > b))
    case GreaterEqual => Some(Bit(a >= b))
    case _ => Some(b)
  }

  /**
   * The value of an expression: the left operand before the right one, an
   * assignment yields the value stored, a unary operator other than `-`
   * leaves its operand alone, and `saddr(s)` is where literal `s` lives.
   */
  function Eval(e: Expr, env: map<string, int>, saddr: string -> int): Option<Evaluated> {
    match e
    case IntLit(v) => Some(Evaluated(v, env))
    case StrLit(s) => Some(Evaluated(saddr(s), env))
    case Var(n) => Some(Evaluated(Lookup(env, n), env))
    case Assignment(n, v) =>
      (match Eval(v, env, saddr)
       case None => None
       case Some(r) => Some(Evaluated(r.value, r.env[n := r.value])))
    case Unary(op, x) =>
      (match Eval(x, env, saddr)
       case None => None
       case Some(r) => Some(Evaluated(if op == Lexer.Minus then -r.value else r.value, r.env)))
    case Binary(op, l, r) =>
      (match Eval(l, env, saddr)
       case None => None
       case Some(a) =>
         match Eval(r, a.env, saddr)
         case None => None
         case Some(b) =>
           match Apply(op, a.value, b.value)
           case None => None
           case Some(v) => Some(Evaluated(v, b.env)))
    case Grouping(g) => Eval(g, env, saddr)
  }

  // ----- the correspondence -----

  /** Distinct variables have distinct slots. */
  predicate Injective(vi: map<string, int>) {
    forall a, b | a in vi && b in vi && a != b :: vi[a] != vi[b]
  }

  predicate MemAgrees(mem: map<int, int>, env: map<string, int>, vi: map<string, int>) {
    forall n | n in vi :: Load(mem, vi[n]) == Lookup(env, n)
  }

  predicate StrAgrees(si: map<string, int>, saddr: string -> int, addr: int -> int) {
    forall s | s in si :: saddr(s) == addr(si[s])
  }

  /**
   * The code ran to the expression's value in rax with the stack as it was,
   * r10 untouched and the slots holding the variables, or it faulted exactly
   * where the evaluation divides by zero.
   */
  predicate Sound(o: Outcome, ev: Option<Evaluated>, st: State, vi: map<string, int>) {
    match ev
    case None => o.DivideFault?
    case Some(r) =>
      && o.Next?
      && o.st.regs.rax == r.value
      && o.st.stack == st.stack
      && o.st.regs.r10 == st.regs.r10
      && MemAgrees(o.st.mem, r.env, vi)
  }

  /** The code after both operands: rbx holds the right value, rcx the left, and `OpCode(op)` combines them. */
  lemma OpCorrect(op: Lexer.TokenType, st: State, addr: int -> int, vi: map<string, int>, env: map<string, int>)
    requires st.regs.rax == st.regs.rbx
    requires MemAgrees(st.mem, env, vi)
    ensures Sound(Run(Codegen.OpCode(op), st, addr),
                  match Apply(op, st.regs.rcx, st.regs.rbx)
                  case None => None
                  case Some(v) => Some(Evaluated(v, env)),
                  st, vi)
  {
    if op in {Lexer.EqualEqual, Lexer.BangEqual, Lexer.Less, Lexer.LessEqual, Lexer.Greater, Lexer.GreaterEqual} {
      ComparisonOpCorrect(op, st, addr, vi, env);
    } else {
      ArithOpCorrect(op, st, addr, vi, env);
    }
  }

  lemma ArithOpCorrect(op: Lexer.TokenType, st: State, addr: int -> int, vi: map<string, int>, env: map<string, int>)
    requires op !in {Lexer.EqualEqual, Lexer.BangEqual, Lexer.Less, Lexer.LessEqual, Lexer.Greater, Lexer.GreaterEqual}
    requires st.regs.rax == st.regs.rbx
    requires MemAgrees(st.mem, env, vi)
    ensures Sound(Run(Codegen.OpCode(op), st, addr),
                  match Apply(op, st.regs.rcx, st.regs.rbx)
                  case None => None
                  case Some(v) => Some(Evaluated(v, env)),
                  st, vi)
  {
    match op
    case Plus => ArithCorrect(Add(Rcx, Rbx), st, addr);
    case Minus => ArithCorrect(Sub(Rcx, Rbx), st, addr);
    case Star => MulCorrect(st, addr);
    case Slash => DivCorrect(st, addr);
    case Percent => RemCorrect(st, addr);
    case _ =>
  }

  lemma ComparisonOpCorrect(op: Lexer.TokenType, st: State, addr: int -> int, vi: map<string, int>, env: map<string, int>)
    requires op in {Lexer.EqualEqual, Lexer.BangEqual, Lexer.Less, Lexer.LessEqual, Lexer.Greater, Lexer.GreaterEqual}
    requires st.regs.rax == st.regs.rbx
    requires MemAgrees(st.mem, env, vi)
    ensures Sound(Run(Codegen.OpCode(op), st, addr),
                  match Apply(op, st.regs.rcx, st.regs.rbx)
                  case None => None
                  case Some(v) => Some(Evaluated(v, env)),
                  st, vi)
  {
    match op
    case EqualEqual => CompareSound(op, Eq, st, addr, vi, env);
    case BangEqual => CompareSound(op, Ne, st, addr, vi, env);
    case Less => CompareSound(op, Lt, st, addr, vi, env);
    case LessEqual => CompareSound(op, Le, st, addr, vi, env);
    case Greater => CompareSound(op, Gt, st, addr, vi, env);
    case GreaterEqual => CompareSound(op, Ge, st, addr, vi, env);
  }

  lemma CompareSound(op: Lexer.TokenType, c: Cond, st: State, addr: int -> int, vi: map<string, int>, env: map<string, int>)
    requires Codegen.OpCode(op) == [Cmp(Rcx, Rbx), MovImm(Rax, 0), Set(c)]
    requires Apply(op, st.regs.rcx, st.regs.rbx) == Some(Bit(Holds(c, st.regs.rcx, st.regs.rbx)))
    requires MemAgrees(st.mem, env, vi)
    ensures Sound(Run(Codegen.OpCode(op), st, addr), Some(Evaluated(Bit(Holds(c, st.regs.rcx, st.regs.rbx)), env)), st, vi)
  {
    CompareCorrect(c, st, addr);
  }

  lemma ArithCorrect(x: Line, st: State, addr: int -> int)
    requires x == Add(Rcx, Rbx) || x == Sub(Rcx, Rbx)
    ensures var o := Run([x, MovReg(Rax, Rcx)], st, addr);
      && o.Next? && o.st.stack == st.stack && o.st.mem == st.mem && o.st.regs.r10 == st.regs.r10
      && o.st.regs.rax == if x.Add? then st.regs.rcx + st.regs.rbx else st.regs.rcx - st.regs.rbx
  {
    RunTwo(x, MovReg(Rax, Rcx), st, addr);
    RunOne(MovReg(Rax, Rcx), Step(x, st, addr).st, addr);
  }

  lemma MulCorrect(st: State, addr: int -> int)
    ensures var o := Run([MovReg(Rax, Rcx), Imul(Rax, Rbx)], st, addr);
      && o.Next? && o.st.stack == st.stack && o.st.mem == st.mem && o.st.regs.r10 == st.regs.r10
      && o.st.regs.rax == st.regs.rcx * st.regs.rbx
  {
    RunTwo(MovReg(Rax, Rcx), Imul(Rax, Rbx), st, addr);
    RunOne(Imul(Rax, Rbx), Step(MovReg(Rax, Rcx), st, addr).st, addr);
  }

  lemma DivCorrect(st: State, addr: int -> int)
    ensures var o := Run([MovReg(Rax, Rcx), Cqo, Idiv(Rbx)], st, addr);
      && (st.regs.rbx == 0 ==> o == DivideFault)
      && (st.regs.rbx != 0 ==>
            && o.Next? && o.st.stack == st.stack && o.st.mem == st.mem && o.st.regs.r10 == st.regs.r10
            && o.st.regs.rbx == st.regs.rbx
            && o.st.regs.rax == TruncDiv(st.regs.rcx, st.regs.rbx)
            && o.st.regs.rdx == TruncRem(st.regs.rcx, st.regs.rbx))
  {
    var s1 := Step(MovReg(Rax, Rcx), st, addr).st;
    var s2 := Step(Cqo, s1, addr).st;
    RunThree(MovReg(Rax, Rcx), Cqo, Idiv(Rbx), st, addr);
    RunTwo(Cqo, Idiv(Rbx), s1, addr);
    RunOne(Idiv(Rbx), s2, addr);
  }

  lemma RemCorrect(st: State, addr: int -> int)
    ensures var o := Run([MovReg(Rax, Rcx), Cqo, Idiv(Rbx), MovReg(Rax, Rdx)], st, addr);
      && (st.regs.rbx == 0 ==> o == DivideFault)
      && (st.regs.rbx != 0 ==>
            && o.Next? && o.st.stack == st.stack && o.st.mem == st.mem && o.st.regs.r10 == st.regs.r10
            && o.st.regs.rax == TruncRem(st.regs.rcx, st.regs.rbx))
  {
    var divide := [MovReg(Rax, Rcx), Cqo, Idiv(Rbx)];
    DivCorrect(st, addr);
    RunConcat(divide, [MovReg(Rax, Rdx)], st, addr);
    assert divide + [MovReg(Rax, Rdx)] == [MovReg(Rax, Rcx), Cqo, Idiv(Rbx), MovReg(Rax, Rdx)];
    if st.regs.rbx != 0 {
      RunOne(MovReg(Rax, Rdx), Run(divide, st, addr).st, addr);
    }
  }

  /** `cmp rcx, rbx` then `mov rax, 0`: the operands recorded, rax cleared. */
  lemma CompareSetup(st: State, addr: int -> int)
    ensures var o := Run([Cmp(Rcx, Rbx), MovImm(Rax, 0)], st, addr);
      && o.Next? && o.st.stack == st.stack && o.st.mem == st.mem && o.st.regs.r10 == st.regs.r10
      && o.st.regs.rax == 0 && o.st.left == st.regs.rcx && o.st.right == st.regs.rbx
  {
    RunTwo(Cmp(Rcx, Rbx), MovImm(Rax, 0), st, addr);
    RunOne(MovImm(Rax, 0), Step(Cmp(Rcx, Rbx), st, addr).st, addr);
  }

  lemma CompareCorrect(c: Cond, st: State, addr: int -> int)
    ensures var o := Run([Cmp(Rcx, Rbx), MovImm(Rax, 0), Set(c)], st, addr);
      && o.Next? && o.st.stack == st.stack && o.st.mem == st.mem && o.st.regs.r10 == st.regs.r10
      && o.st.regs.rax == Bit(Holds(c, st.regs.rcx, st.regs.rbx))
  {
    var setup := [Cmp(Rcx, Rbx), MovImm(Rax, 0)];
    CompareSetup(st, addr);
    RunConcat(setup, [Set(c)], st, addr);
    assert setup + [Set(c)] == [Cmp(Rcx, Rbx), MovImm(Rax, 0), Set(c)];
    RunOne(Set(c), Run(setup, st, addr).st, addr);
  }

  /** `mov rbx, rax` then `pop rcx`: the right value in rbx (and rax), the pushed left value in rcx. */
  lemma UnstackCorrect(st: State, base: seq<int>, a: int, addr: int -> int)
    requires st.stack == base + [a]
    ensures var o := Run([MovReg(Rbx, Rax), Pop(Rcx)], st, addr);
      && o.Next? && o.st.stack == base && o.st.mem == st.mem
      && o.st.regs.rax == st.regs.rax && o.st.regs.rbx == st.regs.rax && o.st.regs.rcx == a
      && o.st.regs.r10 == st.regs.r10
  {
    var s1 := Step(MovReg(Rbx, Rax), st, addr).st;
    RunTwo(MovReg(Rbx, Rax), Pop(Rcx), st, addr);
    RunOne(Pop(Rcx), s1, addr);
    assert s1.stack[..|s1.stack| - 1] == base;
  }

  /** Storing rax into `n`'s slot keeps the slots in step with the variables once `n` is updated. */
  lemma StoreAgrees(mem: map<int, int>, env: map<string, int>, vi: map<string, int>, n: string, v: int)
    requires Injective(vi) && n in vi
    requires MemAgrees(mem, env, vi)
    ensures MemAgrees(mem[vi[n] := v], env[n := v], vi)
  {
  }

  /**
   * Running `gen_expr`'s code for `e` computes `Eval(e)`: the value ends in
   * rax, the stack is balanced, r10 is left alone, every variable's slot
   * follows the assignments made, and it faults exactly on division or
   * remainder by zero.
   */
  lemma {:induction false} ExprCodeCorrect(e: Expr, vi: map<string, int>, si: map<string, int>,
                                          env: map<string, int>, saddr: string -> int, addr: int -> int, st: State)
    requires Collection.Covered(e, vi.Keys, si.Keys)
    requires Injective(vi) && StrAgrees(si, saddr, addr)
    requires MemAgrees(st.mem, env, vi)
    ensures Sound(Run(Codegen.ExprCode(e, vi, si), st, addr), Eval(e, env, saddr), st, vi)
    decreases e, 1
  {
    match e
    case IntLit(v) => RunOne(MovImm(Rax, v), st, addr);
    case StrLit(s) => RunOne(LeaStr(si[s]), st, addr);
    case Var(n) => RunOne(LoadVar(vi[n]), st, addr);
    case Assignment(n, v) => AssignCorrect(n, v, vi, si, env, saddr, addr, st);
    case Unary(op, x) => UnaryCorrect(op, x, vi, si, env, saddr, addr, st);
    case Binary(op, l, r) => BinaryCorrect(op, l, r, vi, si, env, saddr, addr, st);
    case Grouping(g) => ExprCodeCorrect(g, vi, si, env, saddr, addr, st);
  }

  lemma {:induction false} AssignCorrect(n: string, v: Expr, vi: map<string, int>, si: map<string, int>,
                                        env: map<string, int>, saddr: string -> int, addr: int -> int, st: State)
    requires Collection.Covered(Assignment(n, v), vi.Keys, si.Keys)
    requires Injective(vi) && StrAgrees(si, saddr, addr)
    requires MemAgrees(st.mem, env, vi)
    ensures Sound(Run(Codegen.ExprCode(Assignment(n, v), vi, si), st, addr), Eval(Assignment(n, v), env, saddr), st, vi)
    decreases Assignment(n, v), 0
  {
    var code := Codegen.ExprCode(v, vi, si);
    ExprCodeCorrect(v, vi, si, env, saddr, addr, st);
    RunConcat(code, [StoreVar(vi[n])], st, addr);
    if Eval(v, env, saddr).Some? {
      var s1 := Run(code, st, addr).st;
      RunOne(StoreVar(vi[n]), s1, addr);
      StoreAgrees(s1.mem, Eval(v, env, saddr).value.env, vi, n, s1.regs.rax);
    }
  }

  lemma {:induction false} UnaryCorrect(op: Lexer.TokenType, x: Expr, vi: map<string, int>, si: map<string, int>,
                                       env: map<string, int>, saddr: string -> int, addr: int -> int, st: State)
    requires Collection.Covered(Unary(op, x), vi.Keys, si.Keys)
    requires Injective(vi) && StrAgrees(si, saddr, addr)
    requires MemAgrees(st.mem, env, vi)
    ensures Sound(Run(Codegen.ExprCode(Unary(op, x), vi, si), st, addr), Eval(Unary(op, x), env, saddr), st, vi)
    decreases Unary(op, x), 0
  {
    var code := Codegen.ExprCode(x, vi, si);
    var tail := if op == Lexer.Minus then [Neg(Rax)] else [];
    ExprCodeCorrect(x, vi, si, env, saddr, addr, st);
    RunConcat(code, tail, st, addr);
    if Eval(x, env, saddr).Some? && op == Lexer.Minus {
      RunOne(Neg(Rax), Run(code, st, addr).st, addr);
    }
  }

  lemma {:induction false} BinaryCorrect(op: Lexer.TokenType, l: Expr, r: Expr, vi: map<string, int>, si: map<string, int>,
                                        env: map<string, int>, saddr: string -> int, addr: int -> int, st: State)
    requires Collection.Covered(Binary(op, l, r), vi.Keys, si.Keys)
    requires Injective(vi) && StrAgrees(si, saddr, addr)
    requires MemAgrees(st.mem, env, vi)
    ensures Sound(Run(Codegen.ExprCode(Binary(op, l, r), vi, si), st, addr), Eval(Binary(op, l, r), env, saddr), st, vi)
    decreases Binary(op, l, r), 0
  {
    var left := Codegen.ExprCode(l, vi, si);
    var rest := Codegen.ExprCode(r, vi, si) + [MovReg(Rbx, Rax), Pop(Rcx)] + Codegen.OpCode(op);
    assert Codegen.ExprCode(Binary(op, l, r), vi, si) == left + [Push(Rax)] + rest;
    RunConcat(left + [Push(Rax)], rest, st, addr);
    RunConcat(left, [Push(Rax)], st, addr);
    ExprCodeCorrect(l, vi, si, env, saddr, addr, st);
    if Eval(l, env, saddr).Some? {
      var s1 := Run(left, st, addr).st;
      RunOne(Push(Rax), s1, addr);
      var s2 := Run(left + [Push(Rax)], st, addr).st;
      BinaryRight(op, r, vi, si, Eval(l, env, saddr).value, saddr, addr, s2, st.stack);
    }
  }

  /** After the left operand is pushed: the right operand, the unstacking and the operator. */
  lemma {:induction false} BinaryRight(op: Lexer.TokenType, r: Expr, vi: map<string, int>, si: map<string, int>,
                                      a: Evaluated, saddr: string -> int, addr: int -> int, st: State, base: seq<int>)
    requires Collection.Covered(r, vi.Keys, si.Keys)
    requires Injective(vi) && StrAgrees(si, saddr, addr)
    requires MemAgrees(st.mem, a.env, vi)
    requires st.stack == base + [a.value]
    ensures Sound(Run(Codegen.ExprCode(r, vi, si) + [MovReg(Rbx, Rax), Pop(Rcx)] + Codegen.OpCode(op), st, addr),
                  match Eval(r, a.env, saddr)
                  case None => None
                  case Some(b) =>
                    (match Apply(op, a.value, b.value)
                     case None => None
                     case Some(v) => Some(Evaluated(v, b.env))),
                  st.(stack := base), vi)
    decreases r, 2
  {
    var right := Codegen.ExprCode(r, vi, si);
    var b1 := right + [MovReg(Rbx, Rax), Pop(Rcx)];
    RunConcat(b1, Codegen.OpCode(op), st, addr);
    RunConcat(right, [MovReg(Rbx, Rax), Pop(Rcx)], st, addr);
    ExprCodeCorrect(r, vi, si, a.env, saddr, addr, st);
    if Eval(r, a.env, saddr).Some? {
      var eb := Eval(r, a.env, saddr).value;
      UnstackCorrect(Run(right, st, addr).st, base, a.value, addr);
      OpCorrect(op, Run(b1, st, addr).st, addr, vi, eb.env);
    }
  }
}

=== FILE: parser.dfy ===
/**
 * The recursive-descent parser as a class over a token vector and a cursor.
 * Every parsing method is proved to compute the matching `Grammar` function:
 * on success it returns that function's tree and leaves the cursor where the
 * function says the parse ends; it fails exactly when the function fails.
 */
module Parsing {
  import opened Wrappers
  import opened Lexer
  import opened Ast
  import opened Grammar
  import Decimal

  /** A method result `r` with the cursor at `i` agrees with the reference parse `g`. */
  predicate Agrees<T(==)>(r: Option<T>, g: Parsed<T>, i: nat) {
    match g
    case Fail => r.None?
    case Ok(v, n) => r == Some(v) && i == n
  }

  /** Puts the already-parsed items `acc` in front of a list parse. */
  function Prepend<T>(acc: seq<T>, p: Parsed<seq<T>>): Parsed<seq<T>> {
    match p
    case Fail => Fail
    case Ok(v, n) => Ok(acc + v, n)
  }

  lemma PrependCons<T>(acc: seq<T>, s: T, p: Parsed<seq<T>>)
    ensures Prepend(acc, Prepend([s], p)) == Prepend(acc + [s], p)
  {
    if p.Ok? {
      assert acc + ([s] + p.value) == (acc + [s]) + p.value;
    }
  }

  lemma PrependNil<T>(p: Parsed<seq<T>>)
    ensures Prepend([], p) == p
  {
    if p.Ok? {
      assert [] + p.value == p.value;
    }
  }

  class Parser {
    const toks: seq<Token>
    var i: nat

    predicate Valid()
      reads this
    {
      WellFormed(toks) && i < |toks|
    }

    constructor(t: seq<Token>)
      requires WellFormed(t)
      ensures Valid() && toks == t && i == 0
    {
      toks := t;
      i := 0;
    }

    predicate IsAtEnd()
      requires Valid()
      reads this
    {
      AtEnd(toks, i)
    }

    function Peek(): Token
      requires Valid()
      reads this
    {
      toks[i]
    }

    function Prev(): Token
      requires Valid() && 0 < i
      reads this
    {
      toks[i - 1]
    }

    /** Moves past the current token unless it is the end-of-input token. */
    method Advance() returns (t: Token)
      requires Valid()
      modifies this
      ensures Valid() && i == Grammar.Advance(toks, old(i))
      ensures i > 0 ==> t == toks[i - 1]
    {
      if !IsAtEnd() {
        i := i + 1;
      }
      if i > 0 {
        t := Prev();
      } else {
        // the source would read toks[-1] here; no call of the parser's own reaches this
        // branch, since it advances only after a successful check, which fails at end of input
        t := toks[0];
      }
    }

    predicate CheckKind(t: TokenType)
      requires Valid()
      reads this
    {
      Check(toks, i, t)
    }

    /** Consumes the current token when its kind is one of `ts`. */
    method MatchAny(ts: seq<TokenType>) returns (matched: bool)
      requires Valid()
      modifies this
      ensures Valid()
      ensures matched <==> !AtEnd(toks, old(i)) && toks[old(i)].kind in ts
      ensures i == if matched then old(i) + 1 else old(i)
    {
      for k := 0 to |ts|
        invariant i == old(i)
        invariant forall j | 0 <= j < k :: !Check(toks, i, ts[j])
      {
        if CheckKind(ts[k]) {
          var _ := Advance();
          return true;
        }
      }
      return false;
    }

    /** `match` with a single kind: consumes the current token when it has kind `t`. */
    method Match(t: TokenType) returns (matched: bool)
      requires Valid()
      modifies this
      ensures Valid()
      ensures matched == Check(toks, old(i), t)
      ensures i == if matched then old(i) + 1 else old(i)
    {
      if CheckKind(t) {
        var _ := Advance();
        return true;
      }
      return false;
    }

    /** Consumes a token of kind `t`, or fails without moving. */
    method Consume(t: TokenType) returns (ok: bool)
      requires Valid()
      modifies this
      ensures Valid()
      ensures Expect(toks, old(i), t) == if ok then Some(i) else None
      ensures !ok ==> i == old(i)
    {
      if CheckKind(t) {
        var _ := Advance();
        return true;
      }
      return false;
    }

    /** The whole program: statements until the end-of-input token. */
    method Parse() returns (r: Option<Program>)
      requires Valid() && i == 0
      modifies this
      ensures r == ParseProgram(toks)
    {
      var body: seq<Stmt> := [];
      PrependNil(ProgramItems(toks, i));
      while !IsAtEnd()
        invariant Valid()
        invariant Prepend(body, ProgramItems(toks, i)) == ProgramItems(toks, 0)
        decreases |toks| - i
      {
        var s := ParseStmt();
        if s.None? {
          return None;
        }
        PrependCons(body, s.value, ProgramItems(toks, i));
        body := body + [s.value];
      }
      assert body + [] == body;
      return Some(Program(body));
    }

    /** One statement, dispatched on its leading keyword. */
    method ParseStmt() returns (r: Option<Stmt>)
      requires Valid()
      modifies this
      ensures Valid() && Agrees(r, Grammar.ParseStmt(toks, old(i)), i)
      decreases |toks| - i, 7, 2
    {
      var m := Match(Yeet);
      if m {
        r := ParseYeet();
        return;
      }
      m := Match(Is);
      if m {
        r := ParseIf();
        return;
      }
      m := Match(DoIt);
      if m {
        r := ParseDoIt();
        return;
      }
      r := ParseOtherStmt();
    }

    /** The statement forms of `parse_stmt` after the `yeet`, `is` and `doit` keywords have been ruled out. */
    method ParseOtherStmt() returns (r: Option<Stmt>)
      requires Valid() && !Check(toks, i, Yeet) && !Check(toks, i, Is) && !Check(toks, i, DoIt)
      modifies this
      ensures Valid() && Agrees(r, Grammar.ParseStmt(toks, old(i)), i)
      decreases |toks| - i, 7, 1
    {
      var m := Match(Imagine);
      if m {
        r := ParseImagine();
        return;
      }
      m := Match(Print);
      if m {
        r := ParsePrint();
        return;
      }
      r := ParseBlockOrExprStmt();
    }

    /** The last two statement forms of `parse_stmt`: a block, or else an expression statement `e;`. */
    method ParseBlockOrExprStmt() returns (r: Option<Stmt>)
      requires Valid() && !Check(toks, i, Yeet) && !Check(toks, i, Is) && !Check(toks, i, DoIt)
      requires !Check(toks, i, Imagine) && !Check(toks, i, Print)
      modifies this
      ensures Valid() && Agrees(r, Grammar.ParseStmt(toks, old(i)), i)
      decreases |toks| - i, 7, 0
    {
      if CheckKind(LBrace) {
        r := ParseBlock();
        return;
      }
      var e := ParseExpr();
      if e.None? {
        return None;
      }
      var ok := Consume(Semicolon);
      if !ok {
        return None;
      }
      return Some(ExprStmt(e.value));
    }

    method ParseYeet() returns (r: Option<Stmt>)
      requires Valid()
      modifies this
      ensures Valid() && Agrees(r, Grammar.ParseYeet(toks, old(i)), i)
      decreases |toks| - i, 7, 0
    {
      var e := ParseExpr();
      if e.None? {
        return None;
      }
      var ok := Consume(Semicolon);
      if !ok {
        return None;
      }
      return Some(YeetStmt(e.value));
    }

    /** `"(" expr ")"` */
    method ParseParenExpr() returns (r: Option<Expr>)
      requires Valid()
      modifies this
      ensures Valid() && Agrees(r, Grammar.ParseParenExpr(toks, old(i)), i)
      decreases |toks| - i, 5, 2
    {
      var ok := Consume(LParen);
      if !ok {
        return None;
      }
      var e := ParseExpr();
      if e.None? {
        return None;
      }
      ok := Consume(RParen);
      if !ok {
        return None;
      }
      return e;
    }

    method ParseIf() returns (r: Option<Stmt>)
      requires Valid()
      modifies this
      ensures Valid() && Agrees(r, Grammar.ParseIf(toks, old(i)), i)
      decreases |toks| - i, 7, 2
    {
      var cond := ParseParenExpr();
      if cond.None? {
        return None;
      }
      r := IfBranches(cond.value);
    }

    /** The `block else block` part of `is`. */
    method IfBranches(cond: Expr) returns (r: Option<Stmt>)
      requires Valid() && Canon(cond)
      modifies this
      ensures Valid() && Agrees(r, Grammar.IfBranches(toks, old(i), cond), i)
      decreases |toks| - i, 7, 1
    {
      var thenb := ParseBlock();
      if thenb.None? {
        return None;
      }
      r := ElseBranch(cond, thenb.value.stmts);
    }

    method ElseBranch(cond: Expr, thenStmts: seq<Stmt>) returns (r: Option<Stmt>)
      requires Valid() && Canon(cond) && AllCanon(thenStmts)
      modifies this
      ensures Valid() && Agrees(r, Grammar.ElseBranch(toks, old(i), cond, thenStmts), i)
      decreases |toks| - i, 7, 0
    {
      var m := Match(Else);
      if !m {
        return None;
      }
      var elseb := ParseBlock();
      if elseb.None? {
        return None;
      }
      return Some(If(cond, thenStmts, elseb.value.stmts));
    }

    method ParseDoIt() returns (r: Option<Stmt>)
      requires Valid()
      modifies this
      ensures Valid() && Agrees(r, Grammar.ParseDoIt(toks, old(i)), i)
      decreases |toks| - i, 7, 0
    {
      var count := ParseParenExpr();
      if count.None? {
        return None;
      }
      var body := ParseBlock();
      if body.None? {
        return None;
      }
      return Some(LoopDoIt(count.value, body.value.stmts));
    }

    method ParseImagine() returns (r: Option<Stmt>)
      requires Valid()
      modifies this
      ensures Valid() && Agrees(r, Grammar.ParseImagine(toks, old(i)), i)
      decreases |toks| - i, 7, 0
    {
      if !CheckKind(Identifier) {
        return None;
      }
      var name := Peek().lexeme.value;
      var _ := Advance();
      var ok := Consume(Assign);
      if !ok {
        return None;
      }
      var value := ParseExpr();
      if value.None? {
        return None;
      }
      ok := Consume(Semicolon);
      if !ok {
        return None;
      }
      return Some(VarDecl(name, value.value));
    }

    method ParsePrint() returns (r: Option<Stmt>)
      requires Valid()
      modifies this
      ensures Valid() && Agrees(r, Grammar.ParsePrint(toks, old(i)), i)
      decreases |toks| - i, 7, 0
    {
      var e := ParseParenExpr();
      if e.None? {
        return None;
      }
      var ok := Consume(Semicolon);
      if !ok {
        return None;
      }
      return Some(PrintStmt(e.value));
    }

    /** `"{" stmt* "}"` */
    method ParseBlock() returns (r: Option<Stmt>)
      requires Valid()
      modifies this
      ensures Valid() && Agrees(r, Grammar.ParseBlock(toks, old(i)), i)
      decreases |toks| - i, 6, 0
    {
      var ok := Consume(LBrace);
      if !ok {
        return None;
      }
      var stmts := BlockStmts();
      if stmts.None? {
        return None;
      }
      ok := Consume(RBrace);
      if !ok {
        return None;
      }
      return Some(Block(stmts.value));
    }

    /** The loop of `parse_block`: statements until a `}` or the end of input. */
    method BlockStmts() returns (r: Option<seq<Stmt>>)
      requires Valid()
      modifies this
      ensures Valid() && Agrees(r, BlockItems(toks, old(i)), i)
      decreases |toks| - i, 8, 0
    {
      ghost var first := i;
      var stmts: seq<Stmt> := [];
      PrependNil(BlockItems(toks, i));
      while !CheckKind(RBrace) && !IsAtEnd()
        invariant Valid() && first <= i
        invariant Prepend(stmts, BlockItems(toks, i)) == BlockItems(toks, first)
        decreases |toks| - i
      {
        var s := ParseStmt();
        if s.None? {
          return None;
        }
        PrependCons(stmts, s.value, BlockItems(toks, i));
        stmts := stmts + [s.value];
      }
      assert stmts + [] == stmts;
      return Some(stmts);
    }

    method ParseExpr() returns (r: Option<Expr>)
      requires Valid()
      modifies this
      ensures Valid() && Agrees(r, Grammar.ParseExpr(toks, old(i)), i)
      decreases |toks| - i, 5, 1
    {
      r := ParseAssignment();
    }

    /** `equality ("=" assignment)?`; the target of `=` must be a variable. */
    method ParseAssignment() returns (r: Option<Expr>)
      requires Valid()
      modifies this
      ensures Valid() && Agrees(r, Grammar.ParseAssignment(toks, old(i)), i)
      decreases |toks| - i, 5, 0
    {
      var left := ParseEquality();
      if left.None? {
        return None;
      }
      var m := Match(Assign);
      if m {
        if !left.value.Var? {
          return None;
        }
        var name := left.value.name;
        var value := ParseAssignment();
        if value.None? {
          return None;
        }
        return Some(Assignment(name, value.value));
      }
      return left;
    }

    method ParseEquality() returns (r: Option<Expr>)
      requires Valid()
      modifies this
      ensures Valid() && Agrees(r, Grammar.ParseLevel(4, toks, old(i)), i)
      decreases |toks| - i, 4, 1
    {
      var left := ParseRelational();
      if left.None? {
        return None;
      }
      var e := left.value;
      while true
        invariant Valid() && Canon(e) && Level(e) <= 4
        invariant LevelTail(4, toks, e, i) == Grammar.ParseLevel(4, toks, old(i))
        decreases |toks| - i
      {
        LevelOpsLevel(4, toks[i].kind);
        var m := MatchAny(LevelOps(4));
        if !m {
          return Some(e);
        }
        var op := Prev().kind;
        var right := ParseRelational();
        if right.None? {
          return None;
        }
        e := Binary(op, e, right.value);
      }
    }

    method ParseRelational() returns (r: Option<Expr>)
      requires Valid()
      modifies this
      ensures Valid() && Agrees(r, Grammar.ParseLevel(3, toks, old(i)), i)
      decreases |toks| - i, 3, 1
    {
      var left := ParseAdditive();
      if left.None? {
        return None;
      }
      var e := left.value;
      while true
        invariant Valid() && Canon(e) && Level(e) <= 3
        invariant LevelTail(3, toks, e, i) == Grammar.ParseLevel(3, toks, old(i))
        decreases |toks| - i
      {
        LevelOpsLevel(3, toks[i].kind);
        var m := MatchAny(LevelOps(3));
        if !m {
          return Some(e);
        }
        var op := Prev().kind;
        var right := ParseAdditive();
        if right.None? {
          return None;
        }
        e := Binary(op, e, right.value);
      }
    }

    method ParseAdditive() returns (r: Option<Expr>)
      requires Valid()
      modifies this
      ensures Valid() && Agrees(r, Grammar.ParseLevel(2, toks, old(i)), i)
      decreases |toks| - i, 2, 1
    {
      var left := ParseMultiplicative();
      if left.None? {
        return None;
      }
      var e := left.value;
      while true
        invariant Valid() && Canon(e) && Level(e) <= 2
        invariant LevelTail(2, toks, e, i) == Grammar.ParseLevel(2, toks, old(i))
        decreases |toks| - i
      {
        LevelOpsLevel(2, toks[i].kind);
        var m := MatchAny(LevelOps(2));
        if !m {
          return Some(e);
        }
        var op := Prev().kind;
        var right := ParseMultiplicative();
        if right.None? {
          return None;
        }
        e := Binary(op, e, right.value);
      }
    }

    method ParseMultiplicative() returns (r: Option<Expr>)
      requires Valid()
      modifies this
      ensures Valid() && Agrees(r, Grammar.ParseLevel(1, toks, old(i)), i)
      decreases |toks| - i, 1, 1
    {
      var left := ParseUnary();
      if left.None? {
        return None;
      }
      var e := left.value;
      while true
        invariant Valid() && Canon(e) && Level(e) <= 1
        invariant LevelTail(1, toks, e, i) == Grammar.ParseLevel(1, toks, old(i))
        decreases |toks| - i
      {
        LevelOpsLevel(1, toks[i].kind);
        var m := MatchAny(LevelOps(1));
        if !m {
          return Some(e);
        }
        var op := Prev().kind;
        var right := ParseUnary();
        if right.None? {
          return None;
        }
        e := Binary(op, e, right.value);
      }
    }

    /** `"-" unary | primary` */
    method ParseUnary() returns (r: Option<Expr>)
      requires Valid()
      modifies this
      ensures Valid() && Agrees(r, Grammar.ParseUnary(toks, old(i)), i)
      decreases |toks| - i, 0, 2
    {
      var m := Match(Minus);
      if m {
        var op := Prev().kind;
        var operand := ParseUnary();
        if operand.None? {
          return None;
        }
        return Some(Unary(op, operand.value));
      }
      r := ParsePrimary();
    }

    /** A literal, a variable or a parenthesised expression; a literal beyond 64 bits fails. */
    method ParsePrimary() returns (r: Option<Expr>)
      requires Valid()
      modifies this
      ensures Valid() && Agrees(r, Grammar.ParsePrimary(toks, old(i)), i)
      decreases |toks| - i, 0, 1
    {
      var m := Match(Int);
      if m {
        var v := Decimal.DigitsValue(Prev().lexeme.value);
        if v > Decimal.MaxInt64 {
          return None;
        }
        return Some(IntLit(v));
      }
      m := Match(String);
      if m {
        return Some(StrLit(Prev().lexeme.value));
      }
      m := Match(Identifier);
      if m {
        return Some(Var(Prev().lexeme.value));
      }
      r := ParseGroup();
    }

    /** The parenthesised branch of `parse_primary`, once the literal and variable forms are ruled out. */
    method ParseGroup() returns (r: Option<Expr>)
      requires Valid() && !Check(toks, i, Int) && !Check(toks, i, String) && !Check(toks, i, Identifier)
      modifies this
      ensures Valid() && Agrees(r, Grammar.ParsePrimary(toks, old(i)), i)
      decreases |toks| - i, 0, 0
    {
      var m := Match(LParen);
      if m {
        var inner := ParseExpr();
        if inner.None? {
          return None;
        }
        var ok := Consume(RParen);
        if !ok {
          return None;
        }
        return Some(Grouping(inner.value));
      }
      return None;
    }
  }
}

=== FILE: printer.dfy ===
/**
 * A printer from syntax trees back to tokens, and the round trip that makes
 * it the partner of the parser: every tree the parser can build (`Canon`)
 * is printed to tokens that parse back to that same tree. Together with the
 * parsing functions' own guarantee that whatever they build is `Canon`, this
 * pins down precedence, associativity and the assignment form exactly.
 */
module Printer {
  import opened Wrappers
  import opened Lexer
  import opened Ast
  import opened Grammar
  import Decimal

  function Tok(k: TokenType): Token {
    Token(k, None)
  }

  /**
   * The tokens of an expression, with no parentheses added: a `Grouping`
   * prints its own. The parser builds only non-negative literals; a
   * negative one is printed by its magnitude.
   */
  function PrintExpr(e: Expr): (ts: seq<Token>)
    ensures |ts| >= 1
  {
    match e
    case IntLit(v) => [Token(Int, Some(Decimal.Digits(if v >= 0 then v else -v)))]
    case StrLit(s) => [Token(String, Some(s))]
    case Var(n) => [Token(Identifier, Some(n))]
    case Unary(_, x) => [Tok(Minus)] + PrintExpr(x)
    case Binary(op, l, r) => PrintExpr(l) + [Tok(op)] + PrintExpr(r)
    case Grouping(g) => [Tok(LParen)] + PrintExpr(g) + [Tok(RParen)]
    case Assignment(n, v) => [Token(Identifier, Some(n)), Tok(Assign)] + PrintExpr(v)
  }

  /** `(`, the expression, `)`, as after `is`, `doit` and `print`. */
  function PrintParen(e: Expr): seq<Token> {
    [Tok(LParen)] + PrintExpr(e) + [Tok(RParen)]
  }

  /** The expression, then `;`. */
  function PrintSemi(e: Expr): seq<Token> {
    PrintExpr(e) + [Tok(Semicolon)]
  }

  function PrintStmt(s: Stmt): (ts: seq<Token>)
    ensures |ts| >= 1
    decreases s, 2
  {
    match s
    case YeetStmt(e) => [Tok(Yeet)] + PrintSemi(e)
    case ExprStmt(e) => PrintSemi(e)
    case Block(ss) => PrintBlock(ss)
    case If(c, t, f) => [Tok(Is)] + PrintParen(c) + PrintBlock(t) + [Tok(Else)] + PrintBlock(f)
    case LoopDoIt(c, b) => [Tok(DoIt)] + PrintParen(c) + PrintBlock(b)
    case VarDecl(n, e) => [Tok(Imagine), Token(Identifier, Some(n)), Tok(Assign)] + PrintSemi(e)
    case PrintStmt(e) => [Tok(Print)] + PrintParen(e) + [Tok(Semicolon)]
  }

  /** `{`, the statements, `}`. */
  function PrintBlock(ss: seq<Stmt>): seq<Token>
    decreases ss, 1
  {
    [Tok(LBrace)] + PrintStmts(ss) + [Tok(RBrace)]
  }

  function PrintStmts(ss: seq<Stmt>): seq<Token>
    decreases ss, 0
  {
    if |ss| == 0 then [] else PrintStmt(ss[0]) + PrintStmts(ss[1..])
  }

  /** A program's tokens, closed by the end-of-input token as the tokenizer closes them. */
  function PrintProgram(p: Program): seq<Token> {
    PrintStmts(p.body) + [Tok(Eof)]
  }

  // ----- tokens in context -----

  /** The tokens `p` occur in `toks` from index `i`. */
  predicate At(toks: seq<Token>, i: nat, p: seq<Token>) {
    i + |p| <= |toks| && forall j | 0 <= j < |p| :: toks[i + j] == p[j]
  }

  lemma {:induction false} AtSplit(toks: seq<Token>, i: nat, a: seq<Token>, b: seq<Token>)
    requires At(toks, i, a + b)
    ensures At(toks, i, a) && At(toks, i + |a|, b)
  {
    forall j | 0 <= j < |a|
      ensures toks[i + j] == a[j]
    {
      assert (a + b)[j] == a[j];
    }
    forall j | 0 <= j < |b|
      ensures toks[i + |a| + j] == b[j]
    {
      assert (a + b)[|a| + j] == b[j];
    }
  }

  lemma {:induction false} AtThree(toks: seq<Token>, i: nat, a: seq<Token>, b: seq<Token>, c: seq<Token>)
    requires At(toks, i, a + b + c)
    ensures At(toks, i, a) && At(toks, i + |a|, b) && At(toks, i + |a| + |b|, c)
  {
    AtSplit(toks, i, a + b, c);
    AtSplit(toks, i, a, b);
  }

  lemma {:induction false} AtOne(toks: seq<Token>, i: nat, t: Token)
    requires At(toks, i, [t])
    ensures i < |toks| && toks[i] == t
  {
    assert [t][0] == t;
  }

  // ----- one step of each parsing function -----
  // Each step lemma unfolds one parsing function once: given what its
  // sub-parses return, it states what the function itself returns.

  lemma {:induction false} UnaryMinusStep(toks: seq<Token>, i: nat, x: Expr, j: nat)
    requires WellFormed(toks) && i < |toks| && toks[i].kind == Minus
    ensures i + 1 < |toks| && ParseUnary(toks, i + 1) == Ok(x, j) ==>
      ParseUnary(toks, i) == Ok(Unary(Minus, x), j)
  {
  }

  lemma {:induction false} GroupStep(toks: seq<Token>, i: nat, g: Expr, k: nat)
    requires WellFormed(toks) && i + 1 < |toks| && toks[i].kind == LParen
    ensures ParseAssignment(toks, i + 1) == Ok(g, k) && toks[k].kind == RParen ==>
      ParseUnary(toks, i) == Ok(Grouping(g), k + 1)
  {
    assert ParseUnary(toks, i) == ParsePrimary(toks, i);
  }

  lemma {:induction false} TailStep(level: nat, toks: seq<Token>, left: Expr, k: nat, op: TokenType, right: Expr, j: nat)
    requires 1 <= level <= 4 && WellFormed(toks) && k + 1 < |toks|
    requires Canon(left) && Level(left) <= level
    requires toks[k].kind == op && op != Eof && OpLevel(op) == level
    ensures ParseOperand(level, toks, k + 1) == Ok(right, j) ==>
      LevelTail(level, toks, left, k) == LevelTail(level, toks, Binary(op, left, right), j)
  {
  }

  lemma {:induction false} TailStop(level: nat, toks: seq<Token>, left: Expr, k: nat)
    requires 1 <= level <= 4 && WellFormed(toks) && k < |toks|
    requires Canon(left) && Level(left) <= level
    requires OpLevel(toks[k].kind) != level
    ensures LevelTail(level, toks, left, k) == Ok(left, k)
  {
  }

  lemma {:induction false} AssignStep(toks: seq<Token>, i: nat, n: string, k: nat, v: Expr, j: nat)
    requires WellFormed(toks) && i < |toks| && k + 1 < |toks|
    ensures ParseLevel(4, toks, i) == Ok(Var(n), k) && toks[k].kind == Assign
            && ParseAssignment(toks, k + 1) == Ok(v, j)
        ==> ParseAssignment(toks, i) == Ok(Assignment(n, v), j)
  {
  }

  lemma {:induction false} AssignStop(toks: seq<Token>, i: nat, e: Expr, k: nat)
    requires WellFormed(toks) && i < |toks| && k < |toks|
    ensures ParseLevel(4, toks, i) == Ok(e, k) && toks[k].kind != Assign ==>
      ParseAssignment(toks, i) == Ok(e, k)
  {
  }

  // ----- expressions -----

  /** A unary or primary tree is read back by `ParseUnary`, whatever follows it. */
  lemma {:induction false} UnaryPrint(e: Expr, toks: seq<Token>, i: nat)
    requires WellFormed(toks) && Canon(e) && Level(e) == 0
    requires At(toks, i, PrintExpr(e)) && i + |PrintExpr(e)| < |toks|
    ensures ParseUnary(toks, i) == Ok(e, i + |PrintExpr(e)|)
    decreases |PrintExpr(e)|, 0, 1
  {
    match e
    case IntLit(v) =>
      AtOne(toks, i, Token(Int, Some(Decimal.Digits(v))));
      Decimal.DigitsRoundTrip(v);
    case StrLit(s) => AtOne(toks, i, Token(String, Some(s)));
    case Var(n) => AtOne(toks, i, Token(Identifier, Some(n)));
    case Unary(_, x) => MinusPrint(x, toks, i);
    case Grouping(g) => GroupPrint(g, toks, i);
    case Binary(_, _, _) => assert false;
    case Assignment(_, _) => assert false;
  }

  lemma {:induction false} MinusPrint(x: Expr, toks: seq<Token>, i: nat)
    requires WellFormed(toks) && Canon(x) && Level(x) == 0
    requires At(toks, i, [Tok(Minus)] + PrintExpr(x)) && i + 1 + |PrintExpr(x)| < |toks|
    ensures ParseUnary(toks, i) == Ok(Unary(Minus, x), i + 1 + |PrintExpr(x)|)
    decreases |PrintExpr(x)| + 1, 0, 0
  {
    AtSplit(toks, i, [Tok(Minus)], PrintExpr(x));
    AtOne(toks, i, Tok(Minus));
    UnaryPrint(x, toks, i + 1);
    UnaryMinusStep(toks, i, x, i + 1 + |PrintExpr(x)|);
  }

  lemma {:induction false} GroupPrint(g: Expr, toks: seq<Token>, i: nat)
    requires WellFormed(toks) && Canon(g)
    requires At(toks, i, [Tok(LParen)] + PrintExpr(g) + [Tok(RParen)]) && i + 2 + |PrintExpr(g)| < |toks|
    ensures ParseUnary(toks, i) == Ok(Grouping(g), i + 2 + |PrintExpr(g)|)
    decreases |PrintExpr(g)| + 2, 0, 0
  {
    var j := i + 1 + |PrintExpr(g)|;
    AtThree(toks, i, [Tok(LParen)], PrintExpr(g), [Tok(RParen)]);
    AtOne(toks, i, Tok(LParen));
    AtOne(toks, j, Tok(RParen));
    AssignPrint(g, toks, i + 1);
    GroupStep(toks, i, g, j);
  }

  /**
   * A tree of level at most `level` is read by `ParseLevel(level)` up to its
   * end, and the loop of that level then goes on from there with the tree
   * as its left operand, provided no operator of a tighter level follows.
   */
  lemma {:induction false} ChainPrint(level: nat, e: Expr, toks: seq<Token>, i: nat)
    requires 1 <= level <= 4 && WellFormed(toks) && Canon(e) && Level(e) <= level
    requires At(toks, i, PrintExpr(e)) && i + |PrintExpr(e)| < |toks|
    requires !(1 <= OpLevel(toks[i + |PrintExpr(e)|].kind) < level)
    ensures ParseLevel(level, toks, i) == LevelTail(level, toks, e, i + |PrintExpr(e)|)
    decreases |PrintExpr(e)|, level, 2
  {
    if Level(e) < level {
      OperandPrint(level, e, toks, i);
    } else {
      var k := i + |PrintExpr(e.left)|;
      AtThree(toks, i, PrintExpr(e.left), [Tok(e.op)], PrintExpr(e.right));
      AtOne(toks, k, Tok(e.op));
      ChainBinary(level, e.op, e.left, e.right, toks, i, k, i + |PrintExpr(e)|);
    }
  }

  /** The last operator of a left-leaning chain: the chain before it, then its right operand. */
  lemma {:induction false} ChainBinary(level: nat, op: TokenType, l: Expr, r: Expr, toks: seq<Token>, i: nat, k: nat, j: nat)
    requires 1 <= level <= 4 && WellFormed(toks) && OpLevel(op) == level
    requires Canon(l) && Level(l) <= level && Canon(r) && Level(r) < level
    requires k == i + |PrintExpr(l)| && j == k + 1 + |PrintExpr(r)| && j < |toks|
    requires At(toks, i, PrintExpr(l)) && toks[k].kind == op && At(toks, k + 1, PrintExpr(r))
    requires !(1 <= OpLevel(toks[j].kind) < level)
    ensures ParseLevel(level, toks, i) == LevelTail(level, toks, Binary(op, l, r), j)
    decreases j - i, level, 1
  {
    ChainPrint(level, l, toks, i);
    OperandPrint(level, r, toks, k + 1);
    TailStep(level, toks, l, k, op, r, j);
  }

  /** A tree binding tighter than `level` is read as one operand of that level. */
  lemma {:induction false} OperandPrint(level: nat, e: Expr, toks: seq<Token>, i: nat)
    requires 1 <= level <= 4 && WellFormed(toks) && Canon(e) && Level(e) < level
    requires At(toks, i, PrintExpr(e)) && i + |PrintExpr(e)| < |toks|
    requires !(1 <= OpLevel(toks[i + |PrintExpr(e)|].kind) < level)
    ensures ParseOperand(level, toks, i) == Ok(e, i + |PrintExpr(e)|)
    decreases |PrintExpr(e)|, level, 1
  {
    if level == 1 {
      UnaryPrint(e, toks, i);
    } else {
      ChainPrint(level - 1, e, toks, i);
      TailStop(level - 1, toks, e, i + |PrintExpr(e)|);
    }
  }

  /** A tree of level at most `level`, followed by no operator of that level or tighter, is read back exactly. */
  lemma {:induction false} LevelPrint(level: nat, e: Expr, toks: seq<Token>, i: nat)
    requires 1 <= level <= 4 && WellFormed(toks) && Canon(e) && Level(e) <= level
    requires At(toks, i, PrintExpr(e)) && i + |PrintExpr(e)| < |toks|
    requires !(1 <= OpLevel(toks[i + |PrintExpr(e)|].kind) <= level)
    ensures ParseLevel(level, toks, i) == Ok(e, i + |PrintExpr(e)|)
    decreases |PrintExpr(e)|, 5, 0
  {
    ChainPrint(level, e, toks, i);
    TailStop(level, toks, e, i + |PrintExpr(e)|);
  }

  /**
   * Every tree the parser can build is read back by `ParseAssignment` when
   * it is followed by a token that continues no expression (`)` or `;`).
   */
  lemma {:induction false} AssignPrint(e: Expr, toks: seq<Token>, i: nat)
    requires WellFormed(toks) && Canon(e)
    requires At(toks, i, PrintExpr(e)) && i + |PrintExpr(e)| < |toks|
    requires OpLevel(toks[i + |PrintExpr(e)|].kind) == 0 && toks[i + |PrintExpr(e)|].kind != Assign
    ensures ParseAssignment(toks, i) == Ok(e, i + |PrintExpr(e)|)
    decreases |PrintExpr(e)|, 6, 1
  {
    if e.Assignment? {
      TargetPrint(e.name, e.value, toks, i, i + |PrintExpr(e)|);
    } else {
      LevelPrint(4, e, toks, i);
      AssignStop(toks, i, e, i + |PrintExpr(e)|);
    }
  }

  /** An assignment: its target is read as a bare variable, then the value as another assignment. */
  lemma {:induction false} TargetPrint(n: string, v: Expr, toks: seq<Token>, i: nat, j: nat)
    requires WellFormed(toks) && Canon(v)
    requires j == i + 2 + |PrintExpr(v)| && j < |toks|
    requires At(toks, i, [Token(Identifier, Some(n)), Tok(Assign)] + PrintExpr(v))
    requires OpLevel(toks[j].kind) == 0 && toks[j].kind != Assign
    ensures ParseAssignment(toks, i) == Ok(Assignment(n, v), j)
    decreases |PrintExpr(v)| + 2, 6, 0
  {
    AtSplit(toks, i, [Token(Identifier, Some(n)), Tok(Assign)], PrintExpr(v));
    assert [Token(Identifier, Some(n)), Tok(Assign)] == [Token(Identifier, Some(n))] + [Tok(Assign)];
    AtSplit(toks, i, [Token(Identifier, Some(n))], [Tok(Assign)]);
    AtOne(toks, i + 1, Tok(Assign));
    LevelPrint(4, Var(n), toks, i);
    AssignPrint(v, toks, i + 2);
    AssignStep(toks, i, n, i + 1, v, j);
  }

  /** The first token of a printed expression starts no statement form of its own. */
  lemma {:induction false} ExprStart(e: Expr)
    ensures PrintExpr(e)[0].kind in {Int, String, Identifier, Minus, LParen}
  {
    match e
    case Binary(_, l, _) => ExprStart(l);
    case _ =>
  }

  /** No statement starts with `}`, so a block's item loop never stops early. */
  lemma {:induction false} StmtStart(s: Stmt)
    ensures PrintStmt(s)[0].kind != RBrace
  {
    match s
    case ExprStmt(e) => ExprStart(e);
    case _ =>
  }

  lemma {:induction false} AtHead(toks: seq<Token>, i: nat, t: Token, rest: seq<Token>)
    requires At(toks, i, [t] + rest)
    ensures i < |toks| && toks[i] == t && At(toks, i + 1, rest)
  {
    AtSplit(toks, i, [t], rest);
    AtOne(toks, i, t);
  }

  // ----- one step of each statement routine -----

  lemma {:induction false} YeetStep(toks: seq<Token>, i: nat, e: Expr, j: nat)
    requires WellFormed(toks) && i + 1 < |toks| && toks[i].kind == Yeet
    ensures ParseExprSemi(toks, i + 1) == Ok(e, j) ==> ParseStmt(toks, i) == Ok(YeetStmt(e), j)
  {
  }

  lemma {:induction false} ExprStmtStep(toks: seq<Token>, i: nat, e: Expr, j: nat)
    requires WellFormed(toks) && i < |toks| && toks[i].kind in {Int, String, Identifier, Minus, LParen}
    ensures ParseExprSemi(toks, i) == Ok(e, j) ==> ParseStmt(toks, i) == Ok(ExprStmt(e), j)
  {
  }

  lemma {:induction false} BlockStmtStep(toks: seq<Token>, i: nat, ss: seq<Stmt>, j: nat)
    requires WellFormed(toks) && i < |toks| && toks[i].kind == LBrace
    ensures ParseBlock(toks, i) == Ok(Block(ss), j) ==> ParseStmt(toks, i) == Ok(Block(ss), j)
  {
  }

  lemma {:induction false} IfStep(toks: seq<Token>, i: nat, c: Expr, k: nat, r: Stmt, j: nat)
    requires WellFormed(toks) && i + 1 < |toks| && toks[i].kind == Is
    ensures ParseParenExpr(toks, i + 1) == Ok(c, k) && IfBranches(toks, k, c) == Ok(r, j) ==>
      ParseStmt(toks, i) == Ok(r, j)
  {
  }

  lemma {:induction false} BranchesStep(toks: seq<Token>, c: Expr, k1: nat, t: seq<Stmt>, k2: nat, r: Stmt, j: nat)
    requires WellFormed(toks) && k1 < |toks| && Canon(c)
    ensures ParseBlock(toks, k1) == Ok(Block(t), k2) && k2 < |toks|
            && ElseBranch(toks, k2, c, t) == Ok(r, j)
        ==> IfBranches(toks, k1, c) == Ok(r, j)
  {
  }

  lemma {:induction false} ElseStep(toks: seq<Token>, c: Expr, t: seq<Stmt>, k2: nat, f: seq<Stmt>, j: nat)
    requires WellFormed(toks) && Canon(c) && AllCanon(t)
    requires k2 + 1 < |toks| && toks[k2].kind == Else
    ensures ParseBlock(toks, k2 + 1) == Ok(Block(f), j) ==>
      ElseBranch(toks, k2, c, t) == Ok(If(c, t, f), j)
  {
  }

  lemma {:induction false} DoItStep(toks: seq<Token>, i: nat, c: Expr, k: nat, b: seq<Stmt>, j: nat)
    requires WellFormed(toks) && i + 1 < |toks| && toks[i].kind == DoIt
    ensures ParseParenExpr(toks, i + 1) == Ok(c, k) && ParseBlock(toks, k) == Ok(Block(b), j) ==>
      ParseStmt(toks, i) == Ok(LoopDoIt(c, b), j)
  {
  }

  lemma {:induction false} VarDeclStep(toks: seq<Token>, i: nat, n: string, e: Expr, j: nat)
    requires WellFormed(toks) && i + 3 < |toks| && toks[i].kind == Imagine
    requires toks[i + 1] == Token(Identifier, Some(n)) && toks[i + 2] == Tok(Assign)
    ensures ParseExprSemi(toks, i + 3) == Ok(e, j) ==> ParseStmt(toks, i) == Ok(VarDecl(n, e), j)
  {
  }

  lemma {:induction false} PrintStep(toks: seq<Token>, i: nat, e: Expr, k: nat)
    requires WellFormed(toks) && i + 1 < |toks| && toks[i].kind == Print
    requires k + 1 < |toks| && toks[k].kind == Semicolon
    ensures ParseParenExpr(toks, i + 1) == Ok(e, k) ==>
      ParseStmt(toks, i) == Ok(Stmt.PrintStmt(e), k + 1)
  {
  }

  lemma {:induction false} BlockStep(toks: seq<Token>, i: nat, ss: seq<Stmt>, k: nat)
    requires WellFormed(toks) && i + 1 < |toks| && toks[i].kind == LBrace
    ensures BlockItems(toks, i + 1) == Ok(ss, k) && toks[k].kind == RBrace ==>
      ParseBlock(toks, i) == Ok(Block(ss), k + 1)
  {
  }

  lemma {:induction false} ConsSplit(ss: seq<Stmt>)
    requires |ss| > 0
    ensures [ss[0]] + ss[1..] == ss
  {
  }

  lemma {:induction false} ItemsStep(toks: seq<Token>, i: nat, ss: seq<Stmt>, k: nat, j: nat)
    requires WellFormed(toks) && i < |toks| && toks[i].kind != RBrace && toks[i].kind != Eof && |ss| > 0
    ensures ParseStmt(toks, i) == Ok(ss[0], k) && BlockItems(toks, k) == Ok(ss[1..], j) ==>
      BlockItems(toks, i) == Ok(ss, j)
  {
    ConsSplit(ss);
  }

  lemma {:induction false} ProgramItemsStep(toks: seq<Token>, i: nat, ss: seq<Stmt>, k: nat, j: nat)
    requires WellFormed(toks) && i < |toks| && toks[i].kind != Eof && |ss| > 0
    ensures ParseStmt(toks, i) == Ok(ss[0], k) && ProgramItems(toks, k) == Ok(ss[1..], j) ==>
      ProgramItems(toks, i) == Ok(ss, j)
  {
    ConsSplit(ss);
  }

  /** The printed statements split at the first one. */
  lemma {:induction false} StmtsSplit(ss: seq<Stmt>, toks: seq<Token>, i: nat) returns (k: nat)
    requires |ss| > 0 && AllCanon(ss) && At(toks, i, PrintStmts(ss))
    ensures k == i + |PrintStmt(ss[0])| && k + |PrintStmts(ss[1..])| == i + |PrintStmts(ss)|
    ensures At(toks, i, PrintStmt(ss[0])) && At(toks, k, PrintStmts(ss[1..]))
    ensures CanonStmt(ss[0]) && AllCanon(ss[1..])
  {
    k := i + |PrintStmt(ss[0])|;
    AtSplit(toks, i, PrintStmt(ss[0]), PrintStmts(ss[1..]));
  }

  // ----- statements -----

  lemma {:induction false} ParenStep(toks: seq<Token>, i: nat, e: Expr, k: nat)
    requires WellFormed(toks) && i + 1 < |toks| && toks[i].kind == LParen
    ensures ParseExpr(toks, i + 1) == Ok(e, k) && toks[k].kind == RParen ==>
      ParseParenExpr(toks, i) == Ok(e, k + 1)
  {
  }

  lemma {:induction false} SemiStep(toks: seq<Token>, i: nat, e: Expr, k: nat)
    requires WellFormed(toks) && i < |toks|
    ensures ParseExpr(toks, i) == Ok(e, k) && toks[k].kind == Semicolon ==>
      ParseExprSemi(toks, i) == Ok(e, k + 1)
  {
  }

  lemma {:induction false} ParenPrint(e: Expr, toks: seq<Token>, i: nat)
    requires WellFormed(toks) && Canon(e)
    requires At(toks, i, PrintParen(e)) && i + |PrintParen(e)| < |toks|
    ensures ParseParenExpr(toks, i) == Ok(e, i + |PrintParen(e)|)
  {
    var k := i + 1 + |PrintExpr(e)|;
    AtThree(toks, i, [Tok(LParen)], PrintExpr(e), [Tok(RParen)]);
    AtOne(toks, i, Tok(LParen));
    AtOne(toks, k, Tok(RParen));
    AssignPrint(e, toks, i + 1);
    ParenStep(toks, i, e, k);
  }

  lemma {:induction false} SemiPrint(e: Expr, toks: seq<Token>, i: nat)
    requires WellFormed(toks) && Canon(e)
    requires At(toks, i, PrintSemi(e)) && i + |PrintSemi(e)| < |toks|
    ensures ParseExprSemi(toks, i) == Ok(e, i + |PrintSemi(e)|)
  {
    var k := i + |PrintExpr(e)|;
    AtSplit(toks, i, PrintExpr(e), [Tok(Semicolon)]);
    AtOne(toks, k, Tok(Semicolon));
    AssignPrint(e, toks, i);
    SemiStep(toks, i, e, k);
  }

  lemma {:induction false} YeetPrint(e: Expr, toks: seq<Token>, i: nat)
    requires WellFormed(toks) && Canon(e)
    requires At(toks, i, [Tok(Yeet)] + PrintSemi(e)) && i + 1 + |PrintSemi(e)| < |toks|
    ensures ParseStmt(toks, i) == Ok(YeetStmt(e), i + 1 + |PrintSemi(e)|)
  {
    AtHead(toks, i, Tok(Yeet), PrintSemi(e));
    SemiPrint(e, toks, i + 1);
    YeetStep(toks, i, e, i + 1 + |PrintSemi(e)|);
  }

  lemma {:induction false} ExprStmtPrint(e: Expr, toks: seq<Token>, i: nat)
    requires WellFormed(toks) && Canon(e)
    requires At(toks, i, PrintSemi(e)) && i + |PrintSemi(e)| < |toks|
    ensures ParseStmt(toks, i) == Ok(ExprStmt(e), i + |PrintSemi(e)|)
  {
    ExprStart(e);
    assert toks[i] == PrintSemi(e)[0] == PrintExpr(e)[0];
    SemiPrint(e, toks, i);
    ExprStmtStep(toks, i, e, i + |PrintSemi(e)|);
  }

  lemma {:induction false} VarDeclPrint(n: string, e: Expr, toks: seq<Token>, i: nat)
    requires WellFormed(toks) && Canon(e)
    requires At(toks, i, [Tok(Imagine), Token(Identifier, Some(n)), Tok(Assign)] + PrintSemi(e))
    requires i + 3 + |PrintSemi(e)| < |toks|
    ensures ParseStmt(toks, i) == Ok(VarDecl(n, e), i + 3 + |PrintSemi(e)|)
  {
    AtThreeHeads(toks, i, Tok(Imagine), Token(Identifier, Some(n)), Tok(Assign), PrintSemi(e));
    SemiPrint(e, toks, i + 3);
    VarDeclStep(toks, i, n, e, i + 3 + |PrintSemi(e)|);
  }

  lemma {:induction false} AtThreeHeads(toks: seq<Token>, i: nat, a: Token, b: Token, c: Token, rest: seq<Token>)
    requires At(toks, i, [a, b, c] + rest)
    ensures i + 2 < |toks| && toks[i] == a && toks[i + 1] == b && toks[i + 2] == c && At(toks, i + 3, rest)
  {
    assert [a, b, c] + rest == [a] + ([b] + ([c] + rest));
    AtHead(toks, i, a, [b] + ([c] + rest));
    AtHead(toks, i + 1, b, [c] + rest);
    AtHead(toks, i + 2, c, rest);
  }

  lemma {:induction false} PrintStmtPrint(e: Expr, toks: seq<Token>, i: nat)
    requires WellFormed(toks) && Canon(e)
    requires At(toks, i, [Tok(Print)] + PrintParen(e) + [Tok(Semicolon)])
    requires i + 2 + |PrintParen(e)| < |toks|
    ensures ParseStmt(toks, i) == Ok(Stmt.PrintStmt(e), i + 2 + |PrintParen(e)|)
  {
    var k := i + 1 + |PrintParen(e)|;
    AtThree(toks, i, [Tok(Print)], PrintParen(e), [Tok(Semicolon)]);
    AtOne(toks, i, Tok(Print));
    AtOne(toks, k, Tok(Semicolon));
    ParenPrint(e, toks, i + 1);
    PrintStep(toks, i, e, k);
  }

  /**
   * Every statement the parser can build is printed to tokens that
   * `ParseStmt` reads back to that same statement, whatever follows.
   */
  lemma {:induction false} StmtPrint(s: Stmt, toks: seq<Token>, i: nat)
    requires WellFormed(toks) && CanonStmt(s)
    requires At(toks, i, PrintStmt(s)) && i + |PrintStmt(s)| < |toks|
    ensures ParseStmt(toks, i) == Ok(s, i + |PrintStmt(s)|)
    decreases s, 4
  {
    match s
    case Block(ss) => BlockStmtPrint(ss, toks, i);
    case If(c, t, f) => IfStmtPrint(c, t, f, toks, i);
    case LoopDoIt(c, b) => DoItStmtPrint(c, b, toks, i);
    case _ => SimpleStmtPrint(s, toks, i);
  }

  lemma {:induction false} BlockStmtPrint(ss: seq<Stmt>, toks: seq<Token>, i: nat)
    requires WellFormed(toks) && AllCanon(ss)
    requires At(toks, i, PrintBlock(ss)) && i + |PrintBlock(ss)| < |toks|
    ensures ParseStmt(toks, i) == Ok(Block(ss), i + |PrintBlock(ss)|)
    decreases Block(ss), 2
  {
    BlockPrint(ss, toks, i);
    BlockOpen(ss, toks, i);
    BlockStmtStep(toks, i, ss, i + |PrintBlock(ss)|);
  }

  lemma {:induction false} BlockOpen(ss: seq<Stmt>, toks: seq<Token>, i: nat)
    requires At(toks, i, PrintBlock(ss))
    ensures i < |toks| && toks[i] == Tok(LBrace)
  {
    AtThree(toks, i, [Tok(LBrace)], PrintStmts(ss), [Tok(RBrace)]);
    AtOne(toks, i, Tok(LBrace));
  }

  lemma {:induction false} IfStmtPrint(c: Expr, t: seq<Stmt>, f: seq<Stmt>, toks: seq<Token>, i: nat)
    requires WellFormed(toks) && CanonStmt(If(c, t, f))
    requires At(toks, i, PrintStmt(If(c, t, f))) && i + |PrintStmt(If(c, t, f))| < |toks|
    ensures ParseStmt(toks, i) == Ok(If(c, t, f), i + |PrintStmt(If(c, t, f))|)
    decreases If(c, t, f), 3
  {
    var k1, k2 := IfSplit(c, t, f, toks, i);
    ParenPrint(c, toks, i + 1);
    IfPrint(c, t, f, toks, i, k1, k2);
  }

  lemma {:induction false} DoItStmtPrint(c: Expr, b: seq<Stmt>, toks: seq<Token>, i: nat)
    requires WellFormed(toks) && CanonStmt(LoopDoIt(c, b))
    requires At(toks, i, PrintStmt(LoopDoIt(c, b))) && i + |PrintStmt(LoopDoIt(c, b))| < |toks|
    ensures ParseStmt(toks, i) == Ok(LoopDoIt(c, b), i + |PrintStmt(LoopDoIt(c, b))|)
    decreases LoopDoIt(c, b), 2
  {
    var k := DoItSplit(c, b, toks, i);
    ParenPrint(c, toks, i + 1);
    DoItPrint(c, b, toks, i, k);
  }

  /** Where the pieces of a printed `doit` statement sit. */
  lemma {:induction false} DoItSplit(c: Expr, b: seq<Stmt>, toks: seq<Token>, i: nat) returns (k: nat)
    requires At(toks, i, PrintStmt(LoopDoIt(c, b)))
    ensures k == i + 1 + |PrintParen(c)| && i + |PrintStmt(LoopDoIt(c, b))| == k + |PrintBlock(b)|
    ensures i < |toks| && toks[i] == Tok(DoIt) && At(toks, i + 1, PrintParen(c)) && At(toks, k, PrintBlock(b))
  {
    k := i + 1 + |PrintParen(c)|;
    AtThree(toks, i, [Tok(DoIt)], PrintParen(c), PrintBlock(b));
    AtOne(toks, i, Tok(DoIt));
  }

  /** The statements that hold no block: `yeet`, an expression statement, `imagine` and `print`. */
  lemma {:induction false} SimpleStmtPrint(s: Stmt, toks: seq<Token>, i: nat)
    requires !s.Block? && !s.If? && !s.LoopDoIt?
    requires WellFormed(toks) && CanonStmt(s)
    requires At(toks, i, PrintStmt(s)) && i + |PrintStmt(s)| < |toks|
    ensures ParseStmt(toks, i) == Ok(s, i + |PrintStmt(s)|)
  {
    match s
    case YeetStmt(e) => YeetPrint(e, toks, i);
    case ExprStmt(e) => ExprStmtPrint(e, toks, i);
    case VarDecl(n, e) => VarDeclPrint(n, e, toks, i);
    case PrintStmt(e) => PrintStmtPrint(e, toks, i);
  }

  /** Where the pieces of a printed `is` statement sit. */
  lemma {:induction false} IfSplit(c: Expr, t: seq<Stmt>, f: seq<Stmt>, toks: seq<Token>, i: nat) returns (k1: nat, k2: nat)
    requires At(toks, i, PrintStmt(If(c, t, f)))
    ensures k1 == i + 1 + |PrintParen(c)| && k2 == k1 + |PrintBlock(t)|
    ensures i + |PrintStmt(If(c, t, f))| == k2 + 1 + |PrintBlock(f)|
    ensures i < |toks| && toks[i] == Tok(Is) && At(toks, i + 1, PrintParen(c)) && At(toks, k1, PrintBlock(t))
    ensures k2 < |toks| && toks[k2] == Tok(Else) && At(toks, k2 + 1, PrintBlock(f))
  {
    k1 := i + 1 + |PrintParen(c)|;
    k2 := k1 + |PrintBlock(t)|;
    AtSplit(toks, i, [Tok(Is)] + PrintParen(c) + PrintBlock(t) + [Tok(Else)], PrintBlock(f));
    AtSplit(toks, i, [Tok(Is)] + PrintParen(c) + PrintBlock(t), [Tok(Else)]);
    AtThree(toks, i, [Tok(Is)], PrintParen(c), PrintBlock(t));
    AtOne(toks, i, Tok(Is));
    AtOne(toks, k2, Tok(Else));
  }

  /** `is (c) {t} else {f}`: the condition, then both blocks, the `else` between them. */
  lemma {:induction false} IfPrint(c: Expr, t: seq<Stmt>, f: seq<Stmt>, toks: seq<Token>, i: nat, k1: nat, k2: nat)
    requires WellFormed(toks) && Canon(c) && AllCanon(t) && AllCanon(f)
    requires k2 == k1 + |PrintBlock(t)| && k2 + 1 + |PrintBlock(f)| < |toks|
    requires i + 1 < k1 && toks[i].kind == Is
    requires At(toks, k1, PrintBlock(t)) && toks[k2] == Tok(Else) && At(toks, k2 + 1, PrintBlock(f))
    ensures ParseParenExpr(toks, i + 1) == Ok(c, k1) ==>
      ParseStmt(toks, i) == Ok(If(c, t, f), k2 + 1 + |PrintBlock(f)|)
    decreases If(c, t, f), 2
  {
    BranchesPrint(c, t, f, toks, k1, k2);
    IfStep(toks, i, c, k1, If(c, t, f), k2 + 1 + |PrintBlock(f)|);
  }

  lemma {:induction false} BranchesPrint(c: Expr, t: seq<Stmt>, f: seq<Stmt>, toks: seq<Token>, k1: nat, k2: nat)
    requires WellFormed(toks) && Canon(c) && AllCanon(t) && AllCanon(f)
    requires k2 == k1 + |PrintBlock(t)| && k2 + 1 + |PrintBlock(f)| < |toks|
    requires At(toks, k1, PrintBlock(t)) && toks[k2] == Tok(Else) && At(toks, k2 + 1, PrintBlock(f))
    ensures IfBranches(toks, k1, c) == Ok(If(c, t, f), k2 + 1 + |PrintBlock(f)|)
    decreases If(c, t, f), 1
  {
    BlockPrint(t, toks, k1);
    ElsePrint(c, t, f, toks, k2);
    BranchesStep(toks, c, k1, t, k2, If(c, t, f), k2 + 1 + |PrintBlock(f)|);
  }

  lemma {:induction false} ElsePrint(c: Expr, t: seq<Stmt>, f: seq<Stmt>, toks: seq<Token>, k2: nat)
    requires WellFormed(toks) && Canon(c) && AllCanon(t) && AllCanon(f)
    requires k2 + 1 + |PrintBlock(f)| < |toks|
    requires toks[k2] == Tok(Else) && At(toks, k2 + 1, PrintBlock(f))
    ensures ElseBranch(toks, k2, c, t) == Ok(If(c, t, f), k2 + 1 + |PrintBlock(f)|)
    decreases If(c, t, f), 0
  {
    BlockPrint(f, toks, k2 + 1);
    ElseStep(toks, c, t, k2, f, k2 + 1 + |PrintBlock(f)|);
  }

  /** `doit (c) {b}`: the count, then the body. */
  lemma {:induction false} DoItPrint(c: Expr, b: seq<Stmt>, toks: seq<Token>, i: nat, k: nat)
    requires WellFormed(toks) && AllCanon(b) && k + |PrintBlock(b)| < |toks|
    requires i + 1 < k && toks[i].kind == DoIt
    requires At(toks, k, PrintBlock(b))
    ensures ParseParenExpr(toks, i + 1) == Ok(c, k) ==>
      ParseStmt(toks, i) == Ok(LoopDoIt(c, b), k + |PrintBlock(b)|)
    decreases LoopDoIt(c, b), 1
  {
    BlockPrint(b, toks, k);
    DoItStep(toks, i, c, k, b, k + |PrintBlock(b)|);
  }

  /** A printed block is read back by `ParseBlock` as a `Block` of the same statements. */
  lemma {:induction false} BlockPrint(ss: seq<Stmt>, toks: seq<Token>, i: nat)
    requires WellFormed(toks) && AllCanon(ss)
    requires At(toks, i, PrintBlock(ss)) && i + |PrintBlock(ss)| < |toks|
    ensures ParseBlock(toks, i) == Ok(Block(ss), i + |PrintBlock(ss)|)
    decreases ss, 1
  {
    var k := i + 1 + |PrintStmts(ss)|;
    AtThree(toks, i, [Tok(LBrace)], PrintStmts(ss), [Tok(RBrace)]);
    AtOne(toks, i, Tok(LBrace));
    AtOne(toks, k, Tok(RBrace));
    ItemsPrint(ss, toks, i + 1);
    BlockStep(toks, i, ss, k);
  }

  /** Printed statements followed by `}` or the end of input are read back by a block's item loop. */
  lemma {:induction false} ItemsPrint(ss: seq<Stmt>, toks: seq<Token>, i: nat)
    requires WellFormed(toks) && AllCanon(ss)
    requires At(toks, i, PrintStmts(ss)) && i + |PrintStmts(ss)| < |toks|
    requires toks[i + |PrintStmts(ss)|].kind == RBrace || toks[i + |PrintStmts(ss)|].kind == Eof
    ensures BlockItems(toks, i) == Ok(ss, i + |PrintStmts(ss)|)
    decreases ss, 0, 2
  {
    if |ss| == 0 {
      ItemsEnd(toks, i);
    } else {
      ItemsCons(ss, toks, i);
    }
  }

  /** The item loop stops at once before `}` or the end of input. */
  lemma {:induction false} ItemsEnd(toks: seq<Token>, i: nat)
    requires WellFormed(toks) && i < |toks|
    requires toks[i].kind == RBrace || toks[i].kind == Eof
    ensures BlockItems(toks, i) == Ok([], i)
  {
  }

  /** A non-empty run of printed statements: the first is read, then the rest. */
  lemma {:induction false} ItemsCons(ss: seq<Stmt>, toks: seq<Token>, i: nat)
    requires WellFormed(toks) && AllCanon(ss) && |ss| > 0
    requires At(toks, i, PrintStmts(ss)) && i + |PrintStmts(ss)| < |toks|
    requires toks[i + |PrintStmts(ss)|].kind == RBrace || toks[i + |PrintStmts(ss)|].kind == Eof
    ensures BlockItems(toks, i) == Ok(ss, i + |PrintStmts(ss)|)
    decreases ss, 0, 1
  {
    var k := StmtsSplit(ss, toks, i);
    StmtPrint(ss[0], toks, i);
    ItemsHead(ss[0], toks, i);
    ItemsRest(ss, toks, i, k, i + |PrintStmts(ss)|);
  }

  /** Once the first statement is read back, the loop reads the rest and prepends it. */
  lemma {:induction false} ItemsRest(ss: seq<Stmt>, toks: seq<Token>, i: nat, k: nat, j: nat)
    requires WellFormed(toks) && |ss| > 0 && AllCanon(ss[1..])
    requires i < |toks| && toks[i].kind != RBrace && toks[i].kind != Eof
    requires At(toks, k, PrintStmts(ss[1..])) && j == k + |PrintStmts(ss[1..])| && j < |toks|
    requires toks[j].kind == RBrace || toks[j].kind == Eof
    ensures ParseStmt(toks, i) == Ok(ss[0], k) ==> BlockItems(toks, i) == Ok(ss, j)
    decreases ss, 0, 0
  {
    ItemsPrint(ss[1..], toks, k);
    ItemsStep(toks, i, ss, k, j);
  }

  /** A printed statement starts neither with `}` nor with the end of input. */
  lemma {:induction false} ItemsHead(s: Stmt, toks: seq<Token>, i: nat)
    requires WellFormed(toks) && At(toks, i, PrintStmt(s)) && i + |PrintStmt(s)| < |toks|
    ensures toks[i].kind != RBrace && toks[i].kind != Eof
  {
    StmtStart(s);
    assert toks[i] == PrintStmt(s)[0];
  }

  /** Printed statements followed by the end of input are read back by the top-level item loop. */
  lemma {:induction false} ProgramItemsPrint(ss: seq<Stmt>, toks: seq<Token>, i: nat)
    requires WellFormed(toks) && AllCanon(ss)
    requires At(toks, i, PrintStmts(ss)) && i + |PrintStmts(ss)| == |toks| - 1
    ensures ProgramItems(toks, i) == Ok(ss, i + |PrintStmts(ss)|)
    decreases ss, 1
  {
    if |ss| > 0 {
      var k := StmtsSplit(ss, toks, i);
      StmtPrint(ss[0], toks, i);
      ProgramRest(ss, toks, i, k);
    }
  }

  /** Once the first statement is read back, the top-level loop reads the rest and prepends it. */
  lemma {:induction false} ProgramRest(ss: seq<Stmt>, toks: seq<Token>, i: nat, k: nat)
    requires WellFormed(toks) && |ss| > 0 && AllCanon(ss[1..]) && i < k
    requires At(toks, k, PrintStmts(ss[1..])) && k + |PrintStmts(ss[1..])| == |toks| - 1
    ensures ParseStmt(toks, i) == Ok(ss[0], k) ==>
      ProgramItems(toks, i) == Ok(ss, k + |PrintStmts(ss[1..])|)
    decreases ss, 0
  {
    ProgramItemsPrint(ss[1..], toks, k);
    ProgramItemsStep(toks, i, ss, k, |toks| - 1);
  }

  // ----- printed tokens are well formed -----

  /** No end-of-input token, and every lexeme as the parser expects it. */
  predicate Clean(ts: seq<Token>) {
    forall k | 0 <= k < |ts| :: ts[k].kind != Eof && LexemeOk(ts[k])
  }

  lemma {:induction false} CleanAppend(a: seq<Token>, b: seq<Token>)
    requires Clean(a) && Clean(b)
    ensures Clean(a + b)
  {
    forall k | 0 <= k < |a + b|
      ensures (a + b)[k].kind != Eof && LexemeOk((a + b)[k])
    {
      if k >= |a| {
        assert (a + b)[k] == b[k - |a|];
      }
    }
  }

  /** A printed expression is clean whenever the tree is one the parser builds. */
  lemma {:induction false} ExprClean(e: Expr)
    ensures Canon(e) ==> Clean(PrintExpr(e))
  {
    if Canon(e) {
      match e
      case IntLit(v) =>
      case StrLit(_) =>
      case Var(_) =>
      case Unary(_, x) =>
        ExprClean(x);
        CleanAppend([Tok(Minus)], PrintExpr(x));
      case Binary(op, l, r) =>
        ExprClean(l);
        ExprClean(r);
        CleanThree(PrintExpr(l), [Tok(op)], PrintExpr(r));
      case Grouping(g) =>
        ExprClean(g);
        CleanThree([Tok(LParen)], PrintExpr(g), [Tok(RParen)]);
      case Assignment(n, v) =>
        ExprClean(v);
        CleanAppend([Token(Identifier, Some(n)), Tok(Assign)], PrintExpr(v));
    }
  }

  lemma {:induction false} CleanThree(a: seq<Token>, b: seq<Token>, c: seq<Token>)
    requires Clean(a) && Clean(b) && Clean(c)
    ensures Clean(a + b + c)
  {
    CleanAppend(a, b);
    CleanAppend(a + b, c);
  }

  lemma {:induction false} ParenClean(e: Expr)
    requires Canon(e)
    ensures Clean(PrintParen(e))
  {
    ExprClean(e);
    CleanThree([Tok(LParen)], PrintExpr(e), [Tok(RParen)]);
  }

  lemma {:induction false} SemiClean(e: Expr)
    requires Canon(e)
    ensures Clean(PrintSemi(e))
  {
    ExprClean(e);
    CleanAppend(PrintExpr(e), [Tok(Semicolon)]);
  }

  /** A printed statement is clean whenever the statement is one the parser builds. */
  lemma {:induction false} StmtClean(s: Stmt)
    ensures CanonStmt(s) ==> Clean(PrintStmt(s))
    decreases s, 2
  {
    if CanonStmt(s) {
      match s
      case YeetStmt(e) =>
        SemiClean(e);
        CleanAppend([Tok(Yeet)], PrintSemi(e));
      case ExprStmt(e) => SemiClean(e);
      case Block(ss) => BlockClean(ss);
      case If(c, t, f) => IfClean(c, t, f);
      case LoopDoIt(c, b) => DoItClean(c, b);
      case VarDecl(n, e) =>
        SemiClean(e);
        CleanAppend([Tok(Imagine), Token(Identifier, Some(n)), Tok(Assign)], PrintSemi(e));
      case PrintStmt(e) =>
        ParenClean(e);
        CleanThree([Tok(Print)], PrintParen(e), [Tok(Semicolon)]);
    }
  }

  lemma {:induction false} IfClean(c: Expr, t: seq<Stmt>, f: seq<Stmt>)
    requires Canon(c)
    ensures AllCanon(t) && AllCanon(f) ==> Clean(PrintStmt(If(c, t, f)))
    decreases If(c, t, f), 1
  {
    if AllCanon(t) && AllCanon(f) {
      ParenClean(c);
      BlockClean(t);
      BlockClean(f);
      CleanThree([Tok(Is)], PrintParen(c), PrintBlock(t));
      CleanThree([Tok(Is)] + PrintParen(c) + PrintBlock(t), [Tok(Else)], PrintBlock(f));
    }
  }

  lemma {:induction false} DoItClean(c: Expr, b: seq<Stmt>)
    requires Canon(c)
    ensures AllCanon(b) ==> Clean(PrintStmt(LoopDoIt(c, b)))
    decreases LoopDoIt(c, b), 1
  {
    if AllCanon(b) {
      ParenClean(c);
      BlockClean(b);
      CleanThree([Tok(DoIt)], PrintParen(c), PrintBlock(b));
    }
  }

  lemma {:induction false} BlockClean(ss: seq<Stmt>)
    ensures AllCanon(ss) ==> Clean(PrintBlock(ss))
    decreases ss, 1
  {
    if AllCanon(ss) {
      StmtsClean(ss);
      CleanThree([Tok(LBrace)], PrintStmts(ss), [Tok(RBrace)]);
    }
  }

  lemma {:induction false} StmtsClean(ss: seq<Stmt>)
    ensures AllCanon(ss) ==> Clean(PrintStmts(ss))
    decreases ss, 0
  {
    if AllCanon(ss) && |ss| > 0 {
      StmtClean(ss[0]);
      StmtsClean(ss[1..]);
      CleanAppend(PrintStmt(ss[0]), PrintStmts(ss[1..]));
    }
  }

  /**
   * The round trip: a program whose statements the parser can build is
   * printed to a well-formed token stream, and parsing that stream gives
   * back the same program.
   */
  lemma {:induction false} ProgramRoundTrip(p: Program)
    requires AllCanon(p.body)
    ensures WellFormed(PrintProgram(p))
    ensures ParseProgram(PrintProgram(p)) == Some(p)
  {
    var toks := PrintProgram(p);
    StmtsClean(p.body);
    assert forall j | 0 <= j < |PrintStmts(p.body)| :: toks[0 + j] == PrintStmts(p.body)[j];
    ProgramItemsPrint(p.body, toks, 0);
  }
}

=== FILE: runtime.dfy ===
/**
 * The two pieces of run-time behaviour the generated code builds itself:
 * the decimal formatter `print` emits for a number, and the counted `doit`
 * loop around the r10 register.
 */
module Runtime {
  import opened Decimal
  import opened Ast
  import opened Asm
  import Codegen
  import Collection

  // ----- the number formatter -----

  /** A 64-bit magnitude has at most 19 digits. */
  lemma MagnitudeDigits(n: nat)
    requires n <= -MinInt64
    ensures |Digits(n)| <= 19
  {
    Pow10Of19();
    DigitsLength(n, 19);
  }

  /** One division by ten splits off the last digit. */
  lemma DigitStep(rest: nat)
    ensures rest < 10 ==> Digits(rest) == [DigitChar(rest % 10)]
    ensures rest >= 10 ==> Digits(rest) == Digits(rest / 10) + [DigitChar(rest % 10)]
  {
  }

  /**
   * The digit loop of the formatter emitted for `print`, on the 64-byte
   * `numbuf`: one division by ten per digit, at least one, each digit
   * written just before the previous one, starting at the end.
   */
  method WriteDigits(numbuf: array<char>, n: nat) returns (rsi: int)
    requires numbuf.Length == 64
    requires n <= -MinInt64
    modifies numbuf
    ensures 45 <= rsi < 64
    ensures numbuf[rsi..] == Digits(n)
    ensures numbuf[..rsi] == old(numbuf[..rsi])
  {
    var rax := n;
    rsi := 64;
    MagnitudeDigits(n);
    var done := false;
    while !done
      invariant 45 <= rsi <= 64
      invariant !done ==> Digits(n) == Digits(rax) + numbuf[rsi..]
      invariant done ==> Digits(n) == numbuf[rsi..] && rsi < 64
      invariant numbuf[..rsi] == old(numbuf[..rsi])
      decreases if done then 0 else rax + 1
    {
      DigitStep(rax);
      ghost var written := numbuf[rsi..];
      var digit := rax % 10;
      rsi := rsi - 1;
      numbuf[rsi] := DigitChar(digit);
      rax := rax / 10;
      assert numbuf[rsi..] == [DigitChar(digit)] + written;
      done := rax == 0;
    }
  }

  /**
   * The whole formatter: the digits of the magnitude, then a `-` in front
   * for a negative value; the text passed to `write` is the slice from the
   * final write position to the end of the buffer. `neg` on the most
   * negative value leaves the same bit pattern, which the unsigned `div`
   * reads as 2^63, so the magnitude is modelled as a nonnegative integer.
   */
  method FormatNumber(numbuf: array<char>, v: int) returns (start: int)
    requires numbuf.Length == 64
    requires MinInt64 <= v <= MaxInt64
    modifies numbuf
    ensures 44 <= start < 64
    ensures numbuf[start..] == DecimalText(v)
    ensures numbuf[..start] == old(numbuf[..start])
  {
    var magnitude: nat := if v < 0 then -v else v;
    start := WriteDigits(numbuf, magnitude);
    if v < 0 {
      start := start - 1;
      numbuf[start] := '-';
      assert numbuf[start..] == "-" + numbuf[start + 1..];
    }
  }

  // ----- the doit loop -----

  /**
   * r10 after `k` trips of a `doit` loop whose count evaluated to `count`,
   * when one run of the body turns r10 = x into `body(x)`: each trip runs
   * the body and then `dec r10`.
   */
  function R10After(count: int, body: int -> int, k: nat): int {
    if k == 0 then count else body(R10After(count, body, k - 1)) - 1
  }

  /**
   * The loop runs the body exactly `k` times: `cmp r10, 0; jle` skips a
   * count of at most zero, and otherwise `jnz` goes round again until r10
   * is zero after a decrement.
   */
  predicate RunsExactly(count: int, body: int -> int, k: nat) {
    if count <= 0 then k == 0
    else k >= 1 && R10After(count, body, k) == 0 && forall j | 1 <= j < k :: R10After(count, body, j) != 0
  }

  /** A count of zero or less skips the body. */
  lemma DoitSkips(count: int, body: int -> int)
    requires count <= 0
    ensures RunsExactly(count, body, 0)
    ensures forall k: nat | k > 0 :: !RunsExactly(count, body, k)
  {
  }

  lemma {:induction false} CountsDown(count: int, body: int -> int, k: nat)
    requires forall x :: body(x) == x
    ensures R10After(count, body, k) == count - k
  {
    if k > 0 {
      CountsDown(count, body, k - 1);
    }
  }

  /** A body that leaves r10 alone runs exactly `count` times. */
  lemma DoitCounts(count: int, body: int -> int)
    requires count > 0
    requires forall x :: body(x) == x
    ensures RunsExactly(count, body, count)
  {
    CountsDown(count, body, count);
    forall j | 1 <= j < count
      ensures R10After(count, body, j) != 0
    {
      CountsDown(count, body, j);
    }
  }

  /**
   * A body that leaves r10 at zero or below (an inner `doit` does: it
   * exits with r10 zero after running, or at its own count of at most
   * zero after skipping) never lets a positive count finish: after every
   * trip r10 is negative, so `jnz` always loops back.
   */
  lemma DoitClobbered(count: int, body: int -> int)
    requires count > 0
    requires forall x :: body(x) <= 0
    ensures forall k: nat :: !RunsExactly(count, body, k)
  {
    forall k: nat | k >= 1
      ensures R10After(count, body, k) < 0
    {
      assert R10After(count, body, k) == body(R10After(count, body, k - 1)) - 1;
    }
  }

  // ----- which code writes r10 -----

  /** Whether a statement contains a `doit` loop, at any depth. */
  predicate HasDoit(s: Stmt)
    decreases s, 1
  {
    match s
    case LoopDoIt(_, _) => true
    case If(_, t, f) => AnyDoit(t) || AnyDoit(f)
    case Block(ss) => AnyDoit(ss)
    case _ => false
  }

  predicate AnyDoit(ss: seq<Stmt>)
    decreases ss, 0
  {
    |ss| > 0 && (AnyDoit(ss[..|ss| - 1]) || HasDoit(ss[|ss| - 1]))
  }

  lemma FormatterKeepsR10(n: int)
    ensures !Codegen.TouchesR10(Codegen.NumberCode(n))
    ensures !Codegen.TouchesR10(Codegen.NewlineCode())
  {
  }

  lemma KeepsR10Concat(a: seq<Line>, b: seq<Line>, c: seq<Line>)
    requires !Codegen.TouchesR10(a) && !Codegen.TouchesR10(b) && !Codegen.TouchesR10(c)
    ensures !Codegen.TouchesR10(a + b + c)
  {
    Codegen.R10Concat(a, b);
    Codegen.R10Concat(a + b, c);
  }

  lemma PrintKeepsR10(e: Expr, vi: Codegen.Index, si: Codegen.Index, l: int)
    requires Collection.Covered(e, vi.Keys, si.Keys)
    ensures !Codegen.TouchesR10(Codegen.PrintCode(e, vi, si, l).code)
  {
    if !e.StrLit? {
      Codegen.ExprCodeStraight(e, vi, si);
      FormatterKeepsR10(l + 1);
      KeepsR10Concat(Codegen.ExprCode(e, vi, si), Codegen.NumberCode(l + 1), Codegen.NewlineCode());
    }
  }

  /**
   * The only code that writes r10 is a `doit` loop's: a statement's code
   * writes r10 exactly when the statement contains a `doit`. So a loop body
   * keeps the trip count in r10 unless it holds a nested loop.
   */
  lemma {:induction false} StmtTouchesR10(s: Stmt, vi: Codegen.Index, si: Codegen.Index, l: int)
    requires Collection.StmtCovered(s, vi.Keys, si.Keys)
    ensures Codegen.TouchesR10(Codegen.StmtCode(s, vi, si, l).code) <==> HasDoit(s)
    decreases s, 1
  {
    match s
    case YeetStmt(e) =>
      Codegen.ExprCodeStraight(e, vi, si);
      Codegen.R10Concat(Codegen.ExprCode(e, vi, si), [MovReg(Rdi, Rax), MovImm(Rax, 60), Syscall]);
    case ExprStmt(e) => Codegen.ExprCodeStraight(e, vi, si);
    case VarDecl(n, v) =>
      Codegen.ExprCodeStraight(v, vi, si);
      Codegen.R10Concat(Codegen.ExprCode(v, vi, si), [StoreVar(vi[n])]);
    case PrintStmt(e) => PrintKeepsR10(e, vi, si, l);
    case Block(ss) => BlockTouchesR10(ss, vi, si, l);
    case If(c, t, f) =>
      var thenCode := Codegen.BlockCode(t, vi, si, l + 2);
      BlockTouchesR10(t, vi, si, l + 2);
      BlockTouchesR10(f, vi, si, thenCode.next);
      Codegen.ExprCodeStraight(c, vi, si);
      IfR10(Codegen.ExprCode(c, vi, si), thenCode.code, Codegen.BlockCode(f, vi, si, thenCode.next).code, l);
    case LoopDoIt(c, b) =>
      LoopR10(Codegen.ExprCode(c, vi, si), Codegen.BlockCode(b, vi, si, l + 2).code, l);
  }

  lemma IfR10(cond: seq<Line>, thenCode: seq<Line>, elseCode: seq<Line>, l: int)
    requires !Codegen.TouchesR10(cond)
    ensures Codegen.TouchesR10(cond + [CmpImm(Rax, 0), Jump(Eq, Plain(l + 1))] + thenCode
                               + [Jmp(Plain(l + 2)), Def(Plain(l + 1))] + elseCode + [Def(Plain(l + 2))])
            <==> Codegen.TouchesR10(thenCode) || Codegen.TouchesR10(elseCode)
  {
    var a := cond + [CmpImm(Rax, 0), Jump(Eq, Plain(l + 1))];
    Codegen.R10Concat(cond, [CmpImm(Rax, 0), Jump(Eq, Plain(l + 1))]);
    Codegen.R10Concat(a, thenCode);
    Codegen.R10Concat(a + thenCode, [Jmp(Plain(l + 2)), Def(Plain(l + 1))]);
    Codegen.R10Concat(a + thenCode + [Jmp(Plain(l + 2)), Def(Plain(l + 1))], elseCode);
    Codegen.R10Concat(a + thenCode + [Jmp(Plain(l + 2)), Def(Plain(l + 1))] + elseCode, [Def(Plain(l + 2))]);
  }

  lemma LoopR10(count: seq<Line>, body: seq<Line>, l: int)
    ensures Codegen.TouchesR10(count + [MovReg(R10, Rax), CmpImm(R10, 0), Jump(Le, Plain(l + 2)), Def(Plain(l + 1))]
                               + body + [Dec(R10), Jump(Nz, Plain(l + 1)), Def(Plain(l + 2))])
  {
    var head := count + [MovReg(R10, Rax), CmpImm(R10, 0), Jump(Le, Plain(l + 2)), Def(Plain(l + 1))];
    assert head[|count|] == MovReg(R10, Rax);
    Codegen.R10Concat(head, body);
    Codegen.R10Concat(head + body, [Dec(R10), Jump(Nz, Plain(l + 1)), Def(Plain(l + 2))]);
  }

  lemma {:induction false} BlockTouchesR10(ss: seq<Stmt>, vi: Codegen.Index, si: Codegen.Index, l: int)
    requires Collection.StmtsCovered(ss, vi.Keys, si.Keys)
    ensures Codegen.TouchesR10(Codegen.BlockCode(ss, vi, si, l).code) <==> AnyDoit(ss)
    decreases ss, 0
  {
    if |ss| > 0 {
      var init := Codegen.BlockCode(ss[..|ss| - 1], vi, si, l);
      BlockTouchesR10(ss[..|ss| - 1], vi, si, l);
      StmtTouchesR10(ss[|ss| - 1], vi, si, init.next);
      Codegen.R10Concat(init.code, Codegen.StmtCode(ss[|ss| - 1], vi, si, init.next).code);
    }
  }
}

=== FILE: tokenizer.dfy ===
/**
 * The lexer as the source writes it: a cursor `i` over the source text that
 * `Advance`, `Match` and `SkipWs` move forward, and a loop in `Tokenize` that
 * appends tokens one by one. `Tokenize` is proved to compute `Lexer.LexFrom`.
 */
module Tokenization {
  import opened Wrappers
  import opened Lexer

  class Tokenizer {
    const src: string
    var i: nat

    ghost predicate Valid()
      reads this
    {
      i <= |src|
    }

    constructor (s: string)
      ensures Valid() && src == s && i == 0
    {
      src := s;
      i := 0;
    }

    predicate IsAtEnd()
      reads this
    {
      i >= |src|
    }

    function Peek(): char
      reads this
      requires i < |src|
    {
      src[i]
    }

    method Advance() returns (c: char)
      requires i < |src|
      modifies this
      ensures c == src[old(i)] && i == old(i) + 1
    {
      c := src[i];
      i := i + 1;
    }

    /** Consumes `ch` when it is the next character. */
    method Match(ch: char) returns (matched: bool)
      requires Valid()
      modifies this
      ensures Valid()
      ensures matched <==> old(i) < |src| && src[old(i)] == ch
      ensures i == if matched then old(i) + 1 else old(i)
    {
      if !IsAtEnd() && src[i] == ch {
        i := i + 1;
        return true;
      }
      return false;
    }

    method SkipWs()
      requires Valid()
      modifies this
      ensures Valid() && i == RunEnd(src, old(i), IsSpace)
    {
      while !IsAtEnd() && IsSpace(src[i])
        invariant old(i) <= i <= |src|
        invariant RunEnd(src, i, IsSpace) == RunEnd(src, old(i), IsSpace)
        decreases |src| - i
      {
        i := i + 1;
      }
    }

    method ReadNumber() returns (lexeme: string)
      requires Valid()
      modifies this
      ensures Valid() && i == RunEnd(src, old(i), IsDigit) && lexeme == src[old(i)..i]
    {
      var s := i;
      while !IsAtEnd() && IsDigit(src[i])
        invariant s <= i <= |src|
        invariant RunEnd(src, i, IsDigit) == RunEnd(src, s, IsDigit)
        decreases |src| - i
      {
        i := i + 1;
      }
      lexeme := src[s..i];
    }

    method ReadIdent() returns (lexeme: string)
      requires Valid()
      modifies this
      ensures Valid() && i == RunEnd(src, old(i), IsIdentPart) && lexeme == src[old(i)..i]
    {
      var s := i;
      while !IsAtEnd() && IsIdentPart(src[i])
        invariant s <= i <= |src|
        invariant RunEnd(src, i, IsIdentPart) == RunEnd(src, s, IsIdentPart)
        decreases |src| - i
      {
        i := i + 1;
      }
      lexeme := src[s..i];
    }

    /** Reads a string literal whose opening quote is at the cursor; None when the closing quote is missing. */
    method ReadString() returns (r: Option<string>)
      requires Valid() && i < |src| && src[i] == '"'
      modifies this
      ensures Valid()
      ensures r.Some? <==> RunEnd(src, old(i) + 1, IsNotQuote) < |src|
      ensures r.Some? ==> r.value == src[old(i) + 1..RunEnd(src, old(i) + 1, IsNotQuote)]
      ensures r.Some? ==> i == RunEnd(src, old(i) + 1, IsNotQuote) + 1
    {
      var _ := Advance();
      var s := i;
      while !IsAtEnd() && Peek() != '"'
        invariant s <= i <= |src|
        invariant RunEnd(src, i, IsNotQuote) == RunEnd(src, s, IsNotQuote)
        decreases |src| - i
      {
        i := i + 1;
      }
      var v := src[s..i];
      if IsAtEnd() {
        return None;
      }
      var _ := Advance();
      return Some(v);
    }

    /** Appends one token per lexeme, then the end-of-input token; fails as a whole on the first bad character. */
    method Tokenize() returns (r: Option<seq<Token>>)
      requires Valid()
      modifies this
      ensures r == LexFrom(src, old(i))
    {
      var out: seq<Token> := [];
      assert Then(out, LexFrom(src, i)) == LexFrom(src, i) by {
        if LexFrom(src, i).Some? { assert out + LexFrom(src, i).value == LexFrom(src, i).value; }
      }
      while !IsAtEnd()
        invariant Valid()
        invariant Then(out, LexFrom(src, i)) == LexFrom(src, old(i))
        decreases |src| - i
      {
        ghost var p := i;
        SkipWs();
        if IsAtEnd() {
          break;
        }
        ghost var j := i;
        var t := NextToken();
        if t.None? {
          ScanFailed(src, p, j, out);
          return None;
        }
        Scanned(src, p, j, out, t.value, i);
        out := out + [t.value];
      }
      out := out + [Token(Eof, None)];
      return Some(out);
    }

    /**
     * The body of the tokenizing loop: the token at the cursor, which is on a
     * non-blank character, with the cursor moved past it; None where lexing fails.
     */
    method NextToken() returns (t: Option<Token>)
      requires Valid() && i < |src|
      modifies this
      ensures Valid()
      ensures Scan(src, old(i)) == if t.Some? then Some((t.value, i)) else None
    {
      var c := Peek();
      if IsDigit(c) {
        var n := ReadNumber();
        return Some(Token(Int, Some(n)));
      }
      if IsAlpha(c) || c == '_' {
        var id := ReadIdent();
        if id == "is" { return Some(Token(Is, None)); }
        else if id == "else" { return Some(Token(Else, None)); }
        else if id == "doit" { return Some(Token(DoIt, None)); }
        else if id == "yeet" { return Some(Token(Yeet, None)); }
        else if id == "imagine" { return Some(Token(Imagine, None)); }
        else if id == "print" { return Some(Token(Print, None)); }
        else { return Some(Token(Identifier, Some(id))); }
      }
      if c == '"' {
        var str := ReadString();
        if str.None? {
          return None;
        }
        return Some(Token(String, str));
      }
      t := NextSymbol(c);
    }

    /** The operator branches of the loop body, for a character that starts no number, word or string. */
    method NextSymbol(c: char) returns (t: Option<Token>)
      requires Valid() && i < |src| && c == src[i]
      requires !IsDigit(c) && !(IsAlpha(c) || c == '_') && c != '"'
      modifies this
      ensures Valid()
      ensures Scan(src, old(i)) == if t.Some? then Some((t.value, i)) else None
    {
      if c == '+' { var _ := Advance(); return Some(Token(Plus, None)); }
      if c == '-' { var _ := Advance(); return Some(Token(Minus, None)); }
      if c == '*' { var _ := Advance(); return Some(Token(Star, None)); }
      if c == '/' { var _ := Advance(); return Some(Token(Slash, None)); }
      if c == '%' { var _ := Advance(); return Some(Token(Percent, None)); }
      if c == '(' { var _ := Advance(); return Some(Token(LParen, None)); }
      if c == ')' { var _ := Advance(); return Some(Token(RParen, None)); }
      if c == '{' { var _ := Advance(); return Some(Token(LBrace, None)); }
      if c == '}' { var _ := Advance(); return Some(Token(RBrace, None)); }
      if c == ';' { var _ := Advance(); return Some(Token(Semicolon, None)); }
      if c == '!' {
        var _ := Advance();
        var eq := Match('=');
        if eq { return Some(Token(BangEqual, None)); } else { return None; }
      }
      if c == '<' {
        var _ := Advance();
        var eq := Match('=');
        if eq { return Some(Token(LessEqual, None)); } else { return Some(Token(Less, None)); }
      }
      if c == '>' {
        var _ := Advance();
        var eq := Match('=');
        if eq { return Some(Token(GreaterEqual, None)); } else { return Some(Token(Greater, None)); }
      }
      if c == '=' {
        var _ := Advance();
        var eq := Match('=');
        if eq { return Some(Token(EqualEqual, None)); } else { return Some(Token(Assign, None)); }
      }
      return None;
    }
  }

  /** One token scanned at `j`, the first non-blank index from `p`: the lex from `p` continues after it. */
  lemma Scanned(s: string, p: nat, j: nat, out: seq<Token>, t: Token, k: nat)
    requires p <= |s| && j == RunEnd(s, p, IsSpace) && j < |s|
    requires Scan(s, j) == Some((t, k))
    ensures Then(out, LexFrom(s, p)) == Then(out + [t], LexFrom(s, k))
  {
    match LexFrom(s, k)
    case None =>
    case Some(ts) => assert out + ([t] + ts) == (out + [t]) + ts;
  }

  /** A failed scan at the first non-blank index fails the whole lex. */
  lemma ScanFailed(s: string, p: nat, j: nat, out: seq<Token>)
    requires p <= |s| && j == RunEnd(s, p, IsSpace) && j < |s|
    requires Scan(s, j) == None
    ensures Then(out, LexFrom(s, p)) == None
  {
  }

  /** Runs a fresh tokenizer over the whole text. */
  method LexSource(s: string) returns (r: Option<seq<Token>>)
    ensures r == Lex(s)
    ensures r.Some? ==> WellFormed(r.value)
  {
    var t := new Tokenizer(s);
    r := t.Tokenize();
    LexWellFormed(s, 0);
  }
}

=== FILE: wrappers.dfy ===
/** The optional value the compiler's stages return when they fail. */
module Wrappers {
  datatype Option<+T> = None | Some(value: T)
}
